=== FILE: README.md ===
# Voxel engine core in Dafny

This project models the integer core of a browser voxel sandbox (CS559-IP3). The model covers:

- **Chunk storage.** `VoxelChunk` is a 16 × 128 × 16 plane of block ids plus a metadata plane, addressed through `idx`.
- **World index.** `VoxelWorld` holds the chunk map, world-to-chunk coordinate translation and the batch session.
- **Write paths.** `setBlockWorld`, `setBlockWorldWithMeta` and `_setBlockRaw` all share one rebuild rule: the chunk itself, plus the neighbour across each seam the cell touches.
- **Fluid automaton.**
  - The FIFO spread queue.
  - The parent/child graph.
  - The insertion-ordered retraction set.
  - Fluid entry and placement, including the water/lava reaction to cobblestone.
  - Per-cell processing.
  - The sponge.
  - The `_stepFluids` tick.
- **Structure stamping.**
  - The `PendingBlocks` buffer.
  - The cross-chunk block writer.
  - Rotation, `worldAt`, `fillLocal` and `bboxFromLocal`.
- **Village layout.** The Bresenham road raster, Prim's spanning tree, the spaced plot scatter and the building overlap filter.
- **Vegetation.** Column tops, the slope test, surface plants and mushrooms.
- **Player placement.** The block-placement rule and the solidity test.

Every operation is a pure state transition on immutable data:

- A chunk is a datatype over two sequences.
- The world is a record of the chunk map, the set of registered render chunks, the batch (`None` when no session is open), a rebuild log and the fluid state.
- A render chunk's `rebuildGeometry` call is modelled as appending that chunk's position to the log. "Each dirty key is rebuilt once" then becomes a postcondition.
- Fluid keys are the typed `FluidNode(fluid, x, y, z)`, not the source's `"type,x,y,z"` string.
- The retraction `Set` is a duplicate-free sequence, which keeps its insertion order.
- JavaScript's truncating `%` is written out (`Coords.JsRem`). It is proved to agree with the floor-based chunk coordinate after the `+16` fix-up.

Random draws are function parameters:

- `rand01`/`coordRand` become a `Draw` over (stream, x, y, z).
- The plot candidate is `candidate(i, try)`.
- The entity-overlap test of block placement is a boolean input.

Floating-point probabilities are compared as exact reals.

Two behaviours of the code are modelled as written:

- **The bottom layer.** A fluid cell at `y = Y_MIN` sees AIR below it, because an out-of-range read returns AIR. It therefore "falls" into the void: the write is a no-op, but the node below is still linked and enqueued, and the cell never spreads sideways (`FluidSim.BottomLayerFallsOut`).
- **A torch in a liquid.** A torch placed into a liquid goes through the metadata write path, which has no fluid hooks. The liquid's graph entries persist: the queue's stale-entry check only skips the cell, and the parent/child entries stay until a retraction reaches that key (`Placement.TorchIntoLiquidKeepsFluidGraph`).

## Model

| member | source | states |
|---|---|---|
| Blocks.FluidOf | voxel_engine.js:194-204 | a liquid id maps to the fluid whose id it is |
| Blocks.FluidIdsDistinct | voxel_engine.js:194-204 | water and lava have distinct ids, both are liquids, neither is fluid-replaceable, the reaction partner is an involution, and an id maps back to its fluid |
| Chunk.Idx | voxel_engine.js:18-22 | every in-range cell packs to an index below 16·128·16 |
| Chunk.IdxInjective | voxel_engine.js:18-22 | distinct in-range cells never share a storage slot |
| Chunk.IdxFrame | voxel_engine.js:18-22 | no other in-range cell maps to a given cell's index |
| Chunk.NewChunk | voxel_engine.js:26-32 | a new chunk is all AIR with metadata 0 and keeps its chunk coordinates |
| Chunk.GetBlock | voxel_engine.js:33-44 | out-of-range reads return AIR |
| Chunk.SetBlock | voxel_engine.js:45-56 | out of range nothing changes; in range the cell reads back the id and every other cell and all metadata are unchanged |
| Chunk.GetMeta | voxel_engine.js:58-69 | the read is null exactly when the cell is out of range |
| Chunk.SetMeta | voxel_engine.js:71-82 | out of range nothing changes; in range the cell reads back the value and every other cell and all blocks are unchanged |
| Coords.JsRem | voxel_engine.js:538-539 | the truncating remainder lies strictly between -16 and 16 and takes the dividend's sign |
| Coords.ChunkCoord | voxel_engine.js:534-535 | w lies in the 16-wide span of its chunk coordinate |
| Coords.LocalCoord | voxel_engine.js:538-539 | the local coordinate lies in [0,16) and chunk·16 + local = w |
| Coords.RemFixup | voxel_engine.js:538-539 | `((w % 16) + 16) % 16` with truncating `%` equals w minus its chunk origin |
| Coords.WorldToLocalInjective | voxel_engine.js:531-543 | equal chunk and local coordinates mean equal world coordinates |
| Coords.ChunkLocalRoundTrip | voxel_engine.js:531-543 | translating chunk·16 + l back gives chunk and l |
| OrderedSet.Add | voxel_engine.js:899-905 | Set.add: membership gains x; an existing member leaves the order unchanged, otherwise x is appended; no duplicates arise |
| OrderedSet.Remove | voxel_engine.js:907-912 | Set.delete: membership loses exactly x and duplicate-freedom is kept |
| OrderedSet.AddAll | voxel_engine.js:924-930 | adding a child set keeps the old order as a prefix, stays duplicate-free and has the union's members |
| FluidGraph.Enqueue | voxel_engine.js:623-629 | the node is appended to the queue; the graph and the retraction set are untouched |
| FluidGraph.Dequeue | voxel_engine.js:631-643 | an empty queue yields null and no change; otherwise the head is returned and the rest stays in order |
| FluidGraph.ScheduleRetraction | voxel_engine.js:899-905 | the removed fluid's key joins the retraction set and nothing else changes |
| FluidGraph.TakeOneRetractPending | voxel_engine.js:907-912 | the first key in insertion order is taken and removed; empty gives null |
| World.GetChunk | voxel_engine.js:522-524 | a chunk is found exactly when its coordinates are in the map |
| World.SetChunk | voxel_engine.js:526-529 | the chunk is stored under its coordinates and every other entry is kept |
| World.RegisterRenderChunk | voxel_engine.js:518-520 | the render chunk is registered and the voxel data is untouched |
| World.GetBlockWorld | voxel_engine.js:531-543 | AIR outside [Y_MIN, Y_MAX] or in an unloaded chunk |
| World.GetBlockWorldReadsChunk | voxel_engine.js:531-543 | a world read at chunk·16 + local returns that chunk's local cell |
| World.GetFluidLevel | voxel_engine.js:580-588 | a level exists exactly when the cell is loaded and in range |
| World.BeginBatch | voxel_engine.js:545-547 | opens an empty dirty set, discarding any earlier one |
| World.RegisteredOnly | voxel_engine.js:551-556 | keeps exactly the keys with a registered render chunk, without duplicates |
| World.EndBatch | voxel_engine.js:549-561 | no session: no-op; otherwise the log gains exactly the registered dirty keys, each once, and the session closes |
| World.AffectedChunks | voxel_engine.js:682-686 | the own chunk first, plus exactly the neighbours across touched seams, at most 3 distinct keys |
| World.ScheduleRebuilds | voxel_engine.js:688-698 | with a session open the keys join the dirty set; otherwise each registered key is rebuilt at once |
| World.StoreBlock | voxel_engine.js:679 | the loaded cell reads back the id and every other cell and all metadata are kept |
| World.StoreMeta | voxel_engine.js:766-768 | the loaded cell's level reads back the value and all blocks are kept |
| World.SetBlockRaw | voxel_engine.js:983-1020 | no-op when out of range, unloaded or unchanged; otherwise writes the cell, schedules the affected chunks and leaves the fluid state untouched |
| World.SetBlockWorldWithMeta | voxel_engine.js:743-789 | no-op when unloaded or when both id and meta are unchanged; otherwise writes both, schedules the affected chunks and runs no fluid hooks |
| Propagator.InSphereBox | voxel_engine.js:156-170 | a cell within squared distance 36 lies in the 13-wide cube the sponge loops scan |
| Propagator.SpongeStepsCompose | voxel_engine.js:164-180 | drying steps compose: liquids cleared stay cleared and their keys stay scheduled |
| Propagator.SpongeCell | voxel_engine.js:171-179 | a liquid cell in the sphere becomes AIR through the raw write, and its fluid key is scheduled for retraction explicitly |
| Propagator.SpongeX | voxel_engine.js:167-180 | the innermost loop leaves no liquid in its row segment within the sphere |
| Propagator.SpongeZ | voxel_engine.js:166-181 | the middle loop leaves no liquid in its slice within the sphere |
| Propagator.SpongeY | voxel_engine.js:165-182 | the outer loop leaves no liquid in the layers it covered |
| Propagator.SpongeScan | voxel_engine.js:162-181 | the three nested loops leave no liquid within squared distance 36, schedule each dried liquid for retraction and change nothing outside the sphere |
| Propagator.ApplySponge | voxel_engine.js:156-184 | no loaded cell within squared distance 36 holds liquid afterwards; each dried liquid is scheduled for retraction; the sponge's own batch is closed |
| Propagator.LiquidNeighbour | voxel_engine.js:722-738 | a neighbour is reported exactly when the cell in direction j holds a liquid; the report is that cell, 6-adjacent, typed with the liquid it holds |
| Propagator.LiquidNeighbours | voxel_engine.js:722-738 | one entry per direction of the six-neighbour scan, in scan order; an entry is present exactly where that neighbour holds a liquid, and then it is that cell's fluid node |
| Propagator.Present | voxel_engine.js:731-739 | the reported nodes are exactly the directions that found a liquid |
| Propagator.EnqueueLiquidNeighbours | voxel_engine.js:722-738 | the queue keeps its old items as a prefix and gains exactly the liquid 6-neighbours |
| Propagator.FluidHooks | voxel_engine.js:705-739 | non-fluid→fluid enqueues the cell as a root; fluid→non-fluid schedules the old key for retraction; writing AIR enqueues liquid neighbours |
| Propagator.WriteWithSponge | voxel_engine.js:677-703 | writes the id and schedules the affected chunks; a sponge also dries the sphere, and the chunks scheduled before it stay scheduled (still dirty in an open session, or rebuilt first without one); every other cell the sponge dried has its fluid node pending retraction |
| Propagator.SetBlockWorld | voxel_engine.js:658-741 | no-op when out of range, unloaded or unchanged; otherwise the cell takes the id and the affected chunks are scheduled (for a sponge, before the drying pass, and they stay scheduled after it); a liquid replacing a liquid enqueues nothing; no retraction is scheduled unless a liquid was removed or a sponge placed; every cell that stopped holding a liquid, the written one or one the sponge dried, has its fluid node pending retraction |
| FluidSim.CanFluidEnter | voxel_engine.js:832-849 | entry is allowed exactly for AIR and plants; meeting the other fluid turns that cell to COBBLESTONE and schedules its retraction |
| FluidSim.DetachFromOldParent | voxel_engine.js:877-882 | the key leaves a different old parent's child set and every other child set is kept |
| FluidSim.ReactWithOther | voxel_engine.js:858-866 | the other fluid's cell becomes COBBLESTONE and its graph entries are deleted |
| FluidSim.Link | voxel_engine.js:877-894 | the parent is recorded, the key joins the parent's children and leaves a different old parent's |
| FluidSim.PlaceAndLink | voxel_engine.js:874-896 | the block and level are written when loaded; the graph is linked and the cell is enqueued even when unloaded |
| FluidSim.PlaceFluidWithLevel | voxel_engine.js:851-897 | the three cases: reaction to cobblestone, same fluid at a level ≤ requested gives no change, otherwise place, link and enqueue |
| FluidSim.PlaceIntoEnterable | voxel_engine.js:851-897 | for an AIR or plant cell, placing a fluid is exactly write, link and enqueue |
| FluidSim.NeighbourShape | voxel_engine.js:964-975 | each horizontal neighbour has the same fluid and height |
| FluidSim.NeighboursDistinct | voxel_engine.js:964-973 | the four horizontal neighbours are distinct cells |
| FluidSim.NeighbourNotLater | voxel_engine.js:964-973 | a neighbour's cell is not repeated later in the order |
| FluidSim.SpreadInto | voxel_engine.js:975-978 | an enterable neighbour receives the fluid at the level; the other fluid turns to cobblestone; anything else is left alone |
| FluidSim.SpreadLaterally | voxel_engine.js:960-980 | only the remaining neighbours change and only they are enqueued |
| FluidSim.SpreadLaterallyEnters | voxel_engine.js:960-980 | each remaining neighbour is entered as `SpreadInto` describes, even after earlier neighbours changed the world |
| FluidSim.EnteredThroughEarlier | voxel_engine.js:964-978 | an earlier direction, which touched another cell, does not change what a later entry achieves |
| FluidSim.FlowDown | voxel_engine.js:952-957 | gravity places level 0 below, parented to the cell, enqueues exactly that node, schedules no retraction and changes no other block |
| FluidSim.SpreadAround | voxel_engine.js:960-980 | all four neighbours are entered at the given level and nothing outside them changes |
| FluidSim.EnteredTransfer | voxel_engine.js:952-960 | the entry facts for all four neighbours survive the cobblestone reaction of the failed downward test |
| FluidSim.FlowSideways | voxel_engine.js:952-980 | with no way down, neighbours get level+1 only while level < max (water 4, lava 3); the other fluid below becomes cobblestone; only the neighbours and the cell below change, and only neighbours are enqueued |
| FluidSim.ProcessFluidCell | voxel_engine.js:941-981 | a stale entry is dropped; gravity takes precedence over lateral spread; only the cell below and the four neighbours can change, and new queue items are the cell below or its neighbours |
| FluidSim.BottomLayerFallsOut | voxel_engine.js:949-957 | a fluid at Y_MIN changes no block, enqueues the void cell below and spreads nowhere |
| FluidSim.RetractGraph | voxel_engine.js:920-938 | the key's children move into the retraction set, the key detaches from its parent, and its entries are deleted |
| FluidSim.ProcessRetractionKey | voxel_engine.js:914-939 | the cell is cleared by the raw write only if it still holds that fluid, so afterwards it never holds it, and no other cell changes; the graph update is unconditional |
| FluidSim.SpreadOne | voxel_engine.js:1032-1036 | the head is dequeued and processed as `_processFluidCell` does: dropped when stale, otherwise the gravity or the sideways outcome on the dequeued world; the rest of the queue stays ahead of new items |
| FluidSim.SpreadPhase | voxel_engine.js:1029-1038 | the first n queue items are taken in FIFO order and the rest stays at the front; only cells under or beside a taken item change, and every appended item is under or beside a taken item |
| FluidSim.FifoStep | voxel_engine.js:1029-1038 | after dequeuing the head, the processed trace of the rest extends to the original queue in order |
| FluidSim.RetractPhase | voxel_engine.js:1044-1053 | at most n keys, starting with the set's first min(n, size) keys in order; it stops early only when the set, including keys added during the phase, is empty; each taken key is gone from both graph maps and its cell no longer holds its fluid; only taken keys' cells change, to AIR |
| FluidSim.OwnSessionRebuiltOnce | voxel_engine.js:1029-1053 | a phase that opens its own batch rebuilds exactly the registered chunks its writes marked dirty, each once, after the old log |
| FluidSim.SpreadTick | voxel_engine.js:1024-1039 | takes exactly min(128, queue size) items, in order, inside its own batch, whose rebuilds are registered chunks, each at most once; changes and new queue items lie under or beside the taken items |
| FluidSim.RetractTick | voxel_engine.js:1041-1054 | processes at most 3 retraction keys, the set's first min(3, size) in order, inside its own batch, stopping early only on an empty set; the keys are gone from both graph maps, their cells no longer hold their fluid, and only those cells change, to AIR |
| FluidSim.StepFluids | voxel_engine.js:1022-1055 | one tick: min(128, queue) spread items in FIFO order, then at most 3 retraction keys, gone from both graph maps and no longer holding their fluid; a changed cell is under or beside a spread item or a cleared retraction cell, and new queue items lie under or beside spread items |
| Structures.AddBlock | structures.js:26-28 | the write is appended to the (cx, cz) bucket only; other buckets are unchanged |
| Structures.AddMeta | structures.js:29-31 | the meta write is appended to the (cx, cz) bucket only |
| Structures.ApplyBlockWrites | structures.js:38-41 | each in-range cell ends with the last write to it, in insertion order, else its old id |
| Structures.ApplyMetaWrites | structures.js:42-47 | each in-range cell ends with the last meta write to it, else its old value |
| Structures.FlushForChunk | structures.js:32-49 | the chunk's bucket is applied (blocks then metas) and deleted; without a bucket nothing changes |
| Structures.FlushTwiceIsNoOp | structures.js:32-49 | a second flush changes nothing |
| Structures.WorldToLocal | structures.js:57-63 | local coordinates lie in [0,16) and recompose the world coordinate |
| Structures.RouteOf | structures.js:65-99 | direct exactly for the base chunk; neighbour exactly for another loaded chunk; deferred otherwise |
| Structures.WriterSetBlock | structures.js:65-99 | y out of range: ignored; base chunk: written directly; a loaded neighbour: written there; otherwise appended to the pending bucket |
| Structures.WriterSetMeta | structures.js:101-134 | the same three-way routing, applied to metadata |
| Structures.DeferredWriteLandsOnFlush | structures.js:97-98 | a deferred write reaches the chunk when its bucket is flushed, unless a later write overrides it |
| Structures.LastWriteSkipsLater | structures.js:38-41 | writes to other cells appended later do not change a cell's last write |
| Structures.Rot2d | structures.js:146-152 | a whole number of full turns (`rot & 3 == 0`) is the identity and a half turn negates both coordinates |
| Structures.Rot2dKeepsNorm | structures.js:146-152 | rotation preserves the squared distance from the origin |
| Structures.Rot2dCompose | structures.js:146-152 | rotating by a then b equals rotating by (a + b) mod 4 |
| Structures.Rot2dFourTurns | structures.js:146-152 | four quarter turns return the point |
| Structures.WorldAt | structures.js:154-157 | y is wy + ly, unaffected by rotation |
| Structures.WorldAtInverse | structures.js:154-157 | the x/z offset from the origin is the rotated local point |
| Structures.FillTargetsExact | structures.js:163-176 | the filled cells are exactly the rotated images of the box between the corners' min and max, whatever the corner order |
| Structures.WriteAll | structures.js:163-176 | every in-range target routed to the base chunk holds the id afterwards, and every cell of the base chunk no target lands on keeps its block |
| Structures.FillLocal | structures.js:163-176 | the base chunk changes only at cells that are the image of some local cell between the two corners, in either order |
| Structures.FillLocalCovers | structures.js:163-176 | each local point of the box that lands in the base chunk holds the id |
| Structures.Extend | structures.js:264-272 | one step of the min/max loop: the box contains the new point and everything the old one did |
| Structures.ExtendAllLeast | structures.js:264-272 | the min/max fold stays within any box that holds the starting box and every point |
| Structures.CornerImages | structures.js:248-257 | eight corner images; the first four on the layer wy, the last four on wy + h - 1 |
| Structures.BboxFromLocal | structures.js:247-274 | ordered bounds; all eight rotated corners inside; the result is the least such box, inside any box holding the eight corners |
| Structures.BboxHeight | structures.js:247-274 | a rotation about the y axis leaves the height span: y0 = wy and y1 = wy + h - 1 |
| Structures.BboxContains | structures.js:247-274 | every rotated point of [0,w-1]×[0,h-1]×[0,d-1] lies inside the box |
| Terrain.Clamp | terrain_generation.js:165 | v when it lies in [lo, hi]; lo when v is below lo; hi when v is above hi and not below lo; so the result lies in [lo, hi] when lo ≤ hi |
| Terrain.ClampIdempotent | terrain_generation.js:165 | clamping twice is the same as clamping once |
| Terrain.IsBeachRange | terrain_generation.js:173-175 | isBeach holds exactly for 60 ≤ y ≤ 64 (SEA_LEVEL 62, band 2) |
| Terrain.BresenhamStep | terrain_generation.js:1179-1187 | a finished axis takes no step, an unfinished segment always advances, and the error term stays (Z+1)·dx − (X+1)·dz |
| Terrain.BresenhamXZ | terrain_generation.js:1165-1190 | starts at (ax, az), ends at (bx, bz), reaches the end only once, each step moves each coordinate by 0 or 1 toward the target, and at most \|dx\|+\|dz\|+1 points |
| Terrain.RankedTreeSpans | terrain_generation.js:1192-1224 | following parents from any point reaches point 0, so the edges span all points |
| Terrain.BuildMST | terrain_generation.js:1192-1224 | [] for no points; otherwise exactly n−1 edges, edge v−1 joining point v to a parent selected strictly earlier |
| Terrain.ScatterPlots | terrain_generation.js:1226-1250 | plots pairwise at squared distance ≥ minDist², at most count plots, at most count·60 tries, fewer plots only when the tries ran out; plot k is the candidate of the try that accepted it, and every try in between, and every try after the last plot, drew a candidate closer than minDist to an earlier plot |
| Terrain.BboxCollides | terrain_generation.js:1321-1323 | the two footprints overlap on both horizontal axes; its meaning is proved in the two lemmas below |
| Terrain.BboxCollidesSymmetric | terrain_generation.js:1321-1323 | bboxCollides is symmetric |
| Terrain.BboxCollidesMeansSharedColumn | terrain_generation.js:1321-1323 | for ordered boxes, colliding means sharing an (x, z) column |
| Terrain.FarFromAll | terrain_generation.js:1236-1244 | a candidate passes exactly when every existing plot lies at squared distance ≥ minDist² from it |
| Terrain.TooCloseMeans | terrain_generation.js:1236-1244 | the rejection test holds exactly when some earlier plot lies closer than minDist |
| Terrain.PlaceBuildings | terrain_generation.js:1324-1354 | the kept boxes never overlap and each comes from a site above sea level; every site above sea level is stamped, whether or not it is kept; a stamped box that is not kept overlaps a kept one |
| Vegetation.TopFrom | vegetations.js:23-29 | the highest non-AIR y at or below the start, or none when all AIR |
| Vegetation.FindTopY | vegetations.js:23-29 | the highest non-AIR y in [Y_MIN, Y_MAX], or -Infinity (None) when the column is all AIR |
| Vegetation.MaxOf | vegetations.js:42 | Math.max is finite exactly when every delta is, and then is the largest |
| Vegetation.IsGentleSlope | vegetations.js:35-43 | the maximum of the in-chunk neighbour deltas is at most maxDelta, and no neighbours passes; its meaning is proved in IsGentleSlopeMeans |
| Vegetation.IsGentleSlopeMeans | vegetations.js:35-43 | gentle exactly when every in-chunk 4-neighbour has a top within maxDelta; a missing top fails it; no neighbours passes |
| Vegetation.ClusterFactor | vegetations.js:49-56 | the multiplier is 1.6, 0.9 or 0.4 |
| Vegetation.ClusterFactorPerTile | vegetations.js:49-56 | columns of one 8×8 world tile share their multiplier |
| Vegetation.SurfacePlant | vegetations.js:118-130 | GRASS exactly when the roll is below grassRate·patch; a plant exactly when it is below grassRate·patch or (grass+flower)·patch; otherwise nothing; a flower is ROSE or DANDELION |
| Vegetation.ResolveOptions | vegetations.js:71-76 | forbid defaults to nothing forbidden; rates default to 0.05, 0.01 and 0.1 |
| Vegetation.SurfaceChoice | vegetations.js:97-131 | a plant only at top+1 ≤ Y_MAX on GRASS_BLOCK with AIR above, gentle slope and not forbidden; at an eligible column it places exactly what the roll selects |
| Vegetation.AllAir | vegetations.js:166-173 | true exactly when every cell of the range is AIR |
| Vegetation.ScanPocket | vegetations.js:153-184 | the downward scan returns the highest pocket in range, or none |
| Vegetation.MushroomChoice | vegetations.js:140-184 | a mushroom only after the column draw passes, at y+1 for the highest pocket y in [yStart, yEnd], with a non-AIR block in y+2..min(Y_MAX, y+8) |
| Vegetation.Choice | vegetations.js:97-185 | a pass only places plants, and only into AIR |
| Vegetation.ChoiceColumnLocal | vegetations.js:97-185 | a column decision reads only its own column |
| Vegetation.ColumnPass | vegetations.js:97-185 | the sequential z-then-x pass equals deciding every column on the chunk as it stood when the pass began |
| Vegetation.PlaceVegetationForChunk | vegetations.js:66-189 | for the chunk's own world origin: only AIR cells change, and only into plants; every planned surface plant and every mushroom planned on the chunk the surface pass left stands in the result, and every changed cell is one of those placements; the counts are the grass, flower and mushroom placements made |
| Vegetation.PlannedMeans | vegetations.js:97-185 | a placement is planned exactly when its column is in the chunk and the pass decides that cell and block there |
| Vegetation.PlaceVegetationMatchesPlan | vegetations.js:66-189 | the two passes place exactly their plans: each planned cell holds its block, and each changed cell is planned by one pass |
| Vegetation.PlaceVegetationFillsAir | vegetations.js:66-189 | after the surface pass and the mushroom pass, every changed cell was AIR and now holds a plant |
| Placement.IsSolidId | entities.js:825-832 | the id test of `_isSolidAt`: not a liquid, not a plant, not AIR |
| Placement.SolidMeansFluidBlocked | entities.js:825-832 | an id is solid exactly when fluid can neither replace it nor is it a liquid |
| Placement.SolidAt | entities.js:825-832 | solid means not liquid, not a plant, not AIR; unloaded cells are never solid |
| Placement.TorchMeta | entities.js:3971-3999 | the result is in 0..4; 1, 2, 3, 4 exactly for a support at dz=−1, dz=+1, dx=+1, dx=−1 at the same height; otherwise 0 |
| Placement.TorchMetaPointsAtSupport | entities.js:3971-3999 | a side torch's facing offset leads from the torch cell to the aimed block |
| Placement.TryPlaceBlock | entities.js:3949-4009 | no held item, no target, a solid target or an entity overlap change nothing; otherwise, when the target cell is loaded, the held id is written and a torch also gets its facing (an unloaded target reads as AIR and the write is a no-op) |
| Placement.PlacingIntoLiquidRetracts | entities.js:3958-3963 | placing a non-liquid block into a liquid schedules that liquid for retraction |
| Placement.TorchIntoLiquidKeepsFluidGraph | entities.js:4001-4002 | a torch goes through the hook-free metadata write and leaves the fluid graph unchanged |

## Left out

- Meshing and rendering are left out, as are three.js and UVs: `buildChunkGeometry`, `GrVoxelChunk`, `rebuildGeometry` and block_factory.js. A rebuild is only an entry in the log.
- Mob spawning, rain, the float `stepWorld` accumulator and its timers are left out. One `StepFluids` call stands for one tick.
- The noise and hash functions are left out: Perlin noise, `mulberry32`, `coordRand`, `rand01`. Their 32-bit float arithmetic is replaced by the opaque `Draw` and `candidate` inputs.
- The noise-driven terrain passes (heights, caves, ores, trees) and the road rasteriser's height sampling are left out.
- Entity physics, AI, camera and input are left out, as are the UI, sky, clouds, rain and shaders.
- String fluid keys and `_decodeFluidKey` are replaced by the typed `FluidNode`. `_handleFluidReaction` is never called, so it is not modelled.
- Methods read the world through `this.world`; the model passes the world as a parameter instead.
- `Math.floor` of fractional coordinates is not modelled: every coordinate in the model is an integer.
- Uint8 truncation of out-of-range ids is not modelled: the model's ids are bytes.
- The probabilities in the vegetation pass are compared as exact reals, with no IEEE rounding.
- `_setFluidLevel` is not modelled: nothing calls it. Fluid placement writes the level together with the block through `setBlockWorldWithMeta`.
- FluidSim.RetractPhase: when the set holds fewer than n keys, the keys added during the phase that are also taken are not related to any order. Which child keys a retraction adds, and in what order, depends on the graph.
- FluidSim.SpreadTick: its contract says the rebuilds are registered and distinct, but not that every dirty chunk is rebuilt. The session's dirty set is internal to the tick; `FluidSim.OwnSessionRebuiltOnce` states the exact set.
- FluidSim.RetractTick: the same as for `SpreadTick`: at most once per registered chunk; the exact set is stated by `FluidSim.OwnSessionRebuiltOnce`.
- FluidSim.SpreadPhase: what processing each taken item did is stated per step by `FluidSim.SpreadOne`. Across the phase only its footprint is stated: which cells can change and which items can be appended. The intermediate worlds are not part of the result.
- FluidSim.SpreadTick: the same footprint as `SpreadPhase`; per-item processing is stated by `FluidSim.SpreadOne`.
- FluidSim.StepFluids: the same footprint as `SpreadPhase` for the spread half; per-item processing is stated by `FluidSim.SpreadOne`.
- Terrain.BuildMST: it proves the spanning-tree shape (each point's parent chosen earlier, n−1 edges). It does not prove minimality of total length.
- Terrain.ScatterPlots: the candidate for try t of plot i is an input. The source's polar sampling around the centre (radius 10..79, floor of cos/sin) is not modelled.
- Placement.TryPlaceBlock: `_wouldOverlapEntityAt` (floating-point boxes) is a boolean input. The hand-swing animation is not modelled.
- Placement.SolidAt: the `undefined`/`null` id case cannot arise, because a world read always returns an id.
- The village centre selection and the per-site structure templates are left out (`getVillageCentersTouchingChunk`, `placeWell`, …). A site's surface height and the template's bbox are inputs (`Terrain.Site`).

=== FILE: blocks.dfy ===
/** Block identifiers of the block registry and the id predicates the engine
    uses to classify them (liquid, plant, replaceable by fluid, solid). */
module Blocks {

  /** One cell of a Uint8Array plane: block ids and metadata are bytes. */
  type Byte = x: int | 0 <= x < 256

  const AIR: Byte := 0
  const STONE: Byte := 1
  const GRASS_BLOCK: Byte := 2
  const DIRT: Byte := 3
  const ROSE: Byte := 5
  const DANDELION: Byte := 6
  const WATER: Byte := 7
  const SAPLING: Byte := 8
  const COBBLESTONE: Byte := 9
  const RED_MUSHROOM: Byte := 15
  const BROWN_MUSHROOM: Byte := 16
  const LAVA: Byte := 17
  const SPONGE: Byte := 22
  const GLASS: Byte := 23
  const GRASS: Byte := 40
  const TORCH: Byte := 42

  /** The two simulated fluids. */
  datatype Fluid = Water | Lava {
    function Id(): Byte {
      if Water? then WATER else LAVA
    }

    /** The fluid this one reacts with. */
    function Other(): Fluid {
      if Water? then Lava else Water
    }

    /** Horizontal spread limit: water 4, lava 3. */
    function MaxLevel(): nat {
      if Water? then 4 else 3
    }
  }

  predicate IsLiquid(id: Byte) {
    id == WATER || id == LAVA
  }

  /** The fluid stored under a liquid id. */
  function FluidOf(id: Byte): (f: Fluid)
    requires IsLiquid(id)
    ensures f.Id() == id
  {
    if id == WATER then Water else Lava
  }

  /** Cross-shaped decoration ids; TORCH is one, SAPLING is not. */
  predicate IsPlant(id: Byte) {
    id == GRASS || id == DANDELION || id == ROSE
    || id == RED_MUSHROOM || id == BROWN_MUSHROOM || id == TORCH
  }

  /** Blocks a fluid may overwrite: air and plants. */
  predicate IsReplaceableByFluid(id: Byte) {
    id == AIR || IsPlant(id)
  }

  lemma FluidIdsDistinct(f: Fluid)
    ensures f.Id() != f.Other().Id()
    ensures IsLiquid(f.Id()) && IsLiquid(f.Other().Id())
    ensures !IsReplaceableByFluid(f.Id())
    ensures f.Other().Other() == f
    ensures FluidOf(f.Id()) == f
  {
  }
}

=== FILE: chunk.dfy ===
/** A chunk: a dense 16 x 128 x 16 column of block ids plus a parallel
    metadata plane, addressed by a packed linear index (voxel_engine.js). */
module Chunk {
  import opened Blocks
  import opened Options

  const CHUNK_SIZE: int := 16
  const WORLD_HEIGHT: int := 128
  const WORLD_DEPTH: int := 0
  const Y_MIN: int := -WORLD_DEPTH
  const Y_MAX: int := WORLD_HEIGHT - 1
  const Y_COUNT: int := WORLD_HEIGHT + WORLD_DEPTH
  /** Number of cells in one storage plane. */
  const VOLUME: int := CHUNK_SIZE * Y_COUNT * CHUNK_SIZE

  /** The bounds test shared by the four accessors. */
  predicate InChunk(x: int, y: int, z: int) {
    0 <= x < CHUNK_SIZE && Y_MIN <= y <= Y_MAX && 0 <= z < CHUNK_SIZE
  }

  /** Packs chunk-local coordinates into a plane index (y offset by Y_MIN). */
  function Idx(x: int, y: int, z: int): (i: nat)
    requires InChunk(x, y, z)
    ensures i < VOLUME
  {
    (y - Y_MIN) * CHUNK_SIZE * CHUNK_SIZE + z * CHUNK_SIZE + x
  }

  /** Distinct in-range cells never share a storage slot. */
  lemma IdxInjective(x: int, y: int, z: int, x': int, y': int, z': int)
    requires InChunk(x, y, z) && InChunk(x', y', z')
    requires Idx(x, y, z) == Idx(x', y', z')
    ensures x == x' && y == y' && z == z'
  {
  }

  lemma IdxFrame(x: int, y: int, z: int)
    requires InChunk(x, y, z)
    ensures forall x', y', z' :: InChunk(x', y', z') && (x', y', z') != (x, y, z) ==> Idx(x', y', z') != Idx(x, y, z)
  {
  }

  datatype ChunkData = ChunkData(chunkX: int, chunkZ: int, blocks: seq<Byte>, metadata: seq<Byte>)

  /** A chunk whose two planes have the full size. */
  type Chunk = c: ChunkData | |c.blocks| == VOLUME && |c.metadata| == VOLUME
    witness ChunkData(0, 0, seq(VOLUME, _ => AIR), seq(VOLUME, _ => 0))

  /** A freshly constructed chunk: all AIR, all metadata 0. */
  function NewChunk(chunkX: int, chunkZ: int): (c: Chunk)
    ensures c.chunkX == chunkX && c.chunkZ == chunkZ
    ensures forall x, y, z :: InChunk(x, y, z) ==> GetBlock(c, x, y, z) == AIR && GetMeta(c, x, y, z) == Some(0)
  {
    ChunkData(chunkX, chunkZ, seq(VOLUME, _ => AIR), seq(VOLUME, _ => 0))
  }

  function GetBlock(c: Chunk, x: int, y: int, z: int): (id: Byte)
    ensures !InChunk(x, y, z) ==> id == AIR
  {
    if !InChunk(x, y, z) then AIR else c.blocks[Idx(x, y, z)]
  }

  function SetBlock(c: Chunk, x: int, y: int, z: int, id: Byte): (r: Chunk)
    ensures r.chunkX == c.chunkX && r.chunkZ == c.chunkZ
    ensures r.metadata == c.metadata
    ensures !InChunk(x, y, z) ==> r == c
    ensures InChunk(x, y, z) ==> GetBlock(r, x, y, z) == id
    ensures forall x', y', z' :: (x', y', z') != (x, y, z) ==> GetBlock(r, x', y', z') == GetBlock(c, x', y', z')
  {
    if !InChunk(x, y, z) then c
    else
      var r := c.(blocks := c.blocks[Idx(x, y, z) := id]);
      IdxFrame(x, y, z);
      r
  }

  /** Metadata read; `null` (None) out of range. */
  function GetMeta(c: Chunk, x: int, y: int, z: int): (m: Option<Byte>)
    ensures m.None? <==> !InChunk(x, y, z)
  {
    if !InChunk(x, y, z) then None else Some(c.metadata[Idx(x, y, z)])
  }

  function SetMeta(c: Chunk, x: int, y: int, z: int, value: Byte): (r: Chunk)
    ensures r.chunkX == c.chunkX && r.chunkZ == c.chunkZ
    ensures r.blocks == c.blocks
    ensures !InChunk(x, y, z) ==> r == c
    ensures InChunk(x, y, z) ==> GetMeta(r, x, y, z) == Some(value)
    ensures forall x', y', z' :: (x', y', z') != (x, y, z) ==> GetMeta(r, x', y', z') == GetMeta(c, x', y', z')
  {
    if !InChunk(x, y, z) then c
    else
      var r := c.(metadata := c.metadata[Idx(x, y, z) := value]);
      IdxFrame(x, y, z);
      r
  }
}

=== FILE: coords.dfy ===
/** World-space to chunk-space translation (voxel_engine.js getBlockWorld and
    the write paths): chunk coordinate `Math.floor(w / 16)` and local
    coordinate `((w % 16) + 16) % 16` with JavaScript's truncating `%`. */
module Coords {
  import opened Chunk

  /** JavaScript's `%`: the remainder takes the sign of the dividend. */
  function JsRem(a: int, b: int): (r: int)
    requires b > 0
    ensures -b < r < b
    ensures a >= 0 ==> 0 <= r
    ensures a < 0 ==> r <= 0
  {
    if a >= 0 then a % b else -((-a) % b)
  }

  /** `Math.floor(w / CHUNK_SIZE)`: the chunk holding world coordinate w. */
  function ChunkCoord(w: int): (c: int)
    ensures c * CHUNK_SIZE <= w < c * CHUNK_SIZE + CHUNK_SIZE
  {
    w / CHUNK_SIZE
  }

  /** `((w % CHUNK_SIZE) + CHUNK_SIZE) % CHUNK_SIZE`: the coordinate inside the
      chunk, always in [0, 16), reassembling w with the chunk coordinate. */
  function LocalCoord(w: int): (l: int)
    ensures 0 <= l < CHUNK_SIZE
    ensures ChunkCoord(w) * CHUNK_SIZE + l == w
  {
    RemFixup(w);
    JsRem(JsRem(w, CHUNK_SIZE) + CHUNK_SIZE, CHUNK_SIZE)
  }

  /** The sign fix-up turns JavaScript's truncating remainder into the
      floored (here Euclidean) remainder. */
  lemma RemFixup(w: int)
    ensures JsRem(JsRem(w, CHUNK_SIZE) + CHUNK_SIZE, CHUNK_SIZE) == w - ChunkCoord(w) * CHUNK_SIZE
  {
    var c := ChunkCoord(w);
    var t := JsRem(w, CHUNK_SIZE);
    if w >= 0 {
      assert t == w % CHUNK_SIZE;
      assert w == c * CHUNK_SIZE + t;
      assert (t + CHUNK_SIZE) % CHUNK_SIZE == t;
    } else {
      var q := (-w) / CHUNK_SIZE;
      assert -w == q * CHUNK_SIZE + (-w) % CHUNK_SIZE;
      assert t == -((-w) % CHUNK_SIZE);
      assert w == -q * CHUNK_SIZE + t;
      if t == 0 {
        assert (t + CHUNK_SIZE) % CHUNK_SIZE == 0;
        assert c == -q;
      } else {
        assert (t + CHUNK_SIZE) % CHUNK_SIZE == t + CHUNK_SIZE;
        assert w == (-q - 1) * CHUNK_SIZE + (t + CHUNK_SIZE);
        assert c == -q - 1;
      }
    }
  }

  /** Two world coordinates with the same chunk and local coordinates are equal,
      so every loaded world cell has its own chunk storage slot. */
  lemma WorldToLocalInjective(a: int, b: int)
    requires ChunkCoord(a) == ChunkCoord(b) && LocalCoord(a) == LocalCoord(b)
    ensures a == b
  {
  }

  /** Chunk coordinate and local coordinate invert the placement
      `cx * 16 + lx` of a local cell in the world. */
  lemma ChunkLocalRoundTrip(c: int, l: int)
    requires 0 <= l < CHUNK_SIZE
    ensures ChunkCoord(c * CHUNK_SIZE + l) == c
    ensures LocalCoord(c * CHUNK_SIZE + l) == l
  {
    var w := c * CHUNK_SIZE + l;
    assert ChunkCoord(w) * CHUNK_SIZE <= w < ChunkCoord(w) * CHUNK_SIZE + CHUNK_SIZE;
  }
}

=== FILE: fluid_graph.dfy ===
/** Bookkeeping of the fluid simulation (voxel_engine.js constructor and
    queue helpers): the FIFO spread queue, the parent and children maps of
    the fluid graph, and the insertion-ordered retraction set. Keys are typed
    (fluid, x, y, z) tuples in place of the source's `type:x,y,z` strings. */
module FluidGraph {
  import opened Blocks
  import opened Options
  import OrderedSet

  /** A fluid cell: the graph key and the spread-queue item share this shape. */
  datatype FluidNode = FluidNode(fluid: Fluid, x: int, y: int, z: int)

  datatype FluidState = FluidState(
    queue: seq<FluidNode>,                       // pending spread work, head first
    parents: map<FluidNode, Option<FluidNode>>,  // None is a root (`null`)
    children: map<FluidNode, seq<FluidNode>>,    // each an insertion-ordered set
    retract: seq<FluidNode>)                     // insertion-ordered set of nodes to retract

  const EmptyFluidState := FluidState([], map[], map[], [])

  /** `_enqueueFluidCell`. */
  function Enqueue(s: FluidState, n: FluidNode): (r: FluidState)
    ensures r.queue == s.queue + [n]
    ensures r.parents == s.parents && r.children == s.children && r.retract == s.retract
  {
    s.(queue := s.queue + [n])
  }

  /** `_dequeueFluid`: the head of the queue, or None when it is empty. The
      source's periodic compaction of its backing array is not observable. */
  function Dequeue(s: FluidState): (r: (Option<FluidNode>, FluidState))
    ensures |s.queue| == 0 ==> r.0.None? && r.1 == s
    ensures |s.queue| > 0 ==> r.0 == Some(s.queue[0]) && r.1.queue == s.queue[1..]
    ensures r.1.parents == s.parents && r.1.children == s.children && r.1.retract == s.retract
  {
    if |s.queue| == 0 then (None, s) else (Some(s.queue[0]), s.(queue := s.queue[1..]))
  }

  /** `_scheduleRetractionFromRemovedFluid`: adding a pending key is idempotent. */
  function ScheduleRetraction(s: FluidState, n: FluidNode): (r: FluidState)
    ensures n in r.retract
    ensures forall m :: m in r.retract <==> m in s.retract || m == n
    ensures OrderedSet.NoDup(s.retract) ==> OrderedSet.NoDup(r.retract)
    ensures r.queue == s.queue && r.parents == s.parents && r.children == s.children
  {
    s.(retract := OrderedSet.Add(s.retract, n))
  }

  /** `_takeOneRetractPending`: removes and returns the oldest pending key. */
  function TakeOneRetractPending(s: FluidState): (r: (Option<FluidNode>, FluidState))
    ensures |s.retract| == 0 ==> r.0.None? && r.1 == s
    ensures |s.retract| > 0 ==> r.0 == Some(s.retract[0]) && r.1.retract == s.retract[1..]
    ensures OrderedSet.NoDup(s.retract) && r.0.Some? ==> r.0.value !in r.1.retract
    ensures r.1.queue == s.queue && r.1.parents == s.parents && r.1.children == s.children
  {
    if |s.retract| == 0 then (None, s)
    else
      assert OrderedSet.NoDup(s.retract) ==> s.retract[0] !in s.retract[1..] by {
        if OrderedSet.NoDup(s.retract) {
          OrderedSet.HeadNotInTail(s.retract);
        }
      }
      (Some(s.retract[0]), s.(retract := s.retract[1..]))
  }
}

=== FILE: fluid_sim.dfy ===
/** The fluid automaton (voxel_engine.js): entry test with the water/lava
    reaction, levelled placement with parent/child bookkeeping, one spread
    step, one retraction step, and the tick `_stepFluids`. */
module FluidSim {
  import opened Blocks
  import opened Options
  import opened Chunk
  import OrderedSet
  import opened FluidGraph
  import opened World
  import opened Propagator

  /** `_canFluidEnter`: air and plants are enterable; the other fluid is not,
      and meeting it turns that cell into COBBLESTONE through `setBlockWorld`
      (which schedules the displaced fluid's retraction); any other block
      refuses entry with no side effect. */
  function CanFluidEnter(w: World, t: Fluid, targetId: Byte, x: int, y: int, z: int): (r: (bool, World))
    ensures r.0 <==> IsReplaceableByFluid(targetId)
    ensures targetId != t.Other().Id() ==> r.1 == w
    ensures targetId == t.Other().Id() && GetBlockWorld(w, x, y, z) == targetId ==>
      && GetBlockWorld(r.1, x, y, z) == COBBLESTONE
      && FluidNode(t.Other(), x, y, z) in r.1.fluid.retract
    ensures BlocksKeptExcept(w, r.1, x, y, z)
    ensures MetaKept(w, r.1)
    ensures r.1.fluid.queue == w.fluid.queue
    ensures r.1.fluid.parents == w.fluid.parents && r.1.fluid.children == w.fluid.children
    ensures Framed(w, r.1)
  {
    if IsReplaceableByFluid(targetId) then (true, w)
    else if targetId == t.Other().Id() then (false, SetBlockWorld(w, x, y, z, COBBLESTONE))
    else (false, w)
  }

  /** The outcome of `_placeFluidWithLevel` when it writes the fluid: block
      and level stored (when loaded), parent recorded, the node listed among
      its parent's children and dropped from a different old parent's, and
      the cell enqueued. */
  ghost predicate Placed(w: World, r: World, x: int, y: int, z: int, t: Fluid, level: Byte, parent: Option<FluidNode>) {
    var key := FluidNode(t, x, y, z);
    && (Loaded(w, x, y, z) ==> GetBlockWorld(r, x, y, z) == t.Id() && GetFluidLevel(r, x, y, z) == Some(level))
    && Linked(w.fluid, r.fluid.parents, r.fluid.children, key, parent)
    && r.fluid.queue == w.fluid.queue + [key]
    && r.fluid.retract == w.fluid.retract
    && MetaKeptExcept(w, r, x, y, z)
  }

  /** The graph after linking key under parent: the parent is recorded, key
      is among parent's children, it has left a different old parent's
      children, and every other child set is as it was. */
  ghost predicate Linked(s: FluidState, parents: map<FluidNode, Option<FluidNode>>, children: map<FluidNode, seq<FluidNode>>,
                         key: FluidNode, parent: Option<FluidNode>) {
    && parents == s.parents[key := parent]
    && (parent.Some? ==> parent.value in children && key in children[parent.value])
    && (key in s.parents && s.parents[key].Some? && Some(s.parents[key].value) != parent
          && s.parents[key].value in s.children
        ==> var op := s.parents[key].value;
            op in children && (forall c :: c in children[op] <==> c in s.children[op] && c != key))
    && (forall m ::
          m in s.children && (parent.None? || m != parent.value) && !(key in s.parents && s.parents[key] == Some(m))
          ==> m in children && children[m] == s.children[m])
  }

  /** What every spreading step keeps: the batch session, the loaded and
      registered chunks, and the pending retraction set, which only gains
      members and stays duplicate-free. */
  ghost predicate Framed(w: World, r: World) {
    && BatchKept(w, r)
    && r.chunks.Keys == w.chunks.Keys && r.renderChunks == w.renderChunks
    && (forall m :: m in w.fluid.retract ==> m in r.fluid.retract)
    && (OrderedSet.NoDup(w.fluid.retract) ==> OrderedSet.NoDup(r.fluid.retract))
  }

  lemma FramedTrans(a: World, b: World, c: World)
    requires Framed(a, b) && Framed(b, c)
    ensures Framed(a, c)
  {
  }

  ghost predicate ParentsKeptExcept(w: World, r: World, x: int, y: int, z: int) {
    forall m: FluidNode :: (m.x, m.y, m.z) != (x, y, z) ==>
      (m in r.fluid.parents <==> m in w.fluid.parents) && (m in w.fluid.parents ==> r.fluid.parents[m] == w.fluid.parents[m])
  }

  /** Removes key from the children of its recorded parent when that parent
      differs from the new one (the first step of the graph update). */
  function DetachFromOldParent(s: FluidState, key: FluidNode, parent: Option<FluidNode>): (r: map<FluidNode, seq<FluidNode>>)
    ensures forall m :: m in s.children <==> m in r
    ensures key in s.parents && s.parents[key].Some? && Some(s.parents[key].value) != parent && s.parents[key].value in s.children
      ==> var op := s.parents[key].value;
          forall c :: c in r[op] <==> c in s.children[op] && c != key
    ensures forall m :: m in s.children && !(key in s.parents && s.parents[key] == Some(m)) ==> r[m] == s.children[m]
  {
    if key in s.parents && s.parents[key].Some? && Some(s.parents[key].value) != parent && s.parents[key].value in s.children
    then
      var op := s.parents[key].value;
      s.children[op := OrderedSet.Remove(s.children[op], key)]
    else s.children
  }

  /** The reaction branch of `_placeFluidWithLevel`: the other fluid's
      graph entries are deleted and the cell becomes COBBLESTONE. */
  function ReactWithOther(w: World, x: int, y: int, z: int, t: Fluid): (r: World)
    requires GetBlockWorld(w, x, y, z) == t.Other().Id()
    ensures GetBlockWorld(r, x, y, z) == COBBLESTONE
    ensures r.fluid.parents == w.fluid.parents - {FluidNode(t.Other(), x, y, z)}
    ensures r.fluid.children == w.fluid.children - {FluidNode(t.Other(), x, y, z)}
    ensures FluidNode(t.Other(), x, y, z) in r.fluid.retract
    ensures r.fluid.queue == w.fluid.queue
    ensures ParentsKeptExcept(w, r, x, y, z)
    ensures BlocksKeptExcept(w, r, x, y, z)
    ensures MetaKept(w, r) && BatchKept(w, r)
    ensures r.chunks.Keys == w.chunks.Keys && r.renderChunks == w.renderChunks
    ensures forall m :: m in w.fluid.retract ==> m in r.fluid.retract
    ensures OrderedSet.NoDup(w.fluid.retract) ==> OrderedSet.NoDup(r.fluid.retract)
  {
    var otherKey := FluidNode(t.Other(), x, y, z);
    var w1 := w.(fluid := w.fluid.(parents := w.fluid.parents - {otherKey}, children := w.fluid.children - {otherKey}));
    SameChunksSameReads(w, w1);
    SetBlockWorld(w1, x, y, z, COBBLESTONE)
  }

  /** Records parent as the parent of key and key among parent's children. */
  function Link(s: FluidState, key: FluidNode, parent: Option<FluidNode>): (r: FluidState)
    ensures Linked(s, r.parents, r.children, key, parent)
    ensures r.queue == s.queue && r.retract == s.retract
  {
    var kids := DetachFromOldParent(s, key, parent);
    match parent
    case Some(pk) =>
      var siblings := if pk in kids then kids[pk] else [];
      s.(parents := s.parents[key := parent], children := kids[pk := OrderedSet.Add(siblings, key)])
    case None =>
      s.(parents := s.parents[key := None], children := kids)
  }

  /** The placing branch of `_placeFluidWithLevel`: write block and level
      (one rebuild), link to the parent, enqueue. */
  function PlaceAndLink(w: World, x: int, y: int, z: int, t: Fluid, level: Byte, parent: Option<FluidNode>): (r: World)
    ensures Placed(w, r, x, y, z, t, level, parent)
    ensures BlocksKeptExcept(w, r, x, y, z)
    ensures BatchKept(w, r)
    ensures r.chunks.Keys == w.chunks.Keys && r.renderChunks == w.renderChunks
  {
    var key := FluidNode(t, x, y, z);
    // the write leaves the fluid state alone, so the graph update may go first
    var f := Enqueue(Link(w.fluid, key, parent), key);
    SameChunksSameReads(w, w.(fluid := f));
    SetBlockWorldWithMeta(w.(fluid := f), x, y, z, t.Id(), level)
  }

  /** `_placeFluidWithLevel`. */
  function PlaceFluidWithLevel(w: World, x: int, y: int, z: int, t: Fluid, level: Byte, parent: Option<FluidNode>): (r: World)
    // the other fluid reacts: COBBLESTONE, and its graph entries are dropped
    ensures GetBlockWorld(w, x, y, z) == t.Other().Id() ==>
      && GetBlockWorld(r, x, y, z) == COBBLESTONE
      && FluidNode(t.Other(), x, y, z) !in r.fluid.parents
      && FluidNode(t.Other(), x, y, z) !in r.fluid.children
      && FluidNode(t.Other(), x, y, z) in r.fluid.retract
      && r.fluid.queue == w.fluid.queue
    // the same fluid at a level at least as good: nothing happens
    ensures GetBlockWorld(w, x, y, z) == t.Id() && GetFluidLevel(w, x, y, z).Some? && GetFluidLevel(w, x, y, z).value <= level
      ==> r == w
    // otherwise the fluid is placed
    ensures GetBlockWorld(w, x, y, z) != t.Other().Id()
      && !(GetBlockWorld(w, x, y, z) == t.Id() && GetFluidLevel(w, x, y, z).Some? && GetFluidLevel(w, x, y, z).value <= level)
      ==> Placed(w, r, x, y, z, t, level, parent)
    ensures BlocksKeptExcept(w, r, x, y, z)
    ensures MetaKeptExcept(w, r, x, y, z)
    ensures BatchKept(w, r)
    ensures r.chunks.Keys == w.chunks.Keys && r.renderChunks == w.renderChunks
    ensures w.fluid.queue <= r.fluid.queue
    ensures |r.fluid.queue| <= |w.fluid.queue| + 1
    ensures |r.fluid.queue| == |w.fluid.queue| + 1 ==> r.fluid.queue[|w.fluid.queue|] == FluidNode(t, x, y, z)
    ensures ParentsKeptExcept(w, r, x, y, z)
    ensures forall m :: m in w.fluid.retract ==> m in r.fluid.retract
    ensures OrderedSet.NoDup(w.fluid.retract) ==> OrderedSet.NoDup(r.fluid.retract)
  {
    var existing := GetBlockWorld(w, x, y, z);
    if existing == t.Other().Id() then ReactWithOther(w, x, y, z, t)
    else if existing == t.Id() && GetFluidLevel(w, x, y, z).Some? && GetFluidLevel(w, x, y, z).value <= level then w
    else PlaceAndLink(w, x, y, z, t, level, parent)
  }

  /** Into an enterable cell (AIR or a plant) the fluid is always placed
      and linked: neither the reaction nor the better-level test applies. */
  lemma PlaceIntoEnterable(w: World, x: int, y: int, z: int, t: Fluid, level: Byte, parent: Option<FluidNode>)
    requires IsReplaceableByFluid(GetBlockWorld(w, x, y, z))
    ensures PlaceFluidWithLevel(w, x, y, z, t, level, parent) == PlaceAndLink(w, x, y, z, t, level, parent)
  {
    FluidIdsDistinct(t);
    FluidIdsDistinct(t.Other());
  }

  /** The four horizontal neighbours of a fluid cell, in the source's
      direction order (+x, -x, +z, -z), as nodes of the same fluid. */
  function Neighbours(n: FluidNode): (r: seq<FluidNode>)
    ensures |r| == 4
  {
    [FluidNode(n.fluid, n.x + 1, n.y, n.z), FluidNode(n.fluid, n.x - 1, n.y, n.z),
     FluidNode(n.fluid, n.x, n.y, n.z + 1), FluidNode(n.fluid, n.x, n.y, n.z - 1)]
  }

  lemma NeighbourShape(n: FluidNode, j: nat)
    requires j < 4
    ensures Neighbours(n)[j].fluid == n.fluid && Neighbours(n)[j].y == n.y
  {
  }

  /** The four neighbours sit at four different cells. */
  lemma NeighboursDistinct(n: FluidNode, i: nat, j: nat)
    requires i < 4 && j < 4 && i != j
    ensures (Neighbours(n)[i].x, Neighbours(n)[i].y, Neighbours(n)[i].z) != (Neighbours(n)[j].x, Neighbours(n)[j].y, Neighbours(n)[j].z)
  {
  }

  /** (x, y, z) is one of the four horizontal neighbours of n's cell. */
  predicate Beside(n: FluidNode, x: int, y: int, z: int) {
    && y == n.y
    && ((z == n.z && (x == n.x + 1 || x == n.x - 1)) || (x == n.x && (z == n.z + 1 || z == n.z - 1)))
  }

  lemma BesideMeansNeighbour(n: FluidNode, x: int, y: int, z: int)
    ensures FluidNode(n.fluid, x, y, z) in Neighbours(n) <==> Beside(n, x, y, z)
  {
  }

  lemma NeighbourNotLater(n: FluidNode, k: nat)
    requires k < 4
    ensures FluidNode(n.fluid, Neighbours(n)[k].x, Neighbours(n)[k].y, Neighbours(n)[k].z) !in Neighbours(n)[k + 1..]
  {
    var hs := Neighbours(n);
    forall i | k + 1 <= i < 4
      ensures hs[i] != FluidNode(n.fluid, hs[k].x, hs[k].y, hs[k].z)
    {
      NeighboursDistinct(n, i, k);
    }
  }

  /** One iteration of the lateral loop of `_processFluidCell`: the entry
      test on the neighbour h, then a level-`level` placement with parent
      `from` when it admits the fluid. */
  function SpreadInto(w: World, from: FluidNode, h: FluidNode, level: Byte): (r: World)
    requires h.fluid == from.fluid
    ensures Loaded(w, h.x, h.y, h.z) && IsReplaceableByFluid(GetBlockWorld(w, h.x, h.y, h.z)) ==>
      && GetBlockWorld(r, h.x, h.y, h.z) == h.fluid.Id()
      && GetFluidLevel(r, h.x, h.y, h.z) == Some(level)
      && h in r.fluid.parents && r.fluid.parents[h] == Some(from)
    ensures GetBlockWorld(w, h.x, h.y, h.z) == h.fluid.Other().Id() ==> GetBlockWorld(r, h.x, h.y, h.z) == COBBLESTONE
    ensures !IsReplaceableByFluid(GetBlockWorld(w, h.x, h.y, h.z)) && GetBlockWorld(w, h.x, h.y, h.z) != h.fluid.Other().Id() ==> r == w
    ensures BlocksKeptExcept(w, r, h.x, h.y, h.z)
    ensures MetaKeptExcept(w, r, h.x, h.y, h.z)
    ensures ParentsKeptExcept(w, r, h.x, h.y, h.z)
    ensures r.fluid.queue == w.fluid.queue || r.fluid.queue == w.fluid.queue + [h]
    ensures Framed(w, r)
  {
    var target := GetBlockWorld(w, h.x, h.y, h.z);
    var (ok, w1) := CanFluidEnter(w, h.fluid, target, h.x, h.y, h.z);
    if ok then PlaceFluidWithLevel(w1, h.x, h.y, h.z, h.fluid, level, Some(from)) else w1
  }

  /** The neighbour h, enterable and loaded in w, holds from's fluid at
      `level` in r, with `from` recorded as its parent. */
  ghost predicate Entered(w: World, r: World, from: FluidNode, h: FluidNode, level: Byte) {
    Loaded(w, h.x, h.y, h.z) && IsReplaceableByFluid(GetBlockWorld(w, h.x, h.y, h.z)) ==>
      && GetBlockWorld(r, h.x, h.y, h.z) == from.fluid.Id()
      && GetFluidLevel(r, h.x, h.y, h.z) == Some(level)
      && h in r.fluid.parents && r.fluid.parents[h] == Some(from)
  }

  /** The lateral loop of `_processFluidCell` from direction k on. */
  function SpreadLaterally(w: World, from: FluidNode, level: Byte, k: nat): (r: World)
    requires k <= 4
    ensures forall x, y, z :: FluidNode(from.fluid, x, y, z) !in Neighbours(from)[k..] ==>
      GetBlockWorld(r, x, y, z) == GetBlockWorld(w, x, y, z) && GetFluidLevel(r, x, y, z) == GetFluidLevel(w, x, y, z)
    ensures forall m: FluidNode :: FluidNode(from.fluid, m.x, m.y, m.z) !in Neighbours(from)[k..] ==>
      (m in r.fluid.parents <==> m in w.fluid.parents) && (m in w.fluid.parents ==> r.fluid.parents[m] == w.fluid.parents[m])
    ensures w.fluid.queue <= r.fluid.queue
    ensures forall n :: n in r.fluid.queue[|w.fluid.queue|..] ==> n in Neighbours(from)[k..]
    ensures Framed(w, r)
    decreases 4 - k
  {
    if k == 4 then w
    else
      var hs := Neighbours(from);
      assert hs[k..] == [hs[k]] + hs[k + 1..];
      var w1 := SpreadInto(w, from, hs[k], level);
      var r := SpreadLaterally(w1, from, level, k + 1);
      AppendsWithin(w.fluid.queue, w1.fluid.queue, r.fluid.queue, hs[k], hs[k + 1..]);
      FramedTrans(w, w1, r);
      r
  }

  /** A step that appends at most h, followed by steps that append only
      members of rest, appends only h and members of rest. */
  lemma AppendsWithin(q: seq<FluidNode>, q1: seq<FluidNode>, q2: seq<FluidNode>, h: FluidNode, rest: seq<FluidNode>)
    requires q1 == q || q1 == q + [h]
    requires q1 <= q2 && forall n :: n in q2[|q1|..] ==> n in rest
    ensures q <= q2 && forall n :: n in q2[|q|..] ==> n in [h] + rest
  {
    forall n | n in q2[|q|..]
      ensures n in [h] + rest
    {
      var i :| |q| <= i < |q2| && q2[i] == n;
      if i >= |q1| {
        assert q2[|q1|..][i - |q1|] == n;
      }
    }
  }

  /** What the lateral loop does to each neighbour j >= k, stated against the
      world before the loop: an enterable loaded neighbour receives the fluid
      at `level` with `from` as parent, and a neighbour holding the other
      fluid becomes COBBLESTONE. */
  lemma {:induction false} SpreadLaterallyEnters(w: World, from: FluidNode, level: Byte, k: nat, j: nat)
    requires k <= j < 4
    ensures var h := Neighbours(from)[j];
      var r := SpreadLaterally(w, from, level, k);
      && Entered(w, r, from, h, level)
      && (GetBlockWorld(w, h.x, h.y, h.z) == from.fluid.Other().Id() ==> GetBlockWorld(r, h.x, h.y, h.z) == COBBLESTONE)
    decreases 4 - k
  {
    if j == k {
      SpreadLaterallyEntersHere(w, from, level, k);
    } else {
      var hs := Neighbours(from);
      var w1 := SpreadInto(w, from, hs[k], level);
      SpreadLaterallyStep(w, from, level, k);
      NeighboursDistinct(from, j, k);
      SpreadLaterallyEnters(w1, from, level, k + 1, j);
      EnteredThroughEarlier(w, w1, SpreadLaterally(w1, from, level, k + 1), from, hs[k], hs[j], level);
    }
  }

  /** One turn of the lateral loop: direction k, then the rest. */
  lemma SpreadLaterallyStep(w: World, from: FluidNode, level: Byte, k: nat)
    requires k < 4
    ensures SpreadLaterally(w, from, level, k) == SpreadLaterally(SpreadInto(w, from, Neighbours(from)[k], level), from, level, k + 1)
  {
    var hs := Neighbours(from);
    assert hs[k..] == [hs[k]] + hs[k + 1..];
  }

  /** Direction k itself: the later directions leave its cell alone. */
  lemma SpreadLaterallyEntersHere(w: World, from: FluidNode, level: Byte, k: nat)
    requires k < 4
    ensures var h := Neighbours(from)[k];
      var r := SpreadLaterally(w, from, level, k);
      && Entered(w, r, from, h, level)
      && (GetBlockWorld(w, h.x, h.y, h.z) == from.fluid.Other().Id() ==> GetBlockWorld(r, h.x, h.y, h.z) == COBBLESTONE)
  {
    var hs := Neighbours(from);
    var h := hs[k];
    assert hs[k..] == [hs[k]] + hs[k + 1..];
    var w1 := SpreadInto(w, from, h, level);
    var r := SpreadLaterally(w1, from, level, k + 1);
    assert SpreadLaterally(w, from, level, k) == r;
    NeighbourNotLater(from, k);
    assert GetBlockWorld(r, h.x, h.y, h.z) == GetBlockWorld(w1, h.x, h.y, h.z);
    assert GetFluidLevel(r, h.x, h.y, h.z) == GetFluidLevel(w1, h.x, h.y, h.z);
    assert h in r.fluid.parents <==> h in w1.fluid.parents;
  }

  /** An earlier step that touched only the cell of hk does not change
      whether a later step's entry into another cell h counts. */
  lemma EnteredThroughEarlier(w: World, w1: World, r: World, from: FluidNode, hk: FluidNode, h: FluidNode, level: Byte)
    requires (h.x, h.y, h.z) != (hk.x, hk.y, hk.z)
    requires BlocksKeptExcept(w, w1, hk.x, hk.y, hk.z) && w1.chunks.Keys == w.chunks.Keys
    requires Entered(w1, r, from, h, level)
    requires GetBlockWorld(w1, h.x, h.y, h.z) == from.fluid.Other().Id() ==> GetBlockWorld(r, h.x, h.y, h.z) == COBBLESTONE
    ensures Entered(w, r, from, h, level)
    ensures GetBlockWorld(w, h.x, h.y, h.z) == from.fluid.Other().Id() ==> GetBlockWorld(r, h.x, h.y, h.z) == COBBLESTONE
  {
    assert GetBlockWorld(w1, h.x, h.y, h.z) == GetBlockWorld(w, h.x, h.y, h.z);
  }

  /** The level a fluid cell spreads from (`null` reads as 0). */
  function LevelAt(w: World, n: FluidNode): Byte {
    GetFluidLevel(w, n.x, n.y, n.z).GetOr(0)
  }

  /** True when the cell still holds the node's fluid (else the entry is stale). */
  predicate Holds(w: World, n: FluidNode) {
    GetBlockWorld(w, n.x, n.y, n.z) == n.fluid.Id()
  }

  function Below(n: FluidNode): FluidNode {
    FluidNode(n.fluid, n.x, n.y - 1, n.z)
  }

  /** The gravity branch's outcome: a level-0 node of n's fluid placed below
      n with n as its parent and appended to the queue; no other cell's
      block changes and no retraction is scheduled. */
  ghost predicate FellDown(w: World, r: World, n: FluidNode) {
    && Placed(w, r, n.x, n.y - 1, n.z, n.fluid, 0, Some(n))
    && BlocksKeptExcept(w, r, n.x, n.y - 1, n.z)
    && r.fluid.queue == w.fluid.queue + [Below(n)]
    && r.fluid.retract == w.fluid.retract
  }

  /** The gravity branch of `_processFluidCell`: a level-0 node below, with
      the current cell as its parent. */
  function FlowDown(w: World, n: FluidNode): (r: World)
    requires IsReplaceableByFluid(GetBlockWorld(w, n.x, n.y - 1, n.z))
    ensures FellDown(w, r, n)
    ensures BatchKept(w, r)
    ensures r.chunks.Keys == w.chunks.Keys && r.renderChunks == w.renderChunks
  {
    assert Below(n) == FluidNode(n.fluid, n.x, n.y - 1, n.z);
    PlaceIntoEnterable(w, n.x, n.y - 1, n.z, n.fluid, 0, Some(n));
    PlaceFluidWithLevel(w, n.x, n.y - 1, n.z, n.fluid, 0, Some(n))
  }

  /** Every neighbour of n that is loaded and enterable in w holds n's
      fluid at `level` in r, with n as its parent. */
  ghost predicate EnteredAll(w: World, r: World, n: FluidNode, level: Byte) {
    forall j :: 0 <= j < 4 ==> Entered(w, r, n, Neighbours(n)[j], level)
  }

  /** Only the four neighbours of n, and the cell under n when `below` is
      set, may read a different block in r than in w. */
  ghost predicate ChangedAround(w: World, r: World, n: FluidNode, below: bool) {
    forall x, y, z :: !Beside(n, x, y, z) && (!below || (x, y, z) != (n.x, n.y - 1, n.z)) ==>
      GetBlockWorld(r, x, y, z) == GetBlockWorld(w, x, y, z)
  }

  /** The whole lateral loop of `_processFluidCell`, all four directions. */
  function SpreadAround(w: World, n: FluidNode, level: Byte): (r: World)
    ensures EnteredAll(w, r, n, level)
    ensures ChangedAround(w, r, n, false)
    ensures w.fluid.queue <= r.fluid.queue
    ensures forall m :: m in r.fluid.queue[|w.fluid.queue|..] ==> m in Neighbours(n)
    ensures Framed(w, r)
  {
    assert Neighbours(n)[0..] == Neighbours(n);
    var r := SpreadLaterally(w, n, level, 0);
    forall j | 0 <= j < 4
      ensures Entered(w, r, n, Neighbours(n)[j], level)
    {
      SpreadLaterallyEnters(w, n, level, 0, j);
    }
    forall x, y, z | !Beside(n, x, y, z)
      ensures GetBlockWorld(r, x, y, z) == GetBlockWorld(w, x, y, z)
    {
      BesideMeansNeighbour(n, x, y, z);
    }
    r
  }

  /** Entry is decided by the cell's block alone: the entry test below n
      changes only the cell below, which is none of the four neighbours, so
      what the lateral loop does to them holds against the world before it. */
  lemma EnteredTransfer(w: World, w1: World, r: World, n: FluidNode, level: Byte)
    requires w1.chunks.Keys == w.chunks.Keys
    requires BlocksKeptExcept(w, w1, n.x, n.y - 1, n.z)
    requires EnteredAll(w1, r, n, level)
    ensures EnteredAll(w, r, n, level)
  {
    forall j | 0 <= j < 4
      ensures Entered(w, r, n, Neighbours(n)[j], level)
    {
      var h := Neighbours(n)[j];
      NeighbourShape(n, j);
      assert GetBlockWorld(w1, h.x, h.y, h.z) == GetBlockWorld(w, h.x, h.y, h.z);
      assert Loaded(w1, h.x, h.y, h.z) == Loaded(w, h.x, h.y, h.z);
    }
  }

  /** The entry test below n changes at most the cell below; the lateral
      loop after it changes at most the neighbours. */
  lemma ChangedAroundCompose(w: World, w1: World, r: World, n: FluidNode)
    requires BlocksKeptExcept(w, w1, n.x, n.y - 1, n.z)
    requires ChangedAround(w1, r, n, false)
    ensures ChangedAround(w, r, n, true)
    ensures GetBlockWorld(r, n.x, n.y - 1, n.z) == GetBlockWorld(w1, n.x, n.y - 1, n.z)
  {
  }

  lemma ChangedBelowOnly(w: World, w1: World, n: FluidNode)
    requires BlocksKeptExcept(w, w1, n.x, n.y - 1, n.z)
    ensures ChangedAround(w, w1, n, true)
  {
  }

  /** The outcome when the fluid cannot go down: the other fluid below has
      become COBBLESTONE, only the cell below and the four neighbours may
      change, and below the maximum level every enterable neighbour holds
      the fluid one level weaker (at the maximum nothing is enqueued). */
  ghost predicate Sideways(w: World, r: World, n: FluidNode) {
    && (GetBlockWorld(w, n.x, n.y - 1, n.z) == n.fluid.Other().Id() ==> GetBlockWorld(r, n.x, n.y - 1, n.z) == COBBLESTONE)
    && ChangedAround(w, r, n, true)
    && (LevelAt(w, n) >= n.fluid.MaxLevel() ==> r.fluid.queue == w.fluid.queue)
    && (LevelAt(w, n) < n.fluid.MaxLevel() ==> EnteredAll(w, r, n, LevelAt(w, n) + 1))
  }

  /** The branch of `_processFluidCell` where the fluid cannot go down: the
      entry test below (which may react), then lateral spread while the level
      is under the maximum. */
  function FlowSideways(w: World, n: FluidNode): (r: World)
    requires !IsReplaceableByFluid(GetBlockWorld(w, n.x, n.y - 1, n.z))
    ensures Sideways(w, r, n)
    // the queue only grows, and only by neighbours of n
    ensures w.fluid.queue <= r.fluid.queue && forall m :: m in r.fluid.queue[|w.fluid.queue|..] ==> m in Neighbours(n)
    ensures Framed(w, r)
  {
    var w1 := CanFluidEnter(w, n.fluid, GetBlockWorld(w, n.x, n.y - 1, n.z), n.x, n.y - 1, n.z).1;
    if LevelAt(w, n) < n.fluid.MaxLevel() then
      var level: Byte := LevelAt(w, n) + 1;
      var r := SpreadAround(w1, n, level);
      EnteredTransfer(w, w1, r, n, level);
      ChangedAroundCompose(w, w1, r, n);
      FramedTrans(w, w1, r);
      r
    else
      ChangedBelowOnly(w, w1, n);
      w1
  }

  /** What `_processFluidCell` does with n: nothing when the entry is stale,
      otherwise the gravity branch when the cell below can be entered and
      the sideways branch when it cannot. */
  ghost predicate Processed(w: World, r: World, n: FluidNode) {
    && (!Holds(w, n) ==> r == w)
    && (Holds(w, n) && IsReplaceableByFluid(GetBlockWorld(w, n.x, n.y - 1, n.z)) ==> FellDown(w, r, n))
    && (Holds(w, n) && !IsReplaceableByFluid(GetBlockWorld(w, n.x, n.y - 1, n.z)) ==> Sideways(w, r, n))
  }

  /** `_processFluidCell`: a stale entry is dropped; gravity first (level 0
      below, no lateral spread); otherwise lateral spread at level + 1 while
      the level is under the fluid's maximum. */
  function ProcessFluidCell(w: World, n: FluidNode): (r: World)
    ensures Processed(w, r, n)
    ensures StepLocal(w, r, n)
    ensures Framed(w, r)
  {
    if !Holds(w, n) then w
    else if IsReplaceableByFluid(GetBlockWorld(w, n.x, n.y - 1, n.z)) then
      var r := FlowDown(w, n);
      FellDownLocal(w, r, n);
      r
    else
      var r := FlowSideways(w, n);
      SidewaysLocal(w, r, n);
      r
  }

  /** Processing t appends only nodes t spawns and changes only cells near t. */
  ghost predicate StepLocal(w: World, r: World, t: FluidNode) {
    && w.fluid.queue <= r.fluid.queue
    && (forall m :: m in r.fluid.queue[|w.fluid.queue|..] ==> Spawned(t, m))
    && (forall x, y, z :: !Near(t, x, y, z) ==> GetBlockWorld(r, x, y, z) == GetBlockWorld(w, x, y, z))
  }

  lemma FellDownLocal(w: World, r: World, n: FluidNode)
    requires FellDown(w, r, n)
    ensures StepLocal(w, r, n)
  {
    assert r.fluid.queue[|w.fluid.queue|..] == [Below(n)];
  }

  lemma SidewaysLocal(w: World, r: World, n: FluidNode)
    requires Sideways(w, r, n)
    requires w.fluid.queue <= r.fluid.queue && forall m :: m in r.fluid.queue[|w.fluid.queue|..] ==> m in Neighbours(n)
    ensures StepLocal(w, r, n)
  {
  }

  /** A fluid cell on the lowest layer sees AIR below the world, so gravity
      "succeeds" there: no block changes, no lateral spread happens, and a
      node below the world is enqueued (and later dropped as stale). */
  lemma BottomLayerFallsOut(w: World, n: FluidNode)
    requires Holds(w, n) && n.y == Y_MIN
    ensures var r := ProcessFluidCell(w, n);
      && (forall x, y, z :: GetBlockWorld(r, x, y, z) == GetBlockWorld(w, x, y, z))
      && r.fluid.queue == w.fluid.queue + [Below(n)]
      && !Holds(r, Below(n))
  {
    var r := ProcessFluidCell(w, n);
    assert !Loaded(w, n.x, n.y - 1, n.z);
    assert r == FlowDown(w, n);
    assert !Loaded(r, n.x, n.y - 1, n.z);
    FluidIdsDistinct(n.fluid);
  }

  /** The graph half of `_processRetractionKey`: the key's children join
      the pending set, the key is detached from its parent and forgotten. */
  function RetractGraph(s: FluidState, key: FluidNode): (r: FluidState)
    ensures r.queue == s.queue
    ensures r.parents == s.parents - {key}
    ensures r.children.Keys == s.children.Keys - {key}
    ensures forall m :: m in r.retract <==> m in s.retract || (key in s.children && m in s.children[key])
    ensures |s.retract| <= |r.retract| && r.retract[..|s.retract|] == s.retract
    ensures OrderedSet.NoDup(s.retract) ==> OrderedSet.NoDup(r.retract)
    ensures key in s.parents && s.parents[key].Some? && s.parents[key].value != key && s.parents[key].value in s.children ==>
      var p := s.parents[key].value;
      forall c :: c in r.children[p] <==> c in s.children[p] && c != key
    ensures forall m :: m in s.children && m != key && !(key in s.parents && s.parents[key] == Some(m)) ==>
      r.children[m] == s.children[m]
  {
    var s1 :=
      if key in s.children then s.(retract := OrderedSet.AddAll(s.retract, s.children[key]), children := s.children - {key})
      else s;
    var s2 :=
      if key in s1.parents && s1.parents[key].Some? && s1.parents[key].value in s1.children then
        var p := s1.parents[key].value;
        s1.(children := s1.children[p := OrderedSet.Remove(s1.children[p], key)])
      else s1;
    s2.(parents := s2.parents - {key})
  }

  /** (x, y, z) is key's cell and reads AIR in r. */
  predicate Cleared(r: World, key: FluidNode, x: int, y: int, z: int) {
    (x, y, z) == (key.x, key.y, key.z) && GetBlockWorld(r, x, y, z) == AIR
  }

  /** (x, y, z) is the cell of some node of ts and reads AIR in r. */
  predicate ClearedSome(r: World, ts: seq<FluidNode>, x: int, y: int, z: int)
    decreases |ts|
  {
    |ts| > 0 && (Cleared(r, ts[0], x, y, z) || ClearedSome(r, ts[1..], x, y, z))
  }

  /** `_processRetractionKey`: clears the cell through the raw setter when it
      still holds the fluid (no fluid hooks, so nothing is enqueued), then
      updates the graph. */
  function ProcessRetractionKey(w: World, key: FluidNode): (r: World)
    ensures Holds(w, key) ==> GetBlockWorld(r, key.x, key.y, key.z) == AIR
    ensures !Holds(w, key) ==> GetBlockWorld(r, key.x, key.y, key.z) == GetBlockWorld(w, key.x, key.y, key.z)
    ensures BlocksKeptExcept(w, r, key.x, key.y, key.z)
    ensures MetaKept(w, r)
    ensures Holds(w, key) ==> Scheduled(w, r, AffectedChunks(key.x, key.z))
    ensures !Holds(w, key) ==> r.batch == w.batch && r.rebuilds == w.rebuilds
    ensures BatchKept(w, r)
    ensures r.chunks.Keys == w.chunks.Keys && r.renderChunks == w.renderChunks
    ensures r.fluid == RetractGraph(w.fluid, key)
    // the key's cell no longer holds its fluid; any changed cell is that cell, now AIR
    ensures !Holds(r, key)
    ensures forall x, y, z :: GetBlockWorld(r, x, y, z) != GetBlockWorld(w, x, y, z) ==> Cleared(r, key, x, y, z)
  {
    var w1 := if Holds(w, key) then SetBlockRaw(w, key.x, key.y, key.z, AIR) else w;
    w1.(fluid := RetractGraph(w1.fluid, key))
  }

  /** One iteration of the spreading loop: dequeue the head and process it. */
  function SpreadOne(w: World): (r: World)
    requires |w.fluid.queue| > 0
    ensures Processed(Dequeued(w), r, w.fluid.queue[0])
    ensures StepLocal(Dequeued(w), r, w.fluid.queue[0])
    ensures Framed(w, r)
  {
    ProcessFluidCell(Dequeued(w), w.fluid.queue[0])
  }

  /** The world with the queue's head taken off. */
  function Dequeued(w: World): (r: World)
    requires |w.fluid.queue| > 0
    ensures r.fluid.queue == w.fluid.queue[1..] && r.chunks == w.chunks
  {
    w.(fluid := Dequeue(w.fluid).1)
  }

  /** m is the node under t or one of t's four neighbours: the only nodes
      processing t can enqueue. */
  predicate Spawned(t: FluidNode, m: FluidNode) {
    m == Below(t) || m in Neighbours(t)
  }

  /** (x, y, z) is the cell under t or beside it: the only cells processing
      t can change. */
  predicate Near(t: FluidNode, x: int, y: int, z: int) {
    (x, y, z) == (t.x, t.y - 1, t.z) || Beside(t, x, y, z)
  }

  /** Some node of ts could have enqueued m. */
  predicate SpawnedBy(ts: seq<FluidNode>, m: FluidNode)
    decreases |ts|
  {
    |ts| > 0 && (Spawned(ts[0], m) || SpawnedBy(ts[1..], m))
  }

  /** (x, y, z) is near some node of ts. */
  predicate NearSome(ts: seq<FluidNode>, x: int, y: int, z: int)
    decreases |ts|
  {
    |ts| > 0 && (Near(ts[0], x, y, z) || NearSome(ts[1..], x, y, z))
  }

  /** The items one step appends, followed by those the remaining steps
      append, are all spawned by the head or by the rest of the trace. */
  lemma SpawnStep(q: seq<FluidNode>, q1: seq<FluidNode>, rq: seq<FluidNode>, trace: seq<FluidNode>, n: nat)
    requires 0 < n <= |q| && q[1..] <= q1 && q1[n - 1..] <= rq
    requires forall m :: m in q1[|q| - 1..] ==> Spawned(q[0], m)
    requires n - 1 <= |q1| && forall m :: m in rq[|q1| - (n - 1)..] ==> SpawnedBy(trace, m)
    ensures forall m :: m in rq[|q| - n..] ==> SpawnedBy([q[0]] + trace, m)
  {
    assert ([q[0]] + trace)[1..] == trace;
    forall m | m in rq[|q| - n..]
      ensures SpawnedBy([q[0]] + trace, m)
    {
      var i :| |q| - n <= i < |rq| && rq[i] == m;
      if i < |q1| - (n - 1) {
        assert rq[i] == q1[n - 1 + i];
        assert q1[n - 1 + i] in q1[|q| - 1..];
      } else {
        assert rq[i] in rq[|q1| - (n - 1)..];
      }
    }
  }

  /** Taking the head of q and then n - 1 more items from a queue that
      kept q's tail at its front takes the first n items of q, and the rest
      of q stays at the front of the final queue. */
  lemma FifoStep(q: seq<FluidNode>, q1: seq<FluidNode>, rq: seq<FluidNode>, trace: seq<FluidNode>, n: nat)
    requires 0 < n <= |q| && q[1..] <= q1
    requires trace == q1[..n - 1] && q1[n - 1..] <= rq
    ensures [q[0]] + trace == q[..n] && q[n..] <= rq
  {
    assert q1[..n - 1] == q[1..n];
    assert q1[n - 1..][..|q| - n] == q[n..];
  }

  /** The spreading loop of `_stepFluids`: up to n dequeues, each processed;
      the trace lists the nodes taken. */
  function SpreadPhase(w: World, n: nat): (r: (World, seq<FluidNode>))
    ensures n <= |w.fluid.queue| ==> r.1 == w.fluid.queue[..n] && w.fluid.queue[n..] <= r.0.fluid.queue
    // every appended item is under or beside a processed node
    ensures n <= |w.fluid.queue| ==> forall m :: m in r.0.fluid.queue[|w.fluid.queue| - n..] ==> SpawnedBy(r.1, m)
    // only cells under or beside a processed node change
    ensures forall x, y, z :: !NearSome(r.1, x, y, z) ==> GetBlockWorld(r.0, x, y, z) == GetBlockWorld(w, x, y, z)
    ensures Framed(w, r.0)
    decreases n
  {
    if n == 0 || |w.fluid.queue| == 0 then (w, [])
    else
      var node := w.fluid.queue[0];
      var w1 := SpreadOne(w);
      var (r, trace) := SpreadPhase(w1, n - 1);
      SpreadPhaseNear(w, Dequeued(w), w1, r, node, trace);
      FramedTrans(w, w1, r);
      if n <= |w.fluid.queue| then
        FifoStep(w.fluid.queue, w1.fluid.queue, r.fluid.queue, trace, n);
        SpawnStep(w.fluid.queue, w1.fluid.queue, r.fluid.queue, trace, n);
        (r, [node] + trace)
      else (r, [node] + trace)
  }

  /** A cell that is near neither the head nor the rest of the trace keeps
      its block across both. */
  lemma SpreadPhaseNear(w: World, d: World, w1: World, r: World, node: FluidNode, trace: seq<FluidNode>)
    requires d.chunks == w.chunks
    requires forall x, y, z :: !Near(node, x, y, z) ==> GetBlockWorld(w1, x, y, z) == GetBlockWorld(d, x, y, z)
    requires forall x, y, z :: !NearSome(trace, x, y, z) ==> GetBlockWorld(r, x, y, z) == GetBlockWorld(w1, x, y, z)
    ensures forall x, y, z :: !NearSome([node] + trace, x, y, z) ==> GetBlockWorld(r, x, y, z) == GetBlockWorld(w, x, y, z)
  {
    assert ([node] + trace)[1..] == trace;
  }

  /** The retraction loop of `_stepFluids`: up to n keys taken from the
      pending set, oldest first, each processed. */
  function RetractPhase(w: World, n: nat): (r: (World, seq<FluidNode>))
    ensures |r.1| <= n
    ensures n > 0 && |w.fluid.retract| > 0 ==> |r.1| > 0 && r.1[0] == w.fluid.retract[0]
    ensures |r.1| < n ==> r.0.fluid.retract == []
    // the keys taken start with the set's first min(n, size) keys, in order
    ensures var m := if n < |w.fluid.retract| then n else |w.fluid.retract|;
      m <= |r.1| && r.1[..m] == w.fluid.retract[..m]
    ensures forall k :: k in r.1 ==> k !in r.0.fluid.parents && k !in r.0.fluid.children
    ensures r.0.fluid.parents.Keys <= w.fluid.parents.Keys
    ensures r.0.fluid.children.Keys <= w.fluid.children.Keys
    ensures r.0.fluid.queue == w.fluid.queue
    ensures BatchKept(w, r.0)
    ensures r.0.chunks.Keys == w.chunks.Keys && r.0.renderChunks == w.renderChunks
    ensures OrderedSet.NoDup(w.fluid.retract) ==> OrderedSet.NoDup(r.0.fluid.retract)
    // no taken key's cell holds its fluid; only taken keys' cells change, to AIR
    ensures forall k :: k in r.1 ==> !Holds(r.0, k)
    ensures forall x, y, z :: GetBlockWorld(r.0, x, y, z) != GetBlockWorld(w, x, y, z) ==> ClearedSome(r.0, r.1, x, y, z)
    decreases n
  {
    if n == 0 then (w, [])
    else
      var (key, fs) := TakeOneRetractPending(w.fluid);
      match key
      case None => (w, [])
      case Some(k) =>
        var w1 := ProcessRetractionKey(w.(fluid := fs), k);
        var (r, trace) := RetractPhase(w1, n - 1);
        TakesPrefixStep(w.fluid.retract, w1.fluid.retract, trace, n);
        BatchKeptTrans(w.(fluid := fs), w1, r);
        RetractCellsStep(w, w1, r, k, trace);
        (r, [k] + trace)
  }

  /** Clearing k's cell and then the cells of trace clears the cells of
      [k] + trace and nothing else; a cleared cell stays cleared. */
  lemma RetractCellsStep(w: World, w1: World, r: World, k: FluidNode, trace: seq<FluidNode>)
    requires !Holds(w1, k)
    requires forall x, y, z :: GetBlockWorld(w1, x, y, z) != GetBlockWorld(w, x, y, z) ==> Cleared(w1, k, x, y, z)
    requires forall t :: t in trace ==> !Holds(r, t)
    requires forall x, y, z :: GetBlockWorld(r, x, y, z) != GetBlockWorld(w1, x, y, z) ==> ClearedSome(r, trace, x, y, z)
    ensures forall t :: t in [k] + trace ==> !Holds(r, t)
    ensures forall x, y, z :: GetBlockWorld(r, x, y, z) != GetBlockWorld(w, x, y, z) ==> ClearedSome(r, [k] + trace, x, y, z)
  {
    assert ([k] + trace)[1..] == trace;
    FluidIdsDistinct(k.fluid);
    if GetBlockWorld(r, k.x, k.y, k.z) != GetBlockWorld(w1, k.x, k.y, k.z) {
      assert ClearedSome(r, trace, k.x, k.y, k.z);
      ClearedSomeIsAir(r, trace, k.x, k.y, k.z);
    }
  }

  lemma ClearedSomeIsAir(r: World, ts: seq<FluidNode>, x: int, y: int, z: int)
    requires ClearedSome(r, ts, x, y, z)
    ensures GetBlockWorld(r, x, y, z) == AIR
    decreases |ts|
  {
    if !Cleared(r, ts[0], x, y, z) {
      ClearedSomeIsAir(r, ts[1..], x, y, z);
    }
  }

  /** Taking the head of q, then the first min(n - 1, size) keys of a set
      that kept q's tail at its front, takes the first min(n, |q|) keys of q. */
  lemma TakesPrefixStep(q: seq<FluidNode>, q1: seq<FluidNode>, trace: seq<FluidNode>, n: nat)
    requires n > 0 && |q| > 0
    requires q[1..] <= q1
    requires var m1 := if n - 1 < |q1| then n - 1 else |q1|; m1 <= |trace| && trace[..m1] == q1[..m1]
    ensures var m := if n < |q| then n else |q|; m <= 1 + |trace| && ([q[0]] + trace)[..m] == q[..m]
  {
    var m := if n < |q| then n else |q|;
    assert ([q[0]] + trace)[..m] == [q[0]] + trace[..m - 1];
    assert q[..m] == [q[0]] + q[1..][..m - 1];
    assert q1[..m - 1] == q[1..][..m - 1];
  }

  /** Work per tick: `MAX_PER_TICK` spread steps, `MAX_RETRACT_PER_TICK`
      retractions. */
  const MAX_PER_TICK: nat := 128
  const MAX_RETRACT_PER_TICK: nat := 3

  /** The rebuilds a phase run in its own session adds: each registered
      chunk at most once. */
  ghost predicate RebuiltOnce(w: World, r: World) {
    && |w.rebuilds| <= |r.rebuilds| && r.rebuilds[..|w.rebuilds|] == w.rebuilds
    && OrderedSet.NoDup(r.rebuilds[|w.rebuilds|..])
    && (forall k :: k in r.rebuilds[|w.rebuilds|..] ==> k in w.renderChunks)
  }

  /** A phase run between `beginBatch` and `endBatch` on a world with no
      open session rebuilds exactly the registered chunks its writes marked
      dirty, each once. */
  lemma OwnSessionRebuiltOnce(w: World, w2: World)
    requires w.batch.None?
    requires BatchKept(BeginBatch(w), w2) && w2.renderChunks == w.renderChunks
    ensures RebuiltOnce(w, EndBatch(w2))
    ensures forall k :: k in EndBatch(w2).rebuilds[|w.rebuilds|..] <==> k in w2.batch.value && k in w.renderChunks
  {
    var r := EndBatch(w2);
    assert w2.rebuilds == w.rebuilds;
    assert OrderedSet.NoDup(w2.batch.value);
  }

  /** Opening and closing a session touches no block, so a phase's block
      facts hold across the session too. */
  lemma SpreadSession(w: World, w0: World, w2: World, r: World, trace: seq<FluidNode>)
    requires w0.chunks == w.chunks && r.chunks == w2.chunks
    requires forall x, y, z :: !NearSome(trace, x, y, z) ==> GetBlockWorld(w2, x, y, z) == GetBlockWorld(w0, x, y, z)
    ensures forall x, y, z :: !NearSome(trace, x, y, z) ==> GetBlockWorld(r, x, y, z) == GetBlockWorld(w, x, y, z)
  {
    SameChunksSameReads(w0, w);
    SameChunksSameReads(r, w2);
  }

  lemma RetractSession(w: World, w0: World, w2: World, r: World, trace: seq<FluidNode>)
    requires w0.chunks == w.chunks && r.chunks == w2.chunks
    requires forall k :: k in trace ==> !Holds(w2, k)
    requires forall x, y, z :: GetBlockWorld(w2, x, y, z) != GetBlockWorld(w0, x, y, z) ==> ClearedSome(w2, trace, x, y, z)
    ensures forall k :: k in trace ==> !Holds(r, k)
    ensures forall x, y, z :: GetBlockWorld(r, x, y, z) != GetBlockWorld(w, x, y, z) ==> ClearedSome(r, trace, x, y, z)
  {
    SameChunksSameReads(w0, w);
    SameChunksSameReads(r, w2);
    forall x, y, z | GetBlockWorld(r, x, y, z) != GetBlockWorld(w, x, y, z)
      ensures ClearedSome(r, trace, x, y, z)
    {
      ClearedSomeSameChunks(r, w2, trace, x, y, z);
    }
  }

  lemma ClearedSomeSameChunks(a: World, b: World, ts: seq<FluidNode>, x: int, y: int, z: int)
    requires a.chunks == b.chunks
    ensures ClearedSome(a, ts, x, y, z) == ClearedSome(b, ts, x, y, z)
    decreases |ts|
  {
    if |ts| > 0 {
      ClearedSomeSameChunks(a, b, ts[1..], x, y, z);
    }
  }

  /** The spreading half of `_stepFluids`: min(128, size) queue items, in
      a batch session of its own when none is open. */
  function SpreadTick(w: World): (r: (World, seq<FluidNode>))
    ensures var count := if |w.fluid.queue| < MAX_PER_TICK then |w.fluid.queue| else MAX_PER_TICK;
      && r.1 == w.fluid.queue[..count] && w.fluid.queue[count..] <= r.0.fluid.queue
      && forall m :: m in r.0.fluid.queue[|w.fluid.queue| - count..] ==> SpawnedBy(r.1, m)
    ensures forall x, y, z :: !NearSome(r.1, x, y, z) ==> GetBlockWorld(r.0, x, y, z) == GetBlockWorld(w, x, y, z)
    ensures w.batch.None? ==> r.0.batch.None? && RebuiltOnce(w, r.0)
    ensures w.batch.Some? ==> BatchKept(w, r.0)
    ensures r.0.chunks.Keys == w.chunks.Keys && r.0.renderChunks == w.renderChunks
    ensures forall m :: m in w.fluid.retract ==> m in r.0.fluid.retract
    ensures OrderedSet.NoDup(w.fluid.retract) ==> OrderedSet.NoDup(r.0.fluid.retract)
  {
    var size := |w.fluid.queue|;
    if size == 0 then (w, [])
    else
      var count := if size < MAX_PER_TICK then size else MAX_PER_TICK;
      if w.batch.Some? then SpreadPhase(w, count)
      else
        var (w2, trace) := SpreadPhase(BeginBatch(w), count);
        OwnSessionRebuiltOnce(w, w2);
        SpreadSession(w, BeginBatch(w), w2, EndBatch(w2), trace);
        (EndBatch(w2), trace)
  }

  /** The retraction half of `_stepFluids`: up to three pending keys, oldest
      first, in a batch session of its own when none is open. */
  function RetractTick(w: World): (r: (World, seq<FluidNode>))
    ensures |r.1| <= MAX_RETRACT_PER_TICK
    ensures |w.fluid.retract| > 0 ==> |r.1| > 0 && r.1[0] == w.fluid.retract[0]
    ensures var m := if MAX_RETRACT_PER_TICK < |w.fluid.retract| then MAX_RETRACT_PER_TICK else |w.fluid.retract|;
      m <= |r.1| && r.1[..m] == w.fluid.retract[..m]
    ensures |r.1| < MAX_RETRACT_PER_TICK ==> r.0.fluid.retract == []
    ensures forall k :: k in r.1 ==> k !in r.0.fluid.parents && k !in r.0.fluid.children
    ensures forall k :: k in r.1 ==> !Holds(r.0, k)
    ensures forall x, y, z :: GetBlockWorld(r.0, x, y, z) != GetBlockWorld(w, x, y, z) ==> ClearedSome(r.0, r.1, x, y, z)
    ensures r.0.fluid.queue == w.fluid.queue
    ensures w.batch.None? ==> r.0.batch.None? && RebuiltOnce(w, r.0)
    ensures w.batch.Some? ==> BatchKept(w, r.0)
    ensures r.0.chunks.Keys == w.chunks.Keys && r.0.renderChunks == w.renderChunks
    ensures OrderedSet.NoDup(w.fluid.retract) ==> OrderedSet.NoDup(r.0.fluid.retract)
  {
    if |w.fluid.retract| == 0 then (w, [])
    else
      if w.batch.Some? then RetractPhase(w, MAX_RETRACT_PER_TICK)
      else
        var (w2, trace) := RetractPhase(BeginBatch(w), MAX_RETRACT_PER_TICK);
        OwnSessionRebuiltOnce(w, w2);
        RetractSession(w, BeginBatch(w), w2, EndBatch(w2), trace);
        (EndBatch(w2), trace)
  }

  /** What one call of `_stepFluids` did: the world after it, the queue items
      it processed and the pending keys it retracted. */
  datatype Tick = Tick(world: World, spread: seq<FluidNode>, retracted: seq<FluidNode>)

  /** `_stepFluids`: bounded spreading, then bounded retraction. */
  function StepFluids(w: World): (r: Tick)
    ensures |w.fluid.queue| <= MAX_PER_TICK ==> r.spread == w.fluid.queue
    ensures |w.fluid.queue| > MAX_PER_TICK ==> r.spread == w.fluid.queue[..MAX_PER_TICK]
    ensures w.fluid.queue[|r.spread|..] <= r.world.fluid.queue
    // every appended item is under or beside a processed node
    ensures forall m :: m in r.world.fluid.queue[|w.fluid.queue| - |r.spread|..] ==> SpawnedBy(r.spread, m)
    // a changed cell is near a processed node, or a retracted key's cell
    ensures forall x, y, z :: GetBlockWorld(r.world, x, y, z) != GetBlockWorld(w, x, y, z) ==>
      NearSome(r.spread, x, y, z) || (ClearedSome(r.world, r.retracted, x, y, z))
    ensures forall k :: k in r.retracted ==> !Holds(r.world, k)
    ensures |r.retracted| <= MAX_RETRACT_PER_TICK
    ensures |r.retracted| < MAX_RETRACT_PER_TICK ==> r.world.fluid.retract == []
    ensures |w.fluid.retract| > 0 ==> |r.retracted| > 0
    ensures forall k :: k in r.retracted ==> k !in r.world.fluid.parents && k !in r.world.fluid.children
    ensures w.batch.None? ==> r.world.batch.None?
    ensures w.batch.Some? ==> BatchKept(w, r.world)
    ensures r.world.chunks.Keys == w.chunks.Keys && r.world.renderChunks == w.renderChunks
    ensures OrderedSet.NoDup(w.fluid.retract) ==> OrderedSet.NoDup(r.world.fluid.retract)
  {
    var spread := SpreadTick(w);
    var retract := RetractTick(spread.0);
    assert |w.fluid.retract| > 0 ==> w.fluid.retract[0] in spread.0.fluid.retract;
    Tick(retract.0, spread.1, retract.1)
  }
}

=== FILE: int_math.dfy ===
/** Integer helpers for `Math.abs`, `Math.min` and `Math.max` on integers. */
module IntMath {
  function Abs(a: int): nat { if a < 0 then -a else a }

  function Min(a: int, b: int): int { if a < b then a else b }

  function Max(a: int, b: int): int { if a < b then b else a }
}

=== FILE: options.dfy ===
/** The optional value used for JavaScript's `null`/`undefined` results. */
module Options {

  datatype Option<+T> = None | Some(value: T) {
    function GetOr(default: T): T {
      match this
      case Some(v) => v
      case None => default
    }
  }
}

=== FILE: ordered_set.dfy ===
/** Insertion-ordered sets (the iteration order of a JavaScript Set) as
    duplicate-free sequences. */
module OrderedSet {

  predicate NoDup<T(==)>(s: seq<T>) {
    forall i, j :: 0 <= i < j < |s| ==> s[i] != s[j]
  }

  /** Set.add: appends a new element, leaves a present one where it is. */
  function Add<T(==,!new)>(s: seq<T>, x: T): (r: seq<T>)
    ensures x in r
    ensures forall y :: y in r <==> y in s || y == x
    ensures x in s ==> r == s
    ensures x !in s ==> r == s + [x]
    ensures NoDup(s) ==> NoDup(r)
  {
    if x in s then s else s + [x]
  }

  /** Set.delete: drops an element, keeping the order of the rest. */
  function Remove<T(==,!new)>(s: seq<T>, x: T): (r: seq<T>)
    ensures forall y :: y in r <==> y in s && y != x
    ensures |r| <= |s|
    ensures NoDup(s) ==> NoDup(r)
    ensures x !in s ==> r == s
  {
    if |s| == 0 then []
    else if s[0] == x then Remove(s[1..], x)
    else
      var rest := Remove(s[1..], x);
      assert NoDup(s) ==> NoDup([s[0]] + rest) by {
        if NoDup(s) {
          HeadNotInTail(s);
          NoDupCons(s[0], rest);
        }
      }
      [s[0]] + rest
  }

  /** Adds every element of xs, in order. */
  function AddAll<T(==,!new)>(s: seq<T>, xs: seq<T>): (r: seq<T>)
    ensures forall y :: y in r <==> y in s || y in xs
    ensures NoDup(s) ==> NoDup(r)
    ensures |s| <= |r|
    ensures r[..|s|] == s
    decreases |xs|
  {
    if |xs| == 0 then s else AddAll(Add(s, xs[0]), xs[1..])
  }

  lemma HeadNotInTail<T>(s: seq<T>)
    requires |s| > 0 && NoDup(s)
    ensures s[0] !in s[1..]
  {
    forall k | 0 <= k < |s| - 1
      ensures s[1..][k] != s[0]
    {
      assert s[1..][k] == s[k + 1];
    }
  }

  lemma NoDupCons<T>(x: T, s: seq<T>)
    requires NoDup(s) && x !in s
    ensures NoDup([x] + s)
  {
    forall i, j | 0 <= i < j < |[x] + s|
      ensures ([x] + s)[i] != ([x] + s)[j]
    {
      if i > 0 {
        assert ([x] + s)[i] == s[i - 1];
      }
      assert ([x] + s)[j] == s[j - 1];
    }
  }
}

=== FILE: placement.dfy ===
/** The player's block placement of entities.js (`_tryPlaceBlock`) and the
    solidity test the entities use for collision (`_isSolidAt`). */
module Placement {
  import opened Blocks
  import opened Options
  import opened World
  import Propagator
  import opened FluidGraph

  /** `_isSolidAt` on a block id: not liquid, not a plant, not AIR. */
  predicate IsSolidId(id: Byte) {
    !IsLiquid(id) && !IsPlant(id) && id != AIR
  }

  /** Solid blocks are exactly those a fluid may neither overwrite nor is. */
  lemma SolidMeansFluidBlocked(id: Byte)
    ensures IsSolidId(id) <==> !IsReplaceableByFluid(id) && !IsLiquid(id)
  {
  }

  /** `_isSolidAt` at an integer cell: unloaded cells and cells outside the
      world height read as AIR, so they are never solid. */
  function SolidAt(w: World, x: int, y: int, z: int): (r: bool)
    ensures r ==> Loaded(w, x, y, z)
    ensures r <==> IsSolidId(GetBlockWorld(w, x, y, z))
  {
    IsSolidId(GetBlockWorld(w, x, y, z))
  }

  datatype Cell = Cell(x: int, y: int, z: int)

  /** The torch's facing from the block it was aimed at, relative to the
      cell it goes into: 0 standing on the floor, 1 to 4 leaning on a side
      block (north, south, east, west); 0 whenever the support is anything
      else. */
  function TorchMeta(place: Cell, aim: Option<Cell>): (meta: Byte)
    ensures meta <= 4
    ensures aim.None? ==> meta == 0
    ensures aim.Some? ==>
      var d := (aim.value.x - place.x, aim.value.y - place.y, aim.value.z - place.z);
      && (meta == 1 <==> d == (0, 0, -1))
      && (meta == 2 <==> d == (0, 0, 1))
      && (meta == 3 <==> d == (1, 0, 0))
      && (meta == 4 <==> d == (-1, 0, 0))
  {
    if aim.None? then 0
    else
      var dx := aim.value.x - place.x;
      var dy := aim.value.y - place.y;
      var dz := aim.value.z - place.z;
      if dx == 0 && dz == 0 && dy == -1 then 0
      else if dy == 0 then
        if dx == 1 && dz == 0 then 3
        else if dx == -1 && dz == 0 then 4
        else if dz == 1 && dx == 0 then 2
        else if dz == -1 && dx == 0 then 1
        else 0
      else 0
  }

  /** A side torch's facing names the neighbour it leans on: stepping from
      the torch cell by the facing's offset lands on the aimed block. */
  lemma TorchMetaPointsAtSupport(place: Cell, aim: Cell)
    requires TorchMeta(place, Some(aim)) != 0
    ensures aim == Cell(place.x + FacingDx(TorchMeta(place, Some(aim))), place.y,
                        place.z + FacingDz(TorchMeta(place, Some(aim))))
  {
  }

  function FacingDx(meta: Byte): int {
    if meta == 3 then 1 else if meta == 4 then -1 else 0
  }

  function FacingDz(meta: Byte): int {
    if meta == 2 then 1 else if meta == 1 then -1 else 0
  }

  /** The placement inputs the player object holds: the held item (0 or
      missing means nothing), the empty cell the crosshair targets, the block
      the crosshair hits, and whether an entity's box covers the target cell
      (an AABB test on floating-point positions, taken as given). */
  datatype Aim = Aim(heldItem: Option<Byte>, placePos: Option<Cell>, aimBlock: Option<Cell>, overlapsEntity: bool)

  /** The target cell may take a block: it holds AIR or a liquid. */
  predicate AcceptsBlock(w: World, p: Cell) {
    var existing := GetBlockWorld(w, p.x, p.y, p.z);
    existing == AIR || IsLiquid(existing)
  }

  /** `_tryPlaceBlock`. */
  function TryPlaceBlock(w: World, a: Aim): (r: World)
    // refusals leave the world as it was
    ensures a.heldItem.None? || a.heldItem == Some(AIR) || a.placePos.None? ==> r == w
    ensures a.placePos.Some? && !AcceptsBlock(w, a.placePos.value) ==> r == w
    ensures a.overlapsEntity ==> r == w
    // an unloaded target reads as AIR, passes the check, and the write is a no-op
    ensures a.placePos.Some? && !Loaded(w, a.placePos.value.x, a.placePos.value.y, a.placePos.value.z) ==> r == w
    // an accepted placement writes the held block (and a torch's facing)
    ensures a.heldItem.Some? && a.heldItem.value != AIR && a.placePos.Some? && !a.overlapsEntity
            && AcceptsBlock(w, a.placePos.value) && Loaded(w, a.placePos.value.x, a.placePos.value.y, a.placePos.value.z) ==>
      var p := a.placePos.value;
      && GetBlockWorld(r, p.x, p.y, p.z) == a.heldItem.value
      && (a.heldItem.value == TORCH ==> GetFluidLevel(r, p.x, p.y, p.z) == Some(TorchMeta(p, a.aimBlock)))
    // only the target cell changes, except what a placed sponge dries
    ensures a.placePos.Some? && a.heldItem != Some(SPONGE) ==> BlocksKeptExcept(w, r, a.placePos.value.x, a.placePos.value.y, a.placePos.value.z)
    ensures r.chunks.Keys == w.chunks.Keys && BatchKept(w, r)
  {
    if a.heldItem.None? || a.heldItem.value == AIR then w
    else if a.placePos.None? then w
    else
      var p := a.placePos.value;
      if !AcceptsBlock(w, p) then w
      else if a.overlapsEntity then w
      else if a.heldItem.value == TORCH then
        SetBlockWorldWithMeta(w, p.x, p.y, p.z, TORCH, TorchMeta(p, a.aimBlock))
      else
        Propagator.SetBlockWorld(w, p.x, p.y, p.z, a.heldItem.value)
  }

  /** Placing into a liquid cell removes that liquid from the simulation:
      the cell's fluid node is scheduled for retraction. */
  lemma PlacingIntoLiquidRetracts(w: World, a: Aim)
    requires a.heldItem.Some? && a.heldItem.value != AIR && !IsLiquid(a.heldItem.value) && a.heldItem.value != TORCH
    requires a.placePos.Some? && !a.overlapsEntity
    requires var p := a.placePos.value; Loaded(w, p.x, p.y, p.z) && IsLiquid(GetBlockWorld(w, p.x, p.y, p.z))
    ensures var p := a.placePos.value;
      FluidNode(FluidOf(GetBlockWorld(w, p.x, p.y, p.z)), p.x, p.y, p.z) in TryPlaceBlock(w, a).fluid.retract
  {
  }

  /** A torch goes in through the metadata write, which has no fluid hooks:
      a torch placed into a liquid leaves the fluid graph as it was. The
      cell's node keeps its parent and child entries; a queued copy of it is
      only skipped, and the entries go when a retraction reaches the key. */
  lemma TorchIntoLiquidKeepsFluidGraph(w: World, a: Aim)
    requires a.heldItem == Some(TORCH) && a.placePos.Some?
    ensures TryPlaceBlock(w, a).fluid == w.fluid
  {
  }
}

=== FILE: propagator.dfy ===
/** The central write path `setBlockWorld` (voxel_engine.js): the plain write
    and rebuild scheduling shared with `_setBlockRaw`, then the sponge hook,
    then the fluid hooks. */
module Propagator {
  import opened Blocks
  import opened Options
  import opened Chunk
  import OrderedSet
  import opened FluidGraph
  import opened World

  const SPONGE_RADIUS: int := 6

  /** The sponge's spherical test: squared distance at most radius squared. */
  predicate InSphere(cx: int, cy: int, cz: int, x: int, y: int, z: int) {
    (x - cx) * (x - cx) + (y - cy) * (y - cy) + (z - cz) * (z - cz) <= SPONGE_RADIUS * SPONGE_RADIUS
  }

  /** A square above radius squared needs a coordinate beyond the radius. */
  lemma SquareBound(d: int)
    ensures 0 <= d * d
    ensures -SPONGE_RADIUS <= d <= SPONGE_RADIUS || d * d > SPONGE_RADIUS * SPONGE_RADIUS
  {
    if d > SPONGE_RADIUS {
      assert d * d >= (SPONGE_RADIUS + 1) * d;
    } else if d < -SPONGE_RADIUS {
      assert d * d >= (SPONGE_RADIUS + 1) * (-d);
    } else if d < 0 {
      assert d * d == (-d) * (-d);
    }
  }

  /** A sphere cell lies in the scanned cube. */
  lemma InSphereBox(cx: int, cy: int, cz: int, x: int, y: int, z: int)
    requires InSphere(cx, cy, cz, x, y, z)
    ensures cx - SPONGE_RADIUS <= x <= cx + SPONGE_RADIUS
    ensures cy - SPONGE_RADIUS <= y <= cy + SPONGE_RADIUS
    ensures cz - SPONGE_RADIUS <= z <= cz + SPONGE_RADIUS
  {
    var dx, dy, dz := x - cx, y - cy, z - cz;
    SquareBound(dx);
    SquareBound(dy);
    SquareBound(dz);
  }

  /** Between w and r, cells only changed from a liquid to AIR, and only
      inside the sphere around (cx, cy, cz). */
  ghost predicate DriedWithin(w: World, r: World, cx: int, cy: int, cz: int) {
    forall x, y, z ::
      || GetBlockWorld(r, x, y, z) == GetBlockWorld(w, x, y, z)
      || (InSphere(cx, cy, cz, x, y, z) && IsLiquid(GetBlockWorld(w, x, y, z)) && GetBlockWorld(r, x, y, z) == AIR)
  }

  /** Every cell that stopped holding a liquid between w and r has its fluid
      node pending retraction, and nothing pending was dropped. */
  ghost predicate RetractsCleared(w: World, r: World) {
    && (forall m :: m in w.fluid.retract ==> m in r.fluid.retract)
    && (forall x, y, z :: IsLiquid(GetBlockWorld(w, x, y, z)) && !IsLiquid(GetBlockWorld(r, x, y, z))
          ==> FluidNode(FluidOf(GetBlockWorld(w, x, y, z)), x, y, z) in r.fluid.retract)
  }

  /** The parts of the state the sponge pass never touches. */
  ghost predicate SpongeFrame(w: World, r: World) {
    && MetaKept(w, r)
    && BatchKept(w, r)
    && r.chunks.Keys == w.chunks.Keys && r.renderChunks == w.renderChunks
    && r.fluid.queue == w.fluid.queue && r.fluid.parents == w.fluid.parents && r.fluid.children == w.fluid.children
    && (OrderedSet.NoDup(w.fluid.retract) ==> OrderedSet.NoDup(r.fluid.retract))
  }

  lemma SpongeStepsCompose(w: World, r: World, s: World, cx: int, cy: int, cz: int)
    requires DriedWithin(w, r, cx, cy, cz) && DriedWithin(r, s, cx, cy, cz)
    requires RetractsCleared(w, r) && RetractsCleared(r, s)
    requires SpongeFrame(w, r) && SpongeFrame(r, s)
    ensures DriedWithin(w, s, cx, cy, cz) && RetractsCleared(w, s) && SpongeFrame(w, s)
  {
    forall x, y, z
      ensures IsLiquid(GetBlockWorld(w, x, y, z)) && !IsLiquid(GetBlockWorld(s, x, y, z))
          ==> FluidNode(FluidOf(GetBlockWorld(w, x, y, z)), x, y, z) in s.fluid.retract
    {
    }
  }

  /** One cell of the sponge scan: a liquid cell in the sphere is cleared
      with the raw write and its node scheduled for retraction. */
  function SpongeCell(w: World, cx: int, cy: int, cz: int, x: int, y: int, z: int): (r: World)
    ensures InSphere(cx, cy, cz, x, y, z) ==> !IsLiquid(GetBlockWorld(r, x, y, z))
    ensures DriedWithin(w, r, cx, cy, cz)
    ensures RetractsCleared(w, r)
    ensures SpongeFrame(w, r)
  {
    if !InSphere(cx, cy, cz, x, y, z) then w
    else
      var id := GetBlockWorld(w, x, y, z);
      if !IsLiquid(id) then w
      else
        var w1 := SetBlockRaw(w, x, y, z, AIR);
        w1.(fluid := ScheduleRetraction(w1.fluid, FluidNode(FluidOf(id), x, y, z)))
  }

  /** The innermost loop: x from `x` to cx + radius. */
  function SpongeX(w: World, cx: int, cy: int, cz: int, y: int, z: int, x: int): (r: World)
    ensures forall x' :: x <= x' <= cx + SPONGE_RADIUS && InSphere(cx, cy, cz, x', y, z) ==> !IsLiquid(GetBlockWorld(r, x', y, z))
    ensures DriedWithin(w, r, cx, cy, cz)
    ensures RetractsCleared(w, r)
    ensures SpongeFrame(w, r)
    decreases cx + SPONGE_RADIUS - x
  {
    if x > cx + SPONGE_RADIUS then w
    else
      var w1 := SpongeCell(w, cx, cy, cz, x, y, z);
      var r := SpongeX(w1, cx, cy, cz, y, z, x + 1);
      SpongeStepsCompose(w, w1, r, cx, cy, cz);
      r
  }

  /** The middle loop: z from `z` to cz + radius. */
  function SpongeZ(w: World, cx: int, cy: int, cz: int, y: int, z: int): (r: World)
    ensures forall x', z' ::
      && z <= z' <= cz + SPONGE_RADIUS
      && cx - SPONGE_RADIUS <= x' <= cx + SPONGE_RADIUS
      && InSphere(cx, cy, cz, x', y, z')
      ==> !IsLiquid(GetBlockWorld(r, x', y, z'))
    ensures DriedWithin(w, r, cx, cy, cz)
    ensures RetractsCleared(w, r)
    ensures SpongeFrame(w, r)
    decreases cz + SPONGE_RADIUS - z
  {
    if z > cz + SPONGE_RADIUS then w
    else
      var w1 := SpongeX(w, cx, cy, cz, y, z, cx - SPONGE_RADIUS);
      var r := SpongeZ(w1, cx, cy, cz, y, z + 1);
      SpongeStepsCompose(w, w1, r, cx, cy, cz);
      r
  }

  /** The outer loop: y from `y` to cy + radius, skipping layers outside
      [Y_MIN, Y_MAX]. */
  function SpongeY(w: World, cx: int, cy: int, cz: int, y: int): (r: World)
    ensures forall x', y', z' ::
      && y <= y' <= cy + SPONGE_RADIUS
      && cx - SPONGE_RADIUS <= x' <= cx + SPONGE_RADIUS
      && cz - SPONGE_RADIUS <= z' <= cz + SPONGE_RADIUS
      && InSphere(cx, cy, cz, x', y', z')
      ==> !IsLiquid(GetBlockWorld(r, x', y', z'))
    ensures DriedWithin(w, r, cx, cy, cz)
    ensures RetractsCleared(w, r)
    ensures SpongeFrame(w, r)
    decreases cy + SPONGE_RADIUS - y
  {
    if y > cy + SPONGE_RADIUS then w
    else
      var w1 := if y < Y_MIN || y > Y_MAX then w else SpongeZ(w, cx, cy, cz, y, cz - SPONGE_RADIUS);
      var r := SpongeY(w1, cx, cy, cz, y + 1);
      SpongeStepsCompose(w, w1, r, cx, cy, cz);
      r
  }

  /** The three nested loops of `_applySponge` over the cube around the
      centre, which covers the sphere. */
  function SpongeScan(w: World, cx: int, cy: int, cz: int): (r: World)
    ensures forall x, y, z :: InSphere(cx, cy, cz, x, y, z) ==> !IsLiquid(GetBlockWorld(r, x, y, z))
    ensures DriedWithin(w, r, cx, cy, cz)
    ensures RetractsCleared(w, r)
    ensures SpongeFrame(w, r)
  {
    var r := SpongeY(w, cx, cy, cz, cy - SPONGE_RADIUS);
    forall x, y, z | InSphere(cx, cy, cz, x, y, z)
      ensures !IsLiquid(GetBlockWorld(r, x, y, z))
    {
      InSphereBox(cx, cy, cz, x, y, z);
    }
    r
  }

  /** `_applySponge` with radius 6: afterwards no cell within squared distance
      36 holds a liquid; only liquid cells of the sphere changed (to AIR),
      each with its node pending retraction; opens and closes its own batch
      when none is open. */
  function ApplySponge(w: World, cx: int, cy: int, cz: int): (r: World)
    ensures forall x, y, z :: InSphere(cx, cy, cz, x, y, z) ==> !IsLiquid(GetBlockWorld(r, x, y, z))
    ensures DriedWithin(w, r, cx, cy, cz)
    ensures RetractsCleared(w, r)
    ensures MetaKept(w, r)
    ensures BatchKept(w, r)
    ensures w.batch.None? ==> |w.rebuilds| <= |r.rebuilds| && r.rebuilds[..|w.rebuilds|] == w.rebuilds
                              && OrderedSet.NoDup(r.rebuilds[|w.rebuilds|..])
    ensures r.chunks.Keys == w.chunks.Keys && r.renderChunks == w.renderChunks
    ensures r.fluid.queue == w.fluid.queue && r.fluid.parents == w.fluid.parents && r.fluid.children == w.fluid.children
    ensures OrderedSet.NoDup(w.fluid.retract) ==> OrderedSet.NoDup(r.fluid.retract)
  {
    if w.batch.None? then
      var w1 := BeginBatch(w);
      SameChunksSameReads(w, w1);
      var w2 := SpongeScan(w1, cx, cy, cz);
      var r := EndBatch(w2);
      SameChunksSameReads(w2, r);
      r
    else SpongeScan(w, cx, cy, cz)
  }

  /** The six face neighbours, in the order `setBlockWorld` visits them. */
  const DIRS6: seq<(int, int, int)> := [(1, 0, 0), (-1, 0, 0), (0, 1, 0), (0, -1, 0), (0, 0, 1), (0, 0, -1)]

  /** Face adjacency: the cells differ by one step along one axis. */
  predicate Adjacent6(x: int, y: int, z: int, nx: int, ny: int, nz: int) {
    var d := (if nx < x then x - nx else nx - x) + (if ny < y then y - ny else ny - y) + (if nz < z then z - nz else nz - z);
    d == 1
  }

  /** The fluid node of face neighbour j when it holds a liquid. */
  function LiquidNeighbour(w: World, x: int, y: int, z: int, j: nat): (n: Option<FluidNode>)
    requires j < |DIRS6|
    ensures n.Some? ==> Adjacent6(x, y, z, n.value.x, n.value.y, n.value.z) && GetBlockWorld(w, n.value.x, n.value.y, n.value.z) == n.value.fluid.Id()
    // reported exactly when the neighbour in direction j holds a liquid
    ensures var (dx, dy, dz) := DIRS6[j]; n.Some? <==> IsLiquid(GetBlockWorld(w, x + dx, y + dy, z + dz))
    ensures n.Some? ==> (n.value.x, n.value.y, n.value.z) == (x + DIRS6[j].0, y + DIRS6[j].1, z + DIRS6[j].2)
  {
    var (dx, dy, dz) := DIRS6[j];
    var nid := GetBlockWorld(w, x + dx, y + dy, z + dz);
    if IsLiquid(nid) then Some(FluidNode(FluidOf(nid), x + dx, y + dy, z + dz)) else None
  }

  /** Every face neighbour holding a liquid, and nothing else, was appended
      to the queue between w and r. */
  ghost predicate EnqueuedLiquidNeighbours(w: World, r: World, x: int, y: int, z: int) {
    && w.fluid.queue <= r.fluid.queue
    && (forall n :: n in r.fluid.queue[|w.fluid.queue|..] ==>
          Adjacent6(x, y, z, n.x, n.y, n.z) && GetBlockWorld(w, n.x, n.y, n.z) == n.fluid.Id())
    && (forall j :: 0 <= j < |DIRS6| && LiquidNeighbour(w, x, y, z, j).Some? ==>
          LiquidNeighbour(w, x, y, z, j).value in r.fluid.queue[|w.fluid.queue|..])
  }

  /** The face neighbours' fluid nodes in `dirs6` order, None where the
      neighbour holds no liquid. */
  function LiquidNeighbours(w: World, x: int, y: int, z: int): (r: seq<Option<FluidNode>>)
    ensures |r| == |DIRS6|
    ensures forall j :: 0 <= j < |DIRS6| ==> r[j] == LiquidNeighbour(w, x, y, z, j)
    // one entry per direction, present exactly where that neighbour holds a liquid
    ensures forall j :: 0 <= j < |DIRS6| ==>
      (r[j].Some? <==> IsLiquid(GetBlockWorld(w, x + DIRS6[j].0, y + DIRS6[j].1, z + DIRS6[j].2)))
    ensures forall j :: 0 <= j < |DIRS6| && r[j].Some? ==>
      r[j].value == FluidNode(FluidOf(GetBlockWorld(w, x + DIRS6[j].0, y + DIRS6[j].1, z + DIRS6[j].2)), x + DIRS6[j].0, y + DIRS6[j].1, z + DIRS6[j].2)
  {
    seq(|DIRS6|, j requires 0 <= j < |DIRS6| => LiquidNeighbour(w, x, y, z, j))
  }

  /** The present entries of os, in order. */
  function Present(os: seq<Option<FluidNode>>): (r: seq<FluidNode>)
    ensures forall n :: n in r <==> Some(n) in os
  {
    if |os| == 0 then []
    else (if os[0].Some? then [os[0].value] else []) + Present(os[1..])
  }

  /** The loop over `dirs6` after a cell became AIR: appends to queue q each
      face neighbour holding a liquid, in direction order. */
  function EnqueueLiquidNeighbours(w: World, q: seq<FluidNode>, x: int, y: int, z: int): (r: seq<FluidNode>)
    ensures q <= r
    ensures forall n :: n in r[|q|..] ==> Adjacent6(x, y, z, n.x, n.y, n.z) && GetBlockWorld(w, n.x, n.y, n.z) == n.fluid.Id()
    ensures forall j :: 0 <= j < |DIRS6| && LiquidNeighbour(w, x, y, z, j).Some? ==> LiquidNeighbour(w, x, y, z, j).value in r[|q|..]
  {
    var ns := LiquidNeighbours(w, x, y, z);
    var r := q + Present(ns);
    assert r[|q|..] == Present(ns);
    r
  }

  /** The fluid hooks of `setBlockWorld`, run after a successful write that
      replaced oldId by id at (wx, wy, wz). */
  function FluidHooks(w: World, wx: int, wy: int, wz: int, oldId: Byte, id: Byte): (r: World)
    ensures IsLiquid(id) && !IsLiquid(oldId) ==>
      && r.fluid.queue == w.fluid.queue + [FluidNode(FluidOf(id), wx, wy, wz)]
      && r.fluid.parents == w.fluid.parents[FluidNode(FluidOf(id), wx, wy, wz) := None]
    ensures !(IsLiquid(id) && !IsLiquid(oldId)) ==> r.fluid.parents == w.fluid.parents
    ensures IsLiquid(oldId) && !IsLiquid(id) ==> r.fluid.retract == OrderedSet.Add(w.fluid.retract, FluidNode(FluidOf(oldId), wx, wy, wz))
    ensures !(IsLiquid(oldId) && !IsLiquid(id)) ==> r.fluid.retract == w.fluid.retract
    ensures id == AIR ==> EnqueuedLiquidNeighbours(w, r, wx, wy, wz)
    ensures !IsLiquid(id) && id != AIR ==> r.fluid.queue == w.fluid.queue
    ensures !(IsLiquid(id) && !IsLiquid(oldId)) && id != AIR ==> r.fluid.queue == w.fluid.queue
    ensures w.fluid.queue <= r.fluid.queue
    ensures r.fluid.children == w.fluid.children
    ensures r.chunks == w.chunks && r.renderChunks == w.renderChunks && r.batch == w.batch && r.rebuilds == w.rebuilds
    ensures forall x, y, z :: GetBlockWorld(r, x, y, z) == GetBlockWorld(w, x, y, z)
    ensures MetaKept(w, r) && BatchKept(w, r)
  {
    var f1 := if IsLiquid(id) && !IsLiquid(oldId)
      then
        var node := FluidNode(FluidOf(id), wx, wy, wz);
        Enqueue(w.fluid, node).(parents := w.fluid.parents[node := None])
      else w.fluid;
    var f2 := if IsLiquid(oldId) && !IsLiquid(id)
      then ScheduleRetraction(f1, FluidNode(FluidOf(oldId), wx, wy, wz))
      else f1;
    var f3 := if id == AIR then f2.(queue := EnqueueLiquidNeighbours(w, f2.queue, wx, wy, wz)) else f2;
    SameChunksSameReads(w, w.(fluid := f3));
    w.(fluid := f3)
  }

  /** The storage half of `setBlockWorld`: the write with its rebuild
      scheduling, then the sponge pass when the new block is a sponge. */
  function WriteWithSponge(w: World, wx: int, wy: int, wz: int, id: Byte): (r: World)
    requires Loaded(w, wx, wy, wz) && GetBlockWorld(w, wx, wy, wz) != id
    ensures GetBlockWorld(r, wx, wy, wz) == id
    ensures id != SPONGE ==> BlocksKeptExcept(w, r, wx, wy, wz)
    ensures id == SPONGE ==> forall x, y, z :: InSphere(wx, wy, wz, x, y, z) ==> !IsLiquid(GetBlockWorld(r, x, y, z))
    ensures forall x, y, z :: (x, y, z) != (wx, wy, wz) ==>
      || GetBlockWorld(r, x, y, z) == GetBlockWorld(w, x, y, z)
      || (id == SPONGE && InSphere(wx, wy, wz, x, y, z) && IsLiquid(GetBlockWorld(w, x, y, z)) && GetBlockWorld(r, x, y, z) == AIR)
    ensures MetaKept(w, r)
    ensures BatchKept(w, r)
    ensures id != SPONGE ==> Scheduled(w, r, AffectedChunks(wx, wz))
    // a sponge's own chunks are scheduled before it dries its surroundings
    ensures ScheduledKept(w, r, AffectedChunks(wx, wz))
    ensures r.chunks.Keys == w.chunks.Keys && r.renderChunks == w.renderChunks
    ensures r.fluid.queue == w.fluid.queue && r.fluid.parents == w.fluid.parents && r.fluid.children == w.fluid.children
    ensures forall m :: m in w.fluid.retract ==> m in r.fluid.retract
    ensures id != SPONGE ==> r.fluid.retract == w.fluid.retract
    // every other cell the sponge dried has its fluid node pending retraction
    ensures forall x, y, z :: (x, y, z) != (wx, wy, wz) && IsLiquid(GetBlockWorld(w, x, y, z)) && !IsLiquid(GetBlockWorld(r, x, y, z)) ==>
      FluidNode(FluidOf(GetBlockWorld(w, x, y, z)), x, y, z) in r.fluid.retract
    ensures OrderedSet.NoDup(w.fluid.retract) ==> OrderedSet.NoDup(r.fluid.retract)
  {
    var w1 := SetBlockRaw(w, wx, wy, wz, id);
    ScheduledIsKept(w, w1, AffectedChunks(wx, wz));
    if id == SPONGE then
      var r := ApplySponge(w1, wx, wy, wz);
      assert GetBlockWorld(r, wx, wy, wz) == GetBlockWorld(w1, wx, wy, wz);
      ScheduledKeptThen(w, w1, r, AffectedChunks(wx, wz));
      BatchKeptTrans(w, w1, r);
      r
    else w1
  }

  /** `setBlockWorld`: the world write with rebuild scheduling, followed by
      the sponge hook and the three fluid hooks. */
  function SetBlockWorld(w: World, wx: int, wy: int, wz: int, id: Byte): (r: World)
    // no-op writes: out of range, unloaded, or the id already there
    ensures !Loaded(w, wx, wy, wz) || GetBlockWorld(w, wx, wy, wz) == id ==> r == w
    ensures Loaded(w, wx, wy, wz) ==> GetBlockWorld(r, wx, wy, wz) == id
    // other cells: untouched, except the liquids a sponge dries
    ensures id != SPONGE ==> BlocksKeptExcept(w, r, wx, wy, wz)
    ensures Loaded(w, wx, wy, wz) && GetBlockWorld(w, wx, wy, wz) != id && id == SPONGE ==>
      forall x, y, z :: InSphere(wx, wy, wz, x, y, z) ==> !IsLiquid(GetBlockWorld(r, x, y, z))
    ensures forall x, y, z :: (x, y, z) != (wx, wy, wz) ==>
      || GetBlockWorld(r, x, y, z) == GetBlockWorld(w, x, y, z)
      || (id == SPONGE && InSphere(wx, wy, wz, x, y, z) && IsLiquid(GetBlockWorld(w, x, y, z)) && GetBlockWorld(r, x, y, z) == AIR)
    ensures MetaKept(w, r)
    // rebuild scheduling
    ensures BatchKept(w, r)
    ensures Loaded(w, wx, wy, wz) && GetBlockWorld(w, wx, wy, wz) != id && id != SPONGE ==> Scheduled(w, r, AffectedChunks(wx, wz))
    ensures Loaded(w, wx, wy, wz) && GetBlockWorld(w, wx, wy, wz) != id ==> ScheduledKept(w, r, AffectedChunks(wx, wz))
    ensures r.chunks.Keys == w.chunks.Keys && r.renderChunks == w.renderChunks
    // fluid hooks
    ensures w.fluid.queue <= r.fluid.queue
    ensures Loaded(w, wx, wy, wz) && IsLiquid(id) && !IsLiquid(GetBlockWorld(w, wx, wy, wz)) ==>
      && r.fluid.queue == w.fluid.queue + [FluidNode(FluidOf(id), wx, wy, wz)]
      && r.fluid.parents == w.fluid.parents[FluidNode(FluidOf(id), wx, wy, wz) := None]
    ensures !(Loaded(w, wx, wy, wz) && IsLiquid(id) && !IsLiquid(GetBlockWorld(w, wx, wy, wz))) ==> r.fluid.parents == w.fluid.parents
    ensures r.fluid.children == w.fluid.children
    ensures forall m :: m in w.fluid.retract ==> m in r.fluid.retract
    ensures Loaded(w, wx, wy, wz) && IsLiquid(GetBlockWorld(w, wx, wy, wz)) && !IsLiquid(id) ==>
      FluidNode(FluidOf(GetBlockWorld(w, wx, wy, wz)), wx, wy, wz) in r.fluid.retract
    ensures OrderedSet.NoDup(w.fluid.retract) ==> OrderedSet.NoDup(r.fluid.retract)
    ensures Loaded(w, wx, wy, wz) && GetBlockWorld(w, wx, wy, wz) != id && id == AIR ==>
      EnqueuedLiquidNeighbours(SetBlockRaw(w, wx, wy, wz, id), r, wx, wy, wz)
    ensures !IsLiquid(id) && id != AIR ==> r.fluid.queue == w.fluid.queue
    // a liquid replacing a liquid enqueues nothing
    ensures Loaded(w, wx, wy, wz) && IsLiquid(GetBlockWorld(w, wx, wy, wz)) && IsLiquid(id) ==> r.fluid.queue == w.fluid.queue
    // no retraction is scheduled unless a liquid was removed or a sponge placed
    ensures Loaded(w, wx, wy, wz) && id != SPONGE && !(IsLiquid(GetBlockWorld(w, wx, wy, wz)) && !IsLiquid(id)) ==>
      r.fluid.retract == w.fluid.retract
    // every cell that stopped holding a liquid, the written one or one a
    // sponge dried, has its fluid node pending retraction
    ensures RetractsCleared(w, r)
  {
    if !Loaded(w, wx, wy, wz) || GetBlockWorld(w, wx, wy, wz) == id then w
    else
      var oldId := GetBlockWorld(w, wx, wy, wz);
      var w1 := WriteWithSponge(w, wx, wy, wz, id);
      var r := FluidHooks(w1, wx, wy, wz, oldId, id);
      HooksRetractCleared(w, w1, r, wx, wy, wz, id);
      r
  }

  /** The sponge schedules the cells it dried, the removal hook schedules
      the written cell: together every cell that lost its liquid is pending. */
  lemma HooksRetractCleared(w: World, w1: World, r: World, wx: int, wy: int, wz: int, id: Byte)
    requires GetBlockWorld(w1, wx, wy, wz) == id
    requires forall x, y, z :: (x, y, z) != (wx, wy, wz) && IsLiquid(GetBlockWorld(w, x, y, z)) && !IsLiquid(GetBlockWorld(w1, x, y, z)) ==>
      FluidNode(FluidOf(GetBlockWorld(w, x, y, z)), x, y, z) in w1.fluid.retract
    requires forall m :: m in w.fluid.retract ==> m in w1.fluid.retract
    requires forall m :: m in w1.fluid.retract ==> m in r.fluid.retract
    requires forall x, y, z :: GetBlockWorld(r, x, y, z) == GetBlockWorld(w1, x, y, z)
    requires IsLiquid(GetBlockWorld(w, wx, wy, wz)) && !IsLiquid(id) ==>
      FluidNode(FluidOf(GetBlockWorld(w, wx, wy, wz)), wx, wy, wz) in r.fluid.retract
    ensures RetractsCleared(w, r)
  {
  }
}

=== FILE: structures.dfy ===
/** Structure stamping (structures.js): the deferred-write buffer
    `PendingBlocks`, the cross-chunk writer of `makeBlockWriter`, quarter-turn
    rotation, local-to-world placement, box filling and bounding boxes. */
module Structures {
  import opened Blocks
  import opened Options
  import opened Chunk
  import opened Coords
  import opened World
  import opened IntMath

  // ---------------------------------------------------------------------
  // PendingBlocks
  // ---------------------------------------------------------------------

  datatype BlockWrite = BlockWrite(lx: int, y: int, lz: int, id: Byte)
  datatype MetaWrite = MetaWrite(lx: int, y: int, lz: int, val: Byte)

  /** The writes waiting for one chunk, each list in insertion order. */
  datatype Bucket = Bucket(blocks: seq<BlockWrite>, metas: seq<MetaWrite>)

  /** `PendingBlocks.map`, keyed by chunk position. */
  type Pending = map<ChunkPos, Bucket>

  /** `_bucket` without its side effect: a missing bucket reads as empty. */
  function BucketOf(p: Pending, k: ChunkPos): Bucket {
    if k in p then p[k] else Bucket([], [])
  }

  /** Every bucket except k is as it was (present or absent alike). */
  ghost predicate OtherBucketsKept(p: Pending, r: Pending, k: ChunkPos) {
    forall k' :: k' != k ==> (k' in r <==> k' in p) && (k' in p ==> r[k'] == p[k'])
  }

  /** `addBlock`. */
  function AddBlock(p: Pending, cx: int, cz: int, lx: int, y: int, lz: int, id: Byte): (r: Pending)
    ensures ChunkPos(cx, cz) in r
    ensures BucketOf(r, ChunkPos(cx, cz)).blocks == BucketOf(p, ChunkPos(cx, cz)).blocks + [BlockWrite(lx, y, lz, id)]
    ensures BucketOf(r, ChunkPos(cx, cz)).metas == BucketOf(p, ChunkPos(cx, cz)).metas
    ensures OtherBucketsKept(p, r, ChunkPos(cx, cz))
  {
    var b := BucketOf(p, ChunkPos(cx, cz));
    p[ChunkPos(cx, cz) := b.(blocks := b.blocks + [BlockWrite(lx, y, lz, id)])]
  }

  /** `addMeta`. */
  function AddMeta(p: Pending, cx: int, cz: int, lx: int, y: int, lz: int, val: Byte): (r: Pending)
    ensures ChunkPos(cx, cz) in r
    ensures BucketOf(r, ChunkPos(cx, cz)).metas == BucketOf(p, ChunkPos(cx, cz)).metas + [MetaWrite(lx, y, lz, val)]
    ensures BucketOf(r, ChunkPos(cx, cz)).blocks == BucketOf(p, ChunkPos(cx, cz)).blocks
    ensures OtherBucketsKept(p, r, ChunkPos(cx, cz))
  {
    var b := BucketOf(p, ChunkPos(cx, cz));
    p[ChunkPos(cx, cz) := b.(metas := b.metas + [MetaWrite(lx, y, lz, val)])]
  }

  /** Reference meaning of a write list: the id of the last write aimed at
      the cell, if any. */
  function LastBlockWrite(ws: seq<BlockWrite>, x: int, y: int, z: int): Option<Byte> {
    if |ws| == 0 then None
    else if (ws[|ws| - 1].lx, ws[|ws| - 1].y, ws[|ws| - 1].lz) == (x, y, z) then Some(ws[|ws| - 1].id)
    else LastBlockWrite(ws[..|ws| - 1], x, y, z)
  }

  function LastMetaWrite(ms: seq<MetaWrite>, x: int, y: int, z: int): Option<Byte> {
    if |ms| == 0 then None
    else if (ms[|ms| - 1].lx, ms[|ms| - 1].y, ms[|ms| - 1].lz) == (x, y, z) then Some(ms[|ms| - 1].val)
    else LastMetaWrite(ms[..|ms| - 1], x, y, z)
  }

  /** The block loop of `flushForChunk`: writes in insertion order, those
      with y outside [Y_MIN, Y_MAX] skipped. Every in-chunk cell ends up with
      the last id written to it, or keeps its own. */
  function ApplyBlockWrites(c: Chunk, ws: seq<BlockWrite>): (r: Chunk)
    ensures r.chunkX == c.chunkX && r.chunkZ == c.chunkZ && r.metadata == c.metadata
    ensures forall x, y, z :: InChunk(x, y, z) ==> GetBlock(r, x, y, z) == LastBlockWrite(ws, x, y, z).GetOr(GetBlock(c, x, y, z))
    decreases |ws|
  {
    if |ws| == 0 then c
    else
      var before := ApplyBlockWrites(c, ws[..|ws| - 1]);
      var w := ws[|ws| - 1];
      if w.y < Y_MIN || w.y > Y_MAX then before else SetBlock(before, w.lx, w.y, w.lz, w.id)
  }

  /** The metadata loop of `flushForChunk`. */
  function ApplyMetaWrites(c: Chunk, ms: seq<MetaWrite>): (r: Chunk)
    ensures r.chunkX == c.chunkX && r.chunkZ == c.chunkZ && r.blocks == c.blocks
    ensures forall x, y, z :: InChunk(x, y, z) ==> GetMeta(r, x, y, z) == Some(LastMetaWrite(ms, x, y, z).GetOr(GetMeta(c, x, y, z).value))
    decreases |ms|
  {
    if |ms| == 0 then c
    else
      var before := ApplyMetaWrites(c, ms[..|ms| - 1]);
      var m := ms[|ms| - 1];
      if m.y < Y_MIN || m.y > Y_MAX then before else SetMeta(before, m.lx, m.y, m.lz, m.val)
  }

  /** `flushForChunk`: applies the chunk's bucket (blocks, then metadata)
      and deletes it. */
  function FlushForChunk(p: Pending, c: Chunk): (r: (Pending, Chunk))
    ensures ChunkPos(c.chunkX, c.chunkZ) !in r.0
    ensures OtherBucketsKept(p, r.0, ChunkPos(c.chunkX, c.chunkZ))
    ensures ChunkPos(c.chunkX, c.chunkZ) !in p ==> r == (p, c)
    ensures r.1.chunkX == c.chunkX && r.1.chunkZ == c.chunkZ
    ensures forall x, y, z :: InChunk(x, y, z) ==>
      var b := BucketOf(p, ChunkPos(c.chunkX, c.chunkZ));
      && GetBlock(r.1, x, y, z) == LastBlockWrite(b.blocks, x, y, z).GetOr(GetBlock(c, x, y, z))
      && GetMeta(r.1, x, y, z) == Some(LastMetaWrite(b.metas, x, y, z).GetOr(GetMeta(c, x, y, z).value))
  {
    var k := ChunkPos(c.chunkX, c.chunkZ);
    if k !in p then (p, c)
    else
      var b := p[k];
      (p - {k}, ApplyMetaWrites(ApplyBlockWrites(c, b.blocks), b.metas))
  }

  /** A second flush of the same chunk finds no bucket and changes nothing. */
  lemma FlushTwiceIsNoOp(p: Pending, c: Chunk)
    ensures var once := FlushForChunk(p, c);
      FlushForChunk(once.0, once.1) == once
  {
  }

  // ---------------------------------------------------------------------
  // makeBlockWriter
  // ---------------------------------------------------------------------

  /** `worldToLocal` of the writer: floor division, and the local coordinate
      as the difference `w - c * 16`. */
  function WorldToLocal(wx: int, wz: int): (r: (int, int, int, int))
    ensures 0 <= r.2 < CHUNK_SIZE && 0 <= r.3 < CHUNK_SIZE
    ensures r.0 * CHUNK_SIZE + r.2 == wx && r.1 * CHUNK_SIZE + r.3 == wz
    ensures r.0 == ChunkCoord(wx) && r.1 == ChunkCoord(wz)
    ensures r.2 == LocalCoord(wx) && r.3 == LocalCoord(wz)
  {
    var cx := ChunkCoord(wx);
    var cz := ChunkCoord(wz);
    (cx, cz, wx - cx * CHUNK_SIZE, wz - cz * CHUNK_SIZE)
  }

  /** The writer returned by `makeBlockWriter`: the chunk being generated,
      the shared pending buffer and the optional world (`voxelWorld`). */
  datatype Writer = Writer(chunk: Chunk, pending: Pending, world: Option<World>)

  /** How the writer routes a write to world column (wx, wz). */
  datatype Route = Direct | Neighbour | Deferred

  function RouteOf(wr: Writer, wx: int, wz: int): (r: Route)
    ensures r == Direct <==> PosOf(wx, wz) == ChunkPos(wr.chunk.chunkX, wr.chunk.chunkZ)
    ensures r == Neighbour <==>
      (PosOf(wx, wz) != ChunkPos(wr.chunk.chunkX, wr.chunk.chunkZ) && wr.world.Some? && PosOf(wx, wz) in wr.world.value.chunks)
  {
    var (cx, cz, lx, lz) := WorldToLocal(wx, wz);
    if cx == wr.chunk.chunkX && cz == wr.chunk.chunkZ && 0 <= lx < CHUNK_SIZE && 0 <= lz < CHUNK_SIZE then Direct
    else if wr.world.Some? && GetChunk(wr.world.value, cx, cz).Some? && 0 <= lx < CHUNK_SIZE && 0 <= lz < CHUNK_SIZE then Neighbour
    else Deferred
  }

  /** The writer's `setBlock`. */
  function WriterSetBlock(wr: Writer, wx: int, wy: int, wz: int, id: Byte): (r: Writer)
    ensures !(Y_MIN <= wy <= Y_MAX) ==> r == wr
    ensures r.chunk.chunkX == wr.chunk.chunkX && r.chunk.chunkZ == wr.chunk.chunkZ
    ensures r.chunk.metadata == wr.chunk.metadata
    // 1) the chunk being generated
    ensures Y_MIN <= wy <= Y_MAX && RouteOf(wr, wx, wz) == Direct ==>
      && GetBlock(r.chunk, LocalCoord(wx), wy, LocalCoord(wz)) == id
      && r.pending == wr.pending && r.world == wr.world
    // 2) a loaded neighbour, written in place
    ensures Y_MIN <= wy <= Y_MAX && RouteOf(wr, wx, wz) == Neighbour ==>
      && r.world.Some? && GetBlockWorld(r.world.value, wx, wy, wz) == id
      && BlocksKeptExcept(wr.world.value, r.world.value, wx, wy, wz)
      && r.world.value.chunks.Keys == wr.world.value.chunks.Keys
      && r.chunk == wr.chunk && r.pending == wr.pending
    // 3) deferred to the target chunk's bucket
    ensures Y_MIN <= wy <= Y_MAX && RouteOf(wr, wx, wz) == Deferred ==>
      && r.pending == AddBlock(wr.pending, ChunkCoord(wx), ChunkCoord(wz), LocalCoord(wx), wy, LocalCoord(wz), id)
      && r.chunk == wr.chunk && r.world == wr.world
    // the generated chunk changes only at the written cell
    ensures forall x, y, z :: !(RouteOf(wr, wx, wz) == Direct && (x, y, z) == (LocalCoord(wx), wy, LocalCoord(wz))) ==>
      GetBlock(r.chunk, x, y, z) == GetBlock(wr.chunk, x, y, z)
    ensures wr.world.Some? <==> r.world.Some?
  {
    if wy < Y_MIN || wy > Y_MAX then wr
    else
      var (cx, cz, lx, lz) := WorldToLocal(wx, wz);
      match RouteOf(wr, wx, wz)
      case Direct => wr.(chunk := SetBlock(wr.chunk, lx, wy, lz, id))
      case Neighbour =>
        var v := wr.world.value;
        wr.(world := Some(StoreBlock(v, wx, wy, wz, id)))
      case Deferred => wr.(pending := AddBlock(wr.pending, cx, cz, lx, wy, lz, id))
  }

  /** The writer's `setMeta`: the same three-way routing into metadata. */
  function WriterSetMeta(wr: Writer, wx: int, wy: int, wz: int, val: Byte): (r: Writer)
    ensures !(Y_MIN <= wy <= Y_MAX) ==> r == wr
    ensures r.chunk.chunkX == wr.chunk.chunkX && r.chunk.chunkZ == wr.chunk.chunkZ
    ensures r.chunk.blocks == wr.chunk.blocks
    ensures Y_MIN <= wy <= Y_MAX && RouteOf(wr, wx, wz) == Direct ==>
      && GetMeta(r.chunk, LocalCoord(wx), wy, LocalCoord(wz)) == Some(val)
      && r.pending == wr.pending && r.world == wr.world
    ensures Y_MIN <= wy <= Y_MAX && RouteOf(wr, wx, wz) == Neighbour ==>
      && r.world.Some? && GetFluidLevel(r.world.value, wx, wy, wz) == Some(val)
      && MetaKeptExcept(wr.world.value, r.world.value, wx, wy, wz)
      && (forall x, y, z :: GetBlockWorld(r.world.value, x, y, z) == GetBlockWorld(wr.world.value, x, y, z))
      && r.chunk == wr.chunk && r.pending == wr.pending
    ensures Y_MIN <= wy <= Y_MAX && RouteOf(wr, wx, wz) == Deferred ==>
      && r.pending == AddMeta(wr.pending, ChunkCoord(wx), ChunkCoord(wz), LocalCoord(wx), wy, LocalCoord(wz), val)
      && r.chunk == wr.chunk && r.world == wr.world
    ensures wr.world.Some? <==> r.world.Some?
  {
    if wy < Y_MIN || wy > Y_MAX then wr
    else
      var (cx, cz, lx, lz) := WorldToLocal(wx, wz);
      match RouteOf(wr, wx, wz)
      case Direct => wr.(chunk := SetMeta(wr.chunk, lx, wy, lz, val))
      case Neighbour =>
        var v := wr.world.value;
        wr.(world := Some(StoreMeta(v, wx, wy, wz, val)))
      case Deferred => wr.(pending := AddMeta(wr.pending, cx, cz, lx, wy, lz, val))
  }

  /** A deferred write is not lost: once the target chunk is generated and
      its bucket flushed, the cell holds the id, provided no later write to
      the bucket hits the same cell. */
  lemma DeferredWriteLandsOnFlush(wr: Writer, wx: int, wy: int, wz: int, id: Byte, later: seq<BlockWrite>, c: Chunk)
    requires Y_MIN <= wy <= Y_MAX && RouteOf(wr, wx, wz) == Deferred
    requires ChunkPos(c.chunkX, c.chunkZ) == PosOf(wx, wz)
    requires LastBlockWrite(later, LocalCoord(wx), wy, LocalCoord(wz)).None?
    ensures var p := WriterSetBlock(wr, wx, wy, wz, id).pending;
      var k := PosOf(wx, wz);
      var p' := p[k := BucketOf(p, k).(blocks := BucketOf(p, k).blocks + later)];
      GetBlock(FlushForChunk(p', c).1, LocalCoord(wx), wy, LocalCoord(wz)) == id
  {
    var p := WriterSetBlock(wr, wx, wy, wz, id).pending;
    var k := PosOf(wx, wz);
    var ws := BucketOf(p, k).blocks + later;
    LastWriteSkipsLater(BucketOf(p, k).blocks, later, LocalCoord(wx), wy, LocalCoord(wz));
  }

  /** Appending writes that miss the cell does not change its last write. */
  lemma {:induction false} LastWriteSkipsLater(ws: seq<BlockWrite>, later: seq<BlockWrite>, x: int, y: int, z: int)
    requires LastBlockWrite(later, x, y, z).None?
    ensures LastBlockWrite(ws + later, x, y, z) == LastBlockWrite(ws, x, y, z)
    decreases |later|
  {
    if |later| > 0 {
      var all := ws + later;
      assert all[..|all| - 1] == ws + later[..|later| - 1];
      LastWriteSkipsLater(ws, later[..|later| - 1], x, y, z);
    } else {
      assert ws + later == ws;
    }
  }

  // ---------------------------------------------------------------------
  // Rotation and placement
  // ---------------------------------------------------------------------

  /** `rot2d`: a quarter-turn count taken as `rot & 3`, which for every
      integer is the non-negative remainder of rot by 4. */
  function Rot2d(lx: int, lz: int, rot: int): (r: (int, int))
    ensures rot % 4 == 0 ==> r == (lx, lz)
    ensures rot % 4 == 2 ==> r == (-lx, -lz)
  {
    var q := rot % 4;
    if q == 0 then (lx, lz)
    else if q == 1 then (-lz, lx)
    else if q == 2 then (-lx, -lz)
    else (lz, -lx)
  }

  /** A rotation keeps the squared distance from the anchor. */
  lemma Rot2dKeepsNorm(lx: int, lz: int, rot: int)
    ensures var r := Rot2d(lx, lz, rot); r.0 * r.0 + r.1 * r.1 == lx * lx + lz * lz
  {
    var q := rot % 4;
    if q == 1 || q == 3 {
      assert (-lz) * (-lz) == lz * lz && (-lx) * (-lx) == lx * lx;
    } else if q == 2 {
      assert (-lz) * (-lz) == lz * lz && (-lx) * (-lx) == lx * lx;
    }
  }

  /** Turning by a, then by b, is turning by (a + b) & 3. */
  lemma Rot2dCompose(lx: int, lz: int, a: int, b: int)
    ensures Rot2d(Rot2d(lx, lz, a).0, Rot2d(lx, lz, a).1, b) == Rot2d(lx, lz, (a + b) % 4)
  {
    assert (a + b) % 4 == (a % 4 + b % 4) % 4;
  }

  /** Four quarter-turns are the identity. */
  lemma Rot2dFourTurns(lx: int, lz: int)
    ensures var p1 := Rot2d(lx, lz, 1);
      var p2 := Rot2d(p1.0, p1.1, 1);
      var p3 := Rot2d(p2.0, p2.1, 1);
      Rot2d(p3.0, p3.1, 1) == (lx, lz)
  {
  }

  /** `worldAt`: the world cell of local (lx, ly, lz) of a structure anchored
      at (wx, wy, wz) with rotation rot. */
  function WorldAt(wx: int, wy: int, wz: int, lx: int, ly: int, lz: int, rot: int): (r: (int, int, int))
    ensures r.1 == wy + ly
  {
    var (dx, dz) := Rot2d(lx, lz, rot);
    (wx + dx, wy + ly, wz + dz)
  }

  /** Rotating a placed cell's offset back by the complementary turn
      recovers its local coordinates: distinct local cells land on distinct
      world cells. */
  lemma WorldAtInverse(wx: int, wy: int, wz: int, lx: int, ly: int, lz: int, rot: int)
    ensures var p := WorldAt(wx, wy, wz, lx, ly, lz, rot);
      Rot2d(p.0 - wx, p.2 - wz, 4 - rot % 4) == (lx, lz) && p.1 - wy == ly
  {
    Rot2dCompose(lx, lz, rot, 4 - rot % 4);
    assert (rot + (4 - rot % 4)) % 4 == 0;
  }

  // ---------------------------------------------------------------------
  // fillLocal
  // ---------------------------------------------------------------------

  /** One x-run of `fillLocal`'s innermost loop. */
  function Row(xLo: int, xHi: int, ly: int, lz: int): (r: seq<(int, int, int)>)
    ensures forall p :: p in r <==> xLo <= p.0 <= xHi && p.1 == ly && p.2 == lz
    decreases xHi - xLo
  {
    if xHi < xLo then [] else Row(xLo, xHi - 1, ly, lz) + [(xHi, ly, lz)]
  }

  /** One y-layer: z-runs in increasing z. */
  function Layer(xLo: int, xHi: int, ly: int, zLo: int, zHi: int): (r: seq<(int, int, int)>)
    ensures forall p :: p in r <==> xLo <= p.0 <= xHi && p.1 == ly && zLo <= p.2 <= zHi
    decreases zHi - zLo
  {
    if zHi < zLo then [] else Layer(xLo, xHi, ly, zLo, zHi - 1) + Row(xLo, xHi, ly, zHi)
  }

  /** The local cells of the box [xLo,xHi] x [yLo,yHi] x [zLo,zHi] in `fillLocal`'s
      loop order (y outermost, x innermost). */
  function Box(xLo: int, xHi: int, yLo: int, yHi: int, zLo: int, zHi: int): (r: seq<(int, int, int)>)
    ensures forall p :: p in r <==> xLo <= p.0 <= xHi && yLo <= p.1 <= yHi && zLo <= p.2 <= zHi
    decreases yHi - yLo
  {
    if yHi < yLo then [] else Box(xLo, xHi, yLo, yHi - 1, zLo, zHi) + Layer(xLo, xHi, yHi, zLo, zHi)
  }

  /** The world cells `fillLocal` writes, in order: the images of the local
      box spanned by the two corners, whatever their order. */
  function FillTargets(wx: int, wy: int, wz: int, rot: int, lx0: int, ly0: int, lz0: int, lx1: int, ly1: int, lz1: int): (r: seq<(int, int, int)>)
  {
    var box := Box(Min(lx0, lx1), Max(lx0, lx1), Min(ly0, ly1), Max(ly0, ly1), Min(lz0, lz1), Max(lz0, lz1));
    seq(|box|, i requires 0 <= i < |box| => WorldAt(wx, wy, wz, box[i].0, box[i].1, box[i].2, rot))
  }

  /** A local cell lies between two corners, in either order. */
  predicate Between(l: (int, int, int), lx0: int, ly0: int, lz0: int, lx1: int, ly1: int, lz1: int) {
    && Min(lx0, lx1) <= l.0 <= Max(lx0, lx1)
    && Min(ly0, ly1) <= l.1 <= Max(ly0, ly1)
    && Min(lz0, lz1) <= l.2 <= Max(lz0, lz1)
  }

  /** `fillLocal` writes exactly the images of the cells between the corners,
      and swapping the corners changes nothing. */
  lemma FillTargetsExact(wx: int, wy: int, wz: int, rot: int, lx0: int, ly0: int, lz0: int, lx1: int, ly1: int, lz1: int)
    ensures var t := FillTargets(wx, wy, wz, rot, lx0, ly0, lz0, lx1, ly1, lz1);
      && (forall l :: Between(l, lx0, ly0, lz0, lx1, ly1, lz1) ==> WorldAt(wx, wy, wz, l.0, l.1, l.2, rot) in t)
      && (forall p :: p in t ==> exists l :: Between(l, lx0, ly0, lz0, lx1, ly1, lz1) && p == WorldAt(wx, wy, wz, l.0, l.1, l.2, rot))
      && t == FillTargets(wx, wy, wz, rot, lx1, ly1, lz1, lx0, ly0, lz0)
  {
    var box := Box(Min(lx0, lx1), Max(lx0, lx1), Min(ly0, ly1), Max(ly0, ly1), Min(lz0, lz1), Max(lz0, lz1));
    var t := FillTargets(wx, wy, wz, rot, lx0, ly0, lz0, lx1, ly1, lz1);
    forall l | Between(l, lx0, ly0, lz0, lx1, ly1, lz1)
      ensures WorldAt(wx, wy, wz, l.0, l.1, l.2, rot) in t
    {
      assert l in box;
      var i :| 0 <= i < |box| && box[i] == l;
      assert t[i] == WorldAt(wx, wy, wz, l.0, l.1, l.2, rot);
    }
    forall p | p in t
      ensures exists l :: Between(l, lx0, ly0, lz0, lx1, ly1, lz1) && p == WorldAt(wx, wy, wz, l.0, l.1, l.2, rot)
    {
      var i :| 0 <= i < |t| && t[i] == p;
      assert box[i] in box;
      assert Between(box[i], lx0, ly0, lz0, lx1, ly1, lz1);
    }
  }

  /** World cell p is routed to the generated chunk and lands on its local
      cell (x, y, z). */
  predicate DirectHit(wr: Writer, p: (int, int, int), x: int, y: int, z: int) {
    RouteOf(wr, p.0, p.2) == Direct && (LocalCoord(p.0), p.1, LocalCoord(p.2)) == (x, y, z)
  }

  /** Some target of ps is routed to the generated chunk and lands on its
      local cell (x, y, z). */
  function HitBy(wr: Writer, ps: seq<(int, int, int)>, x: int, y: int, z: int): bool
    decreases |ps|
  {
    |ps| > 0 && (HitBy(wr, ps[..|ps| - 1], x, y, z) || DirectHit(wr, ps[|ps| - 1], x, y, z))
  }

  lemma {:induction false} HitByMeans(wr: Writer, ps: seq<(int, int, int)>, x: int, y: int, z: int)
    ensures HitBy(wr, ps, x, y, z) <==> exists i :: 0 <= i < |ps| && DirectHit(wr, ps[i], x, y, z)
    decreases |ps|
  {
    if |ps| > 0 {
      var front := ps[..|ps| - 1];
      HitByMeans(wr, front, x, y, z);
      if i :| 0 <= i < |front| && DirectHit(wr, front[i], x, y, z) {
        assert ps[i] == front[i];
      }
      if i :| 0 <= i < |ps| && DirectHit(wr, ps[i], x, y, z) {
        if i < |front| {
          assert ps[i] == front[i];
        }
      }
    }
  }

  /** The writer calls of a fill, in order. */
  function WriteAll(wr: Writer, ps: seq<(int, int, int)>, id: Byte): (r: Writer)
    ensures r.chunk.chunkX == wr.chunk.chunkX && r.chunk.chunkZ == wr.chunk.chunkZ
    // a cell of the generated chunk hit by some target ends up holding id
    ensures forall i :: 0 <= i < |ps| && Y_MIN <= ps[i].1 <= Y_MAX && RouteOf(wr, ps[i].0, ps[i].2) == Direct ==>
      GetBlock(r.chunk, LocalCoord(ps[i].0), ps[i].1, LocalCoord(ps[i].2)) == id
    // and a cell no target hits keeps its block
    ensures forall x, y, z :: !HitBy(wr, ps, x, y, z) ==> GetBlock(r.chunk, x, y, z) == GetBlock(wr.chunk, x, y, z)
    decreases |ps|
  {
    if |ps| == 0 then wr
    else
      var before := WriteAll(wr, ps[..|ps| - 1], id);
      var p := ps[|ps| - 1];
      RouteKept(wr, before, p.0, p.2);
      WriterSetBlock(before, p.0, p.1, p.2, id)
  }

  /** Routing to the generated chunk depends only on its position, which
      writes never change. */
  lemma RouteKept(a: Writer, b: Writer, wx: int, wz: int)
    requires a.chunk.chunkX == b.chunk.chunkX && a.chunk.chunkZ == b.chunk.chunkZ
    ensures RouteOf(a, wx, wz) == Direct <==> RouteOf(b, wx, wz) == Direct
  {
  }

  /** `fillLocal`: the generated chunk changes only at cells that are the
      image of some local cell between the corners. */
  function FillLocal(wr: Writer, wx: int, wy: int, wz: int, rot: int,
                     lx0: int, ly0: int, lz0: int, lx1: int, ly1: int, lz1: int, id: Byte): (r: Writer)
    ensures r.chunk.chunkX == wr.chunk.chunkX && r.chunk.chunkZ == wr.chunk.chunkZ
    ensures forall x, y, z ::
      (forall l :: Between(l, lx0, ly0, lz0, lx1, ly1, lz1) ==> !DirectHit(wr, WorldAt(wx, wy, wz, l.0, l.1, l.2, rot), x, y, z)) ==>
        GetBlock(r.chunk, x, y, z) == GetBlock(wr.chunk, x, y, z)
  {
    var t := FillTargets(wx, wy, wz, rot, lx0, ly0, lz0, lx1, ly1, lz1);
    FillTargetsExact(wx, wy, wz, rot, lx0, ly0, lz0, lx1, ly1, lz1);
    forall x, y, z | HitBy(wr, t, x, y, z)
      ensures exists l :: Between(l, lx0, ly0, lz0, lx1, ly1, lz1) && DirectHit(wr, WorldAt(wx, wy, wz, l.0, l.1, l.2, rot), x, y, z)
    {
      HitByMeans(wr, t, x, y, z);
      var i :| 0 <= i < |t| && DirectHit(wr, t[i], x, y, z);
      assert t[i] in t;
    }
    WriteAll(wr, t, id)
  }

  /** Every cell between the corners whose image falls in the generated
      chunk (within the world's height) holds id after `fillLocal`. */
  lemma FillLocalCovers(wr: Writer, wx: int, wy: int, wz: int, rot: int,
                        lx0: int, ly0: int, lz0: int, lx1: int, ly1: int, lz1: int, id: Byte, l: (int, int, int))
    requires Between(l, lx0, ly0, lz0, lx1, ly1, lz1)
    requires var p := WorldAt(wx, wy, wz, l.0, l.1, l.2, rot);
      Y_MIN <= p.1 <= Y_MAX && RouteOf(wr, p.0, p.2) == Direct
    ensures var p := WorldAt(wx, wy, wz, l.0, l.1, l.2, rot);
      GetBlock(FillLocal(wr, wx, wy, wz, rot, lx0, ly0, lz0, lx1, ly1, lz1, id).chunk, LocalCoord(p.0), p.1, LocalCoord(p.2)) == id
  {
    var p := WorldAt(wx, wy, wz, l.0, l.1, l.2, rot);
    var t := FillTargets(wx, wy, wz, rot, lx0, ly0, lz0, lx1, ly1, lz1);
    FillTargetsExact(wx, wy, wz, rot, lx0, ly0, lz0, lx1, ly1, lz1);
    var i :| 0 <= i < |t| && t[i] == p;
  }

  // ---------------------------------------------------------------------
  // bboxFromLocal
  // ---------------------------------------------------------------------

  datatype BBox = BBox(x0: int, x1: int, y0: int, y1: int, z0: int, z1: int)

  predicate Inside(b: BBox, p: (int, int, int)) {
    b.x0 <= p.0 <= b.x1 && b.y0 <= p.1 <= b.y1 && b.z0 <= p.2 <= b.z1
  }

  /** Box b lies within box c. */
  predicate Within(b: BBox, c: BBox) {
    c.x0 <= b.x0 && b.x1 <= c.x1 && c.y0 <= b.y0 && b.y1 <= c.y1 && c.z0 <= b.z0 && b.z1 <= c.z1
  }

  /** One step of the min/max loop. */
  function Extend(b: BBox, p: (int, int, int)): (r: BBox)
    ensures Inside(r, p)
    ensures Within(b, r)
  {
    BBox(Min(b.x0, p.0), Max(b.x1, p.0), Min(b.y0, p.1), Max(b.y1, p.1), Min(b.z0, p.2), Max(b.z1, p.2))
  }

  /** The min/max loop over the points ps, in order, starting from b. */
  function ExtendAll(b: BBox, ps: seq<(int, int, int)>): (r: BBox)
    ensures forall i :: 0 <= i < |ps| ==> Inside(r, ps[i])
    ensures Within(b, r)
    decreases |ps|
  {
    if |ps| == 0 then b else ExtendAll(Extend(b, ps[0]), ps[1..])
  }

  /** The loop computes the smallest box: any box holding b and every
      point holds the result. */
  lemma {:induction false} ExtendAllLeast(b: BBox, ps: seq<(int, int, int)>, c: BBox)
    requires Within(b, c)
    requires forall i :: 0 <= i < |ps| ==> Inside(c, ps[i])
    ensures Within(ExtendAll(b, ps), c)
    decreases |ps|
  {
    if |ps| > 0 {
      assert Inside(c, ps[0]);
      ExtendAllLeast(Extend(b, ps[0]), ps[1..], c);
    }
  }

  /** The eight corners of a w x h x d local box. */
  function Corners(w: int, h: int, d: int): seq<(int, int, int)> {
    [(0, 0, 0), (w - 1, 0, 0), (0, 0, d - 1), (w - 1, 0, d - 1),
     (0, h - 1, 0), (w - 1, h - 1, 0), (0, h - 1, d - 1), (w - 1, h - 1, d - 1)]
  }

  /** The world cells the eight corners land on. */
  function CornerImages(wx: int, wy: int, wz: int, rot: int, w: int, h: int, d: int): (ps: seq<(int, int, int)>)
    ensures |ps| == 8
    // the first four corners lie on the bottom layer, the last four on the top
    ensures forall i :: 0 <= i < 4 ==> ps[i].1 == wy
    ensures forall i :: 4 <= i < 8 ==> ps[i].1 == wy + h - 1
  {
    var cs := Corners(w, h, d);
    seq(8, i requires 0 <= i < 8 => WorldAt(wx, wy, wz, cs[i].0, cs[i].1, cs[i].2, rot))
  }

  /** `bboxFromLocal`: the min/max loop over the eight corner images. The
      source starts from infinite bounds; starting from the first image's
      point box gives the same result once that image is folded in. */
  function BboxFromLocal(wx: int, wy: int, wz: int, rot: int, w: int, h: int, d: int): (r: BBox)
    ensures r.x0 <= r.x1 && r.y0 <= r.y1 && r.z0 <= r.z1
    ensures forall i :: 0 <= i < 8 ==> Inside(r, CornerImages(wx, wy, wz, rot, w, h, d)[i])
    ensures forall c :: (forall i :: 0 <= i < 8 ==> Inside(c, CornerImages(wx, wy, wz, rot, w, h, d)[i])) ==> Within(r, c)
  {
    var ps := CornerImages(wx, wy, wz, rot, w, h, d);
    var b0 := BBox(ps[0].0, ps[0].0, ps[0].1, ps[0].1, ps[0].2, ps[0].2);
    var r := ExtendAll(b0, ps);
    forall c | forall i :: 0 <= i < 8 ==> Inside(c, ps[i])
      ensures Within(r, c)
    {
      assert Inside(c, ps[0]);
      ExtendAllLeast(b0, ps, c);
    }
    r
  }

  /** The box spans exactly the structure's height: y0 = wy, y1 = wy + h - 1. */
  lemma BboxHeight(wx: int, wy: int, wz: int, rot: int, w: int, h: int, d: int)
    requires h >= 1
    ensures var b := BboxFromLocal(wx, wy, wz, rot, w, h, d); b.y0 == wy && b.y1 == wy + h - 1
  {
    var ps := CornerImages(wx, wy, wz, rot, w, h, d);
    var b := BboxFromLocal(wx, wy, wz, rot, w, h, d);
    var c := BBox(b.x0, b.x1, wy, wy + h - 1, b.z0, b.z1);
    forall i | 0 <= i < 8
      ensures Inside(c, ps[i])
    {
      assert Inside(b, ps[i]);
    }
    assert Within(b, c);
    assert Inside(b, ps[0]) && Inside(b, ps[4]);
  }

  /** Every cell of a w x h x d structure (w, h, d >= 1) lands inside its
      bounding box, for every rotation. */
  lemma BboxContains(wx: int, wy: int, wz: int, rot: int, w: int, h: int, d: int, lx: int, ly: int, lz: int)
    requires w >= 1 && h >= 1 && d >= 1
    requires 0 <= lx < w && 0 <= ly < h && 0 <= lz < d
    ensures Inside(BboxFromLocal(wx, wy, wz, rot, w, h, d), WorldAt(wx, wy, wz, lx, ly, lz, rot))
  {
    var b := BboxFromLocal(wx, wy, wz, rot, w, h, d);
    var ps := CornerImages(wx, wy, wz, rot, w, h, d);
    // the corners at local (0, 0, 0), (w - 1, 0, 0), (0, 0, d - 1) and
    // (w - 1, h - 1, d - 1) bound x and z under every rotation
    var o, a, c, e := ps[0], ps[1], ps[2], ps[7];
    assert Inside(b, o) && Inside(b, a) && Inside(b, c) && Inside(b, e);
    var p := WorldAt(wx, wy, wz, lx, ly, lz, rot);
    var q := rot % 4;
    if q == 0 {
      assert p == (wx + lx, wy + ly, wz + lz) && e == (wx + w - 1, wy + h - 1, wz + d - 1);
    } else if q == 1 {
      assert p == (wx - lz, wy + ly, wz + lx) && c.0 == wx - (d - 1) && a.2 == wz + w - 1;
    } else if q == 2 {
      assert p == (wx - lx, wy + ly, wz - lz) && e == (wx - (w - 1), wy + h - 1, wz - (d - 1));
    } else {
      assert p == (wx + lz, wy + ly, wz - lx) && c.0 == wx + d - 1 && a.2 == wz - (w - 1);
    }
  }

}

=== FILE: terrain.dfy ===
/** Generation helpers of terrain_generation.js: `clamp`, `isBeach`, and the
    village layout pieces of `placeVillages` (Bresenham road cells, Prim's
    minimum spanning tree over the plots, blue-noise plot scattering and the
    building overlap filter). */
module Terrain {
  import opened Options
  import Structures
  import opened IntMath

  const SEA_LEVEL: int := 62
  const BEACH_BAND: int := 2
  const PLOT_MINDIST: int := 20

  /** `clamp`. */
  function Clamp(v: int, lo: int, hi: int): (r: int)
    ensures lo <= hi ==> lo <= r <= hi
    ensures lo <= v <= hi ==> r == v
    ensures r == v || r == lo || r == hi
    // below the range gives lo; above it (and not below) gives hi
    ensures v < lo ==> r == lo
    ensures lo <= v && hi < v ==> r == hi
  {
    if v < lo then lo else if v > hi then hi else v
  }

  /** Clamping twice is clamping once. */
  lemma ClampIdempotent(v: int, lo: int, hi: int)
    requires lo <= hi
    ensures Clamp(Clamp(v, lo, hi), lo, hi) == Clamp(v, lo, hi)
  {
  }

  /** `isBeach`: the surface lies within the band around sea level. */
  predicate IsBeach(yTop: int) {
    yTop >= SEA_LEVEL - BEACH_BAND && yTop <= SEA_LEVEL + BEACH_BAND
  }

  lemma IsBeachRange(yTop: int)
    ensures IsBeach(yTop) <==> 60 <= yTop <= 64
  {
  }

  // ---------------------------------------------------------------------
  // bresenhamXZ
  // ---------------------------------------------------------------------

  /** Consecutive cells touch (8-neighbourhood) and each coordinate moves
      only towards the target. */
  predicate StepsTowards(pts: seq<(int, int)>, sx: int, sz: int) {
    forall i :: 0 <= i < |pts| - 1 ==>
      && (pts[i + 1].0 == pts[i].0 || pts[i + 1].0 == pts[i].0 + sx)
      && (pts[i + 1].1 == pts[i].1 || pts[i + 1].1 == pts[i].1 + sz)
      && pts[i + 1] != pts[i]
  }

  lemma StepsTowardsSnoc(pts: seq<(int, int)>, p: (int, int), sx: int, sz: int)
    requires |pts| >= 1 && StepsTowards(pts, sx, sz)
    requires p.0 == pts[|pts| - 1].0 || p.0 == pts[|pts| - 1].0 + sx
    requires p.1 == pts[|pts| - 1].1 || p.1 == pts[|pts| - 1].1 + sz
    requires p != pts[|pts| - 1]
    ensures StepsTowards(pts + [p], sx, sz)
  {
    var q := pts + [p];
    forall i | 0 <= i < |q| - 1
      ensures (q[i + 1].0 == q[i].0 || q[i + 1].0 == q[i].0 + sx) && (q[i + 1].1 == q[i].1 || q[i + 1].1 == q[i].1 + sz) && q[i + 1] != q[i]
    {
      if i < |pts| - 1 {
        assert q[i] == pts[i] && q[i + 1] == pts[i + 1];
      }
    }
  }

  /** The error term of `bresenhamXZ` after X steps along x and Z steps
      along z of a segment spanning dx by dz cells. */
  ghost predicate ErrorTerm(err: int, dx: int, dz: int, X: int, Z: int) {
    err == (Z + 1) * dx - (X + 1) * dz
  }

  /** Appending a step to a path that has not yet reached `t` keeps it a
      path from `a` whose earlier cells all differ from `t`. */
  lemma PathSnoc(pts: seq<(int, int)>, p: (int, int), sx: int, sz: int, a: (int, int), t: (int, int))
    requires |pts| >= 1 && pts[0] == a && StepsTowards(pts, sx, sz)
    requires p.0 == pts[|pts| - 1].0 || p.0 == pts[|pts| - 1].0 + sx
    requires p.1 == pts[|pts| - 1].1 || p.1 == pts[|pts| - 1].1 + sz
    requires p != pts[|pts| - 1]
    requires forall i :: 0 <= i < |pts| ==> pts[i] != t
    ensures var q := pts + [p]; |q| == |pts| + 1 && q[0] == a && q[|q| - 1] == p && StepsTowards(q, sx, sz)
    ensures forall i :: 0 <= i < |pts + [p]| - 1 ==> (pts + [p])[i] != t
  {
    StepsTowardsSnoc(pts, p, sx, sz);
    var q := pts + [p];
    assert forall i :: 0 <= i < |q| - 1 ==> q[i] == pts[i];
  }

  /** One step of the Bresenham loop: whether x and z advance, and the new
      error term. A finished axis takes no further step, an unfinished
      segment always advances, and the error term stays in step. */
  function BresenhamStep(err: int, dx: int, dz: int, ghost X: int, ghost Z: int): (r: (bool, bool, int))
    requires 0 <= X <= dx && 0 <= Z <= dz && !(X == dx && Z == dz)
    requires ErrorTerm(err, dx, dz, X, Z)
    ensures r.0 || r.1
    ensures r.0 ==> X < dx
    ensures r.1 ==> Z < dz
    ensures ErrorTerm(r.2, dx, dz, if r.0 then X + 1 else X, if r.1 then Z + 1 else Z)
  {
    var e2 := 2 * err;
    BresenhamStepFacts(dx, dz, X, Z);
    var stepX := e2 > -dz;
    var stepZ := e2 < dx;
    (stepX, stepZ, err - (if stepX then dz else 0) + (if stepZ then dx else 0))
  }

  lemma BresenhamStepFacts(dx: int, dz: int, X: int, Z: int)
    requires 0 <= X <= dx && 0 <= Z <= dz && !(X == dx && Z == dz)
    ensures X == dx ==> (Z + 1) * dx - (X + 1) * dz <= -dz
    ensures Z == dz ==> 2 * ((Z + 1) * dx - (X + 1) * dz) >= dx
    ensures (X + 2) * dz == (X + 1) * dz + dz && (Z + 2) * dx == (Z + 1) * dx + dx
  {
    if X == dx {
      MulLe(Z + 1, dz, dx);
      assert (dx + 1) * dz == dx * dz + dz;
    }
    if Z == dz {
      MulLe(X + 1, dx, dz);
      assert (dz + 1) * dx == dx * dz + dx;
    }
  }

  lemma MulLe(a: int, b: int, c: int)
    requires a <= b && c >= 0
    ensures a * c <= b * c
  {
  }

  /** `bresenhamXZ`: the grid cells of the segment from (ax, az) to (bx, bz). */
  method BresenhamXZ(ax: int, az: int, bx: int, bz: int) returns (pts: seq<(int, int)>)
    ensures |pts| >= 1 && pts[0] == (ax, az) && pts[|pts| - 1] == (bx, bz)
    ensures StepsTowards(pts, if ax < bx then 1 else -1, if az < bz then 1 else -1)
    ensures |pts| <= Abs(bx - ax) + Abs(bz - az) + 1
    ensures forall i :: 0 <= i < |pts| - 1 ==> pts[i] != (bx, bz)
  {
    var x0, z0 := ax, az;
    var dx: int, dz: int := Abs(bx - ax), Abs(bz - az);
    var sx := if ax < bx then 1 else -1;
    var sz := if az < bz then 1 else -1;
    var err := dx - dz;
    // X and Z count the steps taken on each axis
    ghost var X, Z := 0, 0;
    pts := [(x0, z0)];
    while !(x0 == bx && z0 == bz)
      invariant 0 <= X <= dx && 0 <= Z <= dz
      invariant x0 == (if ax < bx then ax + X else ax - X)
      invariant z0 == (if az < bz then az + Z else az - Z)
      invariant ErrorTerm(err, dx, dz, X, Z)
      invariant |pts| >= 1 && pts[0] == (ax, az) && pts[|pts| - 1] == (x0, z0)
      invariant StepsTowards(pts, sx, sz)
      invariant |pts| <= X + Z + 1
      invariant forall i :: 0 <= i < |pts| - 1 ==> pts[i] != (bx, bz)
      decreases (dx - X) + (dz - Z)
    {
      var step := BresenhamStep(err, dx, dz, X, Z);
      err := step.2;
      if step.0 {
        x0 := x0 + sx;
        X := X + 1;
      }
      if step.1 {
        z0 := z0 + sz;
        Z := Z + 1;
      }
      PathSnoc(pts, (x0, z0), sx, sz, (ax, az), (bx, bz));
      pts := pts + [(x0, z0)];
    }
  }

  // ---------------------------------------------------------------------
  // buildMST
  // ---------------------------------------------------------------------

  /** Squared planar distance. */
  function Dist2(a: (int, int), b: (int, int)): nat {
    (a.0 - b.0) * (a.0 - b.0) + (a.1 - b.1) * (a.1 - b.1)
  }

  /** A parent array is a tree hanging from point 0 when every other point's
      parent was selected strictly earlier. */
  predicate RankedTree(parent: seq<int>, rank: seq<nat>) {
    && |parent| == |rank| && |rank| > 0
    && rank[0] == 0
    && forall v :: 1 <= v < |parent| ==> 0 <= parent[v] < |parent| && rank[parent[v]] < rank[v]
  }

  /** Point v reaches point 0 by following parents. */
  predicate Reaches(parent: seq<int>, v: nat, steps: nat)
    requires forall u :: 1 <= u < |parent| ==> 0 <= parent[u] < |parent|
    requires v < |parent|
    decreases steps
  {
    v == 0 || (steps > 0 && Reaches(parent, parent[v], steps - 1))
  }

  /** The edges span all points: from every point the parent chain ends at 0. */
  lemma {:induction false} RankedTreeSpans(parent: seq<int>, rank: seq<nat>, v: nat)
    requires RankedTree(parent, rank) && v < |parent|
    ensures Reaches(parent, v, rank[v])
    decreases rank[v]
  {
    if v != 0 {
      RankedTreeSpans(parent, rank, parent[v]);
      ReachesMono(parent, parent[v], rank[parent[v]], rank[v] - 1);
    }
  }

  lemma {:induction false} ReachesMono(parent: seq<int>, v: nat, s: nat, t: nat)
    requires forall u :: 1 <= u < |parent| ==> 0 <= parent[u] < |parent|
    requires v < |parent| && s <= t && Reaches(parent, v, s)
    ensures Reaches(parent, v, t)
    decreases s
  {
    if v != 0 {
      ReachesMono(parent, parent[v], s - 1, t - 1);
    }
  }

  /** `buildMST` (Prim): the edge list of the tree, one edge
      (points[v], points[parent[v]]) per point v >= 1, in index order. The
      parent array and the selection rank of each point are returned with
      it. */
  method BuildMST(points: seq<(int, int)>) returns (edges: seq<((int, int), (int, int))>, parent: seq<int>, rank: seq<nat>)
    ensures |points| == 0 ==> edges == []
    ensures |points| > 0 ==>
      && RankedTree(parent, rank) && |parent| == |points|
      && |edges| == |points| - 1
      && forall v :: 1 <= v < |points| ==> edges[v - 1] == (points[v], points[parent[v]])
  {
    var n := |points|;
    edges := [];
    parent := seq(n, _ => -1);
    rank := seq(n, _ => n);
    if n == 0 {
      return;
    }
    var used := seq(n, _ => false);
    var finite := seq(n, i => i == 0);   // dist[i] < Infinity
    var dist := seq(n, _ => 0);
    var it := 0;
    while it < n
      invariant 0 <= it <= n
      invariant |used| == n && |finite| == n && |dist| == n && |parent| == n && |rank| == n
      invariant finite[0] && parent[0] == -1
      invariant forall v :: 0 <= v < n ==> (used[v] <==> rank[v] < it)
      invariant forall v :: 0 <= v < n ==> rank[v] <= n
      invariant forall v :: 0 <= v < n && !used[v] ==> rank[v] == n
      invariant it > 0 ==> used[0] && rank[0] == 0
      invariant it == 0 ==> forall v :: 0 <= v < n ==> !used[v] && (finite[v] <==> v == 0)
      invariant it > 0 ==> forall v :: 0 <= v < n ==> finite[v]
      invariant forall v :: 1 <= v < n && finite[v] ==> parent[v] != -1
      invariant forall v :: 0 <= v < n && parent[v] != -1 ==>
        0 <= parent[v] < n && used[parent[v]] && rank[parent[v]] < rank[v]
    {
      // the unused point of least finite distance (the first on ties)
      var u := -1;
      var i := 0;
      while i < n
        invariant 0 <= i <= n
        invariant u == -1 ==> forall j :: 0 <= j < i ==> used[j] || !finite[j]
        invariant u != -1 ==> 0 <= u < i && !used[u] && finite[u]
      {
        if !used[i] && finite[i] && (u == -1 || dist[i] < dist[u]) {
          u := i;
        }
        i := i + 1;
      }
      if u == -1 {
        break;
      }
      used := used[u := true];
      rank := rank[u := it];
      var v := 0;
      while v < n
        invariant 0 <= v <= n
        invariant |used| == n && |finite| == n && |dist| == n && |parent| == n && |rank| == n
        invariant finite[0] && parent[0] == -1
        invariant forall j :: 0 <= j < n ==> (used[j] <==> rank[j] < it + 1)
        invariant forall j :: 0 <= j < n ==> rank[j] <= n
        invariant forall j :: 0 <= j < n && !used[j] ==> rank[j] == n
        invariant used[0] && rank[0] == 0
        invariant forall j :: 0 <= j < v ==> finite[j]
        invariant it > 0 ==> forall j :: 0 <= j < n ==> finite[j]
        invariant forall j :: 1 <= j < n && finite[j] ==> parent[j] != -1
        invariant forall j :: 0 <= j < n && parent[j] != -1 ==>
          0 <= parent[j] < n && used[parent[j]] && rank[parent[j]] < rank[j]
      {
        if !used[v] {
          var d2 := Dist2(points[u], points[v]);
          if !finite[v] || d2 < dist[v] {
            dist := dist[v := d2];
            finite := finite[v := true];
            parent := parent[v := u];
          }
        }
        v := v + 1;
      }
      it := it + 1;
    }
    var w := 1;
    while w < n
      invariant 1 <= w <= n
      invariant |edges| == w - 1
      invariant forall v :: 1 <= v < w ==> edges[v - 1] == (points[v], points[parent[v]])
    {
      if parent[w] != -1 {
        edges := edges + [(points[w], points[parent[w]])];
      }
      w := w + 1;
    }
  }

  // ---------------------------------------------------------------------
  // scatterPlots
  // ---------------------------------------------------------------------

  /** Every two plots keep at least minDist apart (squared distances). */
  predicate WellSpaced(pts: seq<(int, int)>, minDist: int) {
    forall i, j :: 0 <= i < j < |pts| ==> Dist2(pts[i], pts[j]) >= minDist * minDist
  }

  /** Plot k is one of the first `tries` candidates drawn for it. */
  predicate Drawn(p: (int, int), candidate: (nat, nat) -> (int, int), k: nat, tries: nat) {
    exists t: nat :: 1 <= t <= tries && p == candidate(k, t)
  }

  /** One of the first k plots of ps lies closer than minDist to p: the
      candidate is rejected. */
  predicate TooClose(ps: seq<(int, int)>, k: nat, p: (int, int), minDist: int)
    requires k <= |ps|
    decreases k
  {
    k > 0 && (TooClose(ps, k - 1, p, minDist) || Dist2(ps[k - 1], p) < minDist * minDist)
  }

  /** TooClose holds exactly when one of the first k plots is closer than minDist. */
  lemma {:induction false} TooCloseMeans(ps: seq<(int, int)>, k: nat, p: (int, int), minDist: int)
    requires k <= |ps|
    ensures TooClose(ps, k, p, minDist) <==> exists j :: 0 <= j < k && Dist2(ps[j], p) < minDist * minDist
    decreases k
  {
    if k > 0 {
      TooCloseMeans(ps, k - 1, p, minDist);
    }
  }

  /** TooClose over the first k plots reads only those plots. */
  lemma {:induction false} TooCloseExtend(ps: seq<(int, int)>, q: (int, int), k: nat, p: (int, int), minDist: int)
    requires k <= |ps|
    ensures TooClose(ps + [q], k, p, minDist) == TooClose(ps, k, p, minDist)
    decreases k
  {
    if k > 0 {
      TooCloseExtend(ps, q, k - 1, p, minDist);
      assert (ps + [q])[k - 1] == ps[k - 1];
    }
  }

  /** The try that produced the plot before plot k (0 before the first). */
  function Before(tryOf: seq<nat>, k: nat): nat
    requires k <= |tryOf|
  {
    if k == 0 then 0 else tryOf[k - 1]
  }

  /** The acceptance rule of the loop so far: plot k came from try tryOf[k]
      of index k, and every try for index k before it, and every try for
      the next index up to `tries`, was too close to a plot already
      accepted. */
  ghost predicate Scattered(pts: seq<(int, int)>, tryOf: seq<nat>, tries: nat, minDist: int, candidate: (nat, nat) -> (int, int)) {
    && |tryOf| == |pts|
    && (forall k :: 0 <= k < |pts| ==> pts[k] == candidate(k, tryOf[k]) && 0 < tryOf[k] <= tries)
    && (forall a, b :: 0 <= a < b < |pts| ==> tryOf[a] < tryOf[b])
    && (forall k, t {:trigger TooClose(pts, k, candidate(k, t), minDist)} ::
          0 <= k < |pts| && Before(tryOf, k) < t < tryOf[k] ==> TooClose(pts, k, candidate(k, t), minDist))
    && (forall t :: Before(tryOf, |pts|) < t <= tries ==> TooClose(pts, |pts|, candidate(|pts|, t), minDist))
  }

  /** A rejected try extends the run of rejections for the next index. */
  lemma ScatteredReject(pts: seq<(int, int)>, tryOf: seq<nat>, tries: nat, minDist: int, candidate: (nat, nat) -> (int, int))
    requires Scattered(pts, tryOf, tries, minDist, candidate)
    requires TooClose(pts, |pts|, candidate(|pts|, tries + 1), minDist)
    ensures Scattered(pts, tryOf, tries + 1, minDist, candidate)
  {
  }

  /** An accepted try closes the run of rejections for its index. */
  lemma ScatteredAccept(pts: seq<(int, int)>, tryOf: seq<nat>, tries: nat, minDist: int, candidate: (nat, nat) -> (int, int))
    requires Scattered(pts, tryOf, tries, minDist, candidate)
    ensures Scattered(pts + [candidate(|pts|, tries + 1)], tryOf + [tries + 1], tries + 1, minDist, candidate)
  {
    var q := candidate(|pts|, tries + 1);
    var ps := pts + [q];
    var ts: seq<nat> := tryOf + [tries + 1];
    forall k | 0 <= k < |ps|
      ensures ps[k] == candidate(k, ts[k]) && 0 < ts[k] <= tries + 1
    {
      if k < |pts| {
        assert ps[k] == pts[k] && ts[k] == tryOf[k];
      }
    }
    forall k, t | 0 <= k < |ps| && Before(ts, k) < t < ts[k]
      ensures TooClose(ps, k, candidate(k, t), minDist)
    {
      TooCloseExtend(pts, q, k, candidate(k, t), minDist);
      if k < |pts| {
        assert ts[k] == tryOf[k] && Before(ts, k) == Before(tryOf, k);
      }
    }
    assert Before(ts, |ps|) == tries + 1;
    assert Scattered(ps, ts, tries + 1, minDist, candidate);
  }

  /** The distance test of `scatterPlots`: p is accepted exactly when no
      plot of ps lies closer than minDist; the scan stops at the first
      plot that is too close. */
  method FarFromAll(ps: seq<(int, int)>, p: (int, int), minDist: int) returns (ok: bool)
    ensures ok <==> !TooClose(ps, |ps|, p, minDist)
    ensures ok <==> forall k :: 0 <= k < |ps| ==> Dist2(ps[k], p) >= minDist * minDist
  {
    ok := true;
    var j := 0;
    while j < |ps|
      invariant 0 <= j <= |ps| && ok
      invariant forall k :: 0 <= k < j ==> Dist2(ps[k], p) >= minDist * minDist
    {
      if Dist2(ps[j], p) < minDist * minDist {
        ok := false;
        break;
      }
      j := j + 1;
    }
    TooCloseMeans(ps, |ps|, p, minDist);
  }

  /** `scatterPlots`: candidate number `tries` for plot i comes from
      `candidate(i, tries)` (the source derives it from its coordinate hash,
      a radius and an angle); a candidate is accepted exactly when it lies
      at least minDist from every plot accepted before it. */
  method ScatterPlots(count: int, minDist: int, candidate: (nat, nat) -> (int, int)) returns (pts: seq<(int, int)>, tries: nat, ghost tryOf: seq<nat>)
    ensures WellSpaced(pts, minDist)
    ensures |pts| <= if count < 0 then 0 else count
    ensures tries <= if count < 0 then 0 else count * 60
    ensures |pts| < count ==> tries == count * 60
    ensures forall k: nat :: k < |pts| ==> Drawn(pts[k], candidate, k, tries)
    // plot k is try tryOf[k]; every earlier try for it, and every later try
    // for the next plot, was rejected for lying too close
    ensures Scattered(pts, tryOf, tries, minDist, candidate)
  {
    pts := [];
    tries := 0;
    tryOf := [];
    var i := 0;
    while i < count && tries < count * 60
      invariant i == |pts| && WellSpaced(pts, minDist)
      invariant i <= if count < 0 then 0 else count
      invariant tries <= if count < 0 then 0 else count * 60
      invariant Scattered(pts, tryOf, tries, minDist, candidate)
      decreases count * 60 - tries
    {
      var p := candidate(i, tries + 1);
      var ok := FarFromAll(pts, p, minDist);
      if ok {
        ScatteredAccept(pts, tryOf, tries, minDist, candidate);
        pts := pts + [p];
        tryOf := tryOf + [tries + 1];
        i := i + 1;
      } else {
        ScatteredReject(pts, tryOf, tries, minDist, candidate);
      }
      tries := tries + 1;
    }
    forall k: nat | k < |pts|
      ensures Drawn(pts[k], candidate, k, tries)
    {
      assert 1 <= tryOf[k] <= tries && pts[k] == candidate(k, tryOf[k]);
    }
  }

  // ---------------------------------------------------------------------
  // building overlap filter
  // ---------------------------------------------------------------------

  /** `bboxCollides`: the footprints overlap on both horizontal axes. */
  predicate BboxCollides(a: Structures.BBox, b: Structures.BBox) {
    !(a.x1 < b.x0 || b.x1 < a.x0 || a.z1 < b.z0 || b.z1 < a.z0)
  }

  lemma BboxCollidesSymmetric(a: Structures.BBox, b: Structures.BBox)
    ensures BboxCollides(a, b) <==> BboxCollides(b, a)
  {
  }

  /** The footprint of a box covers column (x, z). */
  predicate Covers(a: Structures.BBox, x: int, z: int) {
    a.x0 <= x <= a.x1 && a.z0 <= z <= a.z1
  }

  /** For boxes with ordered bounds, colliding means sharing a column. */
  lemma BboxCollidesMeansSharedColumn(a: Structures.BBox, b: Structures.BBox)
    requires a.x0 <= a.x1 && a.z0 <= a.z1 && b.x0 <= b.x1 && b.z0 <= b.z1
    ensures BboxCollides(a, b) <==> exists x, z :: Covers(a, x, z) && Covers(b, x, z)
  {
    if BboxCollides(a, b) {
      var x := if a.x0 < b.x0 then b.x0 else a.x0;
      var z := if a.z0 < b.z0 then b.z0 else a.z0;
      assert Covers(a, x, z) && Covers(b, x, z);
    }
  }

  /** One point of interest: its surface height and the bounding box the
      chosen structure template returned (None when it returned none). */
  datatype Site = Site(topY: int, bbox: Option<Structures.BBox>)

  predicate NoCollisions(placed: seq<Structures.BBox>) {
    forall i, j :: 0 <= i < j < |placed| ==> !BboxCollides(placed[i], placed[j])
  }

  /** The result of the building loop: which sites were stamped (their
      blocks written) and which boxes were kept in `placed`. */
  datatype Village = Village(stamped: seq<nat>, placed: seq<Structures.BBox>)

  /** The building loop of `placeVillages` from site k on, with `placed`
      the boxes accepted so far. Underwater sites are skipped; every other
      site is stamped before the overlap check, and its box is kept only if
      it overlaps no kept box. */
  function PlaceBuildings(sites: seq<Site>, k: nat, placed: seq<Structures.BBox>): (r: Village)
    requires k <= |sites|
    requires NoCollisions(placed)
    ensures NoCollisions(r.placed)
    ensures |placed| <= |r.placed| && r.placed[..|placed|] == placed
    ensures forall i :: i in r.stamped <==> k <= i < |sites| && sites[i].topY > SEA_LEVEL
    ensures forall b :: b in r.placed[|placed|..] ==> exists i :: k <= i < |sites| && sites[i].topY > SEA_LEVEL && sites[i].bbox == Some(b)
    // a stamped box that was not kept overlaps a kept one
    ensures forall i :: k <= i < |sites| && sites[i].topY > SEA_LEVEL && sites[i].bbox.Some? && sites[i].bbox.value !in r.placed ==>
      exists b :: b in r.placed && BboxCollides(b, sites[i].bbox.value)
    decreases |sites| - k
  {
    if k == |sites| then Village([], placed)
    else
      var s := sites[k];
      if s.topY <= SEA_LEVEL then PlaceBuildings(sites, k + 1, placed)
      else
        if s.bbox.None? || (exists b :: b in placed && BboxCollides(b, s.bbox.value)) then
          var rest := PlaceBuildings(sites, k + 1, placed);
          assert forall b :: b in placed ==> b in rest.placed by {
            forall b | b in placed ensures b in rest.placed {
              var j :| 0 <= j < |placed| && placed[j] == b;
              assert rest.placed[j] == b;
            }
          }
          Village([k] + rest.stamped, rest.placed)
        else
          var rest := PlaceBuildings(sites, k + 1, placed + [s.bbox.value]);
          assert rest.placed[|placed|] == s.bbox.value;
          Village([k] + rest.stamped, rest.placed)
  }
}

=== FILE: vegetation.dfy ===
/** Per-chunk vegetation of vegetations.js: tall grass and flowers on gentle
    grassy ground, mushrooms in covered pockets below the surface. The hash
    `rand01` is a parameter: a draw is named by its purpose (the source picks
    the purpose by xor-ing the seed with a constant) and a position. */
module Vegetation {
  import opened Blocks
  import opened Options
  import opened Chunk
  import opened IntMath

  /** The five independent random streams of the pass. */
  datatype Stream = ClusterCell | PlantChoice | FlowerKind | MushroomColumn | MushroomKind

  /** `rand01(x, y, z, seed ^ salt)`, one salt per stream. */
  type Draw = (Stream, int, int, int) -> real

  // ---------------------------------------------------------------------
  // findTopY
  // ---------------------------------------------------------------------

  /** The highest non-AIR y of column (x, z) at or below y; None (the
      source's -Infinity) when the column is AIR down to Y_MIN. */
  function TopFrom(c: Chunk, x: int, y: int, z: int): (r: Option<int>)
    requires y <= Y_MAX
    ensures r.Some? ==> Y_MIN <= r.value <= y && GetBlock(c, x, r.value, z) != AIR
    ensures r.Some? ==> forall y' :: r.value < y' <= y ==> GetBlock(c, x, y', z) == AIR
    ensures r.None? ==> forall y' :: Y_MIN <= y' <= y ==> GetBlock(c, x, y', z) == AIR
    decreases y - Y_MIN
  {
    if y < Y_MIN then None
    else if GetBlock(c, x, y, z) != AIR then Some(y)
    else TopFrom(c, x, y - 1, z)
  }

  /** `findTopY`: the topmost non-AIR y of the column. */
  function FindTopY(c: Chunk, x: int, z: int): (r: Option<int>)
    ensures r.Some? ==> Y_MIN <= r.value <= Y_MAX && GetBlock(c, x, r.value, z) != AIR
    ensures r.Some? ==> forall y :: r.value < y <= Y_MAX ==> GetBlock(c, x, y, z) == AIR
    ensures r.None? ==> forall y :: Y_MIN <= y <= Y_MAX ==> GetBlock(c, x, y, z) == AIR
  {
    TopFrom(c, x, Y_MAX, z)
  }

  /** Two chunks agree on every cell of column (x, z). */
  ghost predicate SameColumn(c: Chunk, c': Chunk, x: int, z: int) {
    forall y :: GetBlock(c, x, y, z) == GetBlock(c', x, y, z)
  }

  lemma {:induction false} TopFromColumnLocal(c: Chunk, c': Chunk, x: int, y: int, z: int)
    requires y <= Y_MAX && SameColumn(c, c', x, z)
    ensures TopFrom(c, x, y, z) == TopFrom(c', x, y, z)
    decreases y - Y_MIN
  {
    if y >= Y_MIN && GetBlock(c, x, y, z) == AIR {
      TopFromColumnLocal(c, c', x, y - 1, z);
    }
  }

  // ---------------------------------------------------------------------
  // isGentleSlope
  // ---------------------------------------------------------------------

  /** |self - top| with a missing top (-Infinity) giving None (Infinity). */
  function Delta(self: int, top: Option<int>): (d: Option<nat>)
    ensures d.Some? <==> top.Some?
    ensures top.Some? ==> d.value == Abs(self - top.value)
  {
    if top.None? then None else Some(Abs(self - top.value))
  }

  /** The delta to one neighbour, present only when it lies in the chunk. */
  function Slot(inChunk: bool, self: int, top: Option<int>): (r: seq<Option<nat>>)
    ensures |r| <= 1
  {
    if inChunk then [Delta(self, top)] else []
  }

  /** The deltas to the in-chunk neighbours, in the source's order. */
  function NeighbourDeltas(tops: Chunk, x: int, z: int, self: int): seq<Option<nat>> {
    Slot(x > 0, self, FindTopY(tops, x - 1, z))
    + Slot(x + 1 < CHUNK_SIZE, self, FindTopY(tops, x + 1, z))
    + Slot(z > 0, self, FindTopY(tops, x, z - 1))
    + Slot(z + 1 < CHUNK_SIZE, self, FindTopY(tops, x, z + 1))
  }

  /** `Math.max(...deltas)`, None standing for Infinity. */
  function MaxOf(ds: seq<Option<nat>>): (m: Option<nat>)
    requires |ds| > 0
    ensures m.Some? <==> forall i :: 0 <= i < |ds| ==> ds[i].Some?
    ensures m.Some? ==> forall i :: 0 <= i < |ds| ==> ds[i].value <= m.value
    ensures m.Some? ==> exists i :: 0 <= i < |ds| && ds[i].value == m.value
  {
    if |ds| == 1 then ds[0]
    else
      var rest := MaxOf(ds[1..]);
      assert forall i :: 1 <= i < |ds| ==> ds[i] == ds[1..][i - 1];
      if ds[0].None? || rest.None? then None
      else if ds[0].value >= rest.value then ds[0]
      else
        assert ds[1..][0] == ds[1];
        rest
  }

  /** `isGentleSlope(topMap, x, z, maxDelta)` for a column whose own top is
      `self`; the top map is that of chunk `tops`. */
  predicate IsGentleSlope(tops: Chunk, x: int, z: int, self: int, maxDelta: nat) {
    var ds := NeighbourDeltas(tops, x, z, self);
    if |ds| == 0 then true else var m := MaxOf(ds); m.Some? && m.value <= maxDelta
  }

  /** Every delta is finite and at most maxDelta. */
  predicate AllWithin(ds: seq<Option<nat>>, maxDelta: nat) {
    forall i :: 0 <= i < |ds| ==> ds[i].Some? && ds[i].value <= maxDelta
  }

  lemma MaxOfWithin(ds: seq<Option<nat>>, maxDelta: nat)
    requires |ds| > 0
    ensures (MaxOf(ds).Some? && MaxOf(ds).value <= maxDelta) <==> AllWithin(ds, maxDelta)
  {
  }

  lemma AllWithinConcat(a: seq<Option<nat>>, b: seq<Option<nat>>, maxDelta: nat)
    ensures AllWithin(a + b, maxDelta) <==> AllWithin(a, maxDelta) && AllWithin(b, maxDelta)
  {
    if AllWithin(a, maxDelta) && AllWithin(b, maxDelta) {
      forall i | 0 <= i < |a + b| ensures (a + b)[i].Some? && (a + b)[i].value <= maxDelta {
        if i >= |a| {
          assert (a + b)[i] == b[i - |a|];
        }
      }
    }
    if AllWithin(a + b, maxDelta) {
      forall i | 0 <= i < |a| ensures a[i].Some? && a[i].value <= maxDelta {
        assert (a + b)[i] == a[i];
      }
      forall i | 0 <= i < |b| ensures b[i].Some? && b[i].value <= maxDelta {
        assert (a + b)[|a| + i] == b[i];
      }
    }
  }

  /** An in-chunk neighbour column has a top within maxDelta of self. */
  predicate NeighbourClose(tops: Chunk, nx: int, nz: int, self: int, maxDelta: nat) {
    !(0 <= nx < CHUNK_SIZE && 0 <= nz < CHUNK_SIZE)
    || (FindTopY(tops, nx, nz).Some? && Abs(self - FindTopY(tops, nx, nz).value) <= maxDelta)
  }

  /** The slope test holds exactly when each of the four neighbours inside
      the chunk has a top, within maxDelta of the column's own. */
  lemma IsGentleSlopeMeans(tops: Chunk, x: int, z: int, self: int, maxDelta: nat)
    requires 0 <= x < CHUNK_SIZE && 0 <= z < CHUNK_SIZE
    ensures IsGentleSlope(tops, x, z, self, maxDelta) <==>
      && NeighbourClose(tops, x - 1, z, self, maxDelta) && NeighbourClose(tops, x + 1, z, self, maxDelta)
      && NeighbourClose(tops, x, z - 1, self, maxDelta) && NeighbourClose(tops, x, z + 1, self, maxDelta)
  {
    var t1, t2, t3, t4 := FindTopY(tops, x - 1, z), FindTopY(tops, x + 1, z), FindTopY(tops, x, z - 1), FindTopY(tops, x, z + 1);
    var a, b, c, d := Slot(x > 0, self, t1), Slot(x + 1 < CHUNK_SIZE, self, t2), Slot(z > 0, self, t3), Slot(z + 1 < CHUNK_SIZE, self, t4);
    var ds := NeighbourDeltas(tops, x, z, self);
    assert ds == a + b + c + d;
    MaxOfWithin(ds, maxDelta);
    AllWithinConcat(a + b + c, d, maxDelta);
    AllWithinConcat(a + b, c, maxDelta);
    AllWithinConcat(a, b, maxDelta);
    SlotWithin(x > 0, self, t1, maxDelta);
    SlotWithin(x + 1 < CHUNK_SIZE, self, t2, maxDelta);
    SlotWithin(z > 0, self, t3, maxDelta);
    SlotWithin(z + 1 < CHUNK_SIZE, self, t4, maxDelta);
    assert NeighbourClose(tops, x - 1, z, self, maxDelta) <==> AllWithin(a, maxDelta);
    assert NeighbourClose(tops, x + 1, z, self, maxDelta) <==> AllWithin(b, maxDelta);
    assert NeighbourClose(tops, x, z - 1, self, maxDelta) <==> AllWithin(c, maxDelta);
    assert NeighbourClose(tops, x, z + 1, self, maxDelta) <==> AllWithin(d, maxDelta);
  }

  lemma SlotWithin(present: bool, self: int, t: Option<int>, maxDelta: nat)
    ensures AllWithin(Slot(present, self, t), maxDelta) <==> !present || (t.Some? && Abs(self - t.value) <= maxDelta)
  {
    if present {
      assert Slot(present, self, t)[0] == Delta(self, t);
    }
  }

  // ---------------------------------------------------------------------
  // clusterFactor
  // ---------------------------------------------------------------------

  /** `clusterFactor`: a density multiplier shared by each 8 x 8 tile of
      world columns (30% rich, 40% medium, 30% sparse). */
  function ClusterFactor(wx: int, wz: int, draw: Draw): (f: real)
    ensures f == 1.6 || f == 0.9 || f == 0.4
  {
    // Dafny's division by a positive constant rounds down, as Math.floor does
    var r := draw(ClusterCell, wx / 8, 0, wz / 8);
    if r < 0.3 then 1.6 else if r < 0.7 then 0.9 else 0.4
  }

  /** Columns of one 8 x 8 tile share their density. */
  lemma ClusterFactorPerTile(tx: int, tz: int, wx: int, wz: int, wx': int, wz': int, draw: Draw)
    requires 8 * tx <= wx < 8 * tx + 8 && 8 * tx <= wx' < 8 * tx + 8
    requires 8 * tz <= wz < 8 * tz + 8 && 8 * tz <= wz' < 8 * tz + 8
    ensures ClusterFactor(wx, wz, draw) == ClusterFactor(wx', wz', draw)
  {
    assert wx / 8 == tx == wx' / 8;
    assert wz / 8 == tz == wz' / 8;
  }

  // ---------------------------------------------------------------------
  // the two column passes
  // ---------------------------------------------------------------------

  /** The caller's options after defaults: `forbid` (default: nothing
      forbidden) and the three base rates (defaults 0.05, 0.01, 0.1). */
  datatype Settings = Settings(forbid: (int, int) -> bool, grassRate: real, flowerRate: real, mushroomRate: real)

  datatype VegetationOptions = VegetationOptions(
    forbid: Option<(int, int) -> bool>,
    grassRate: Option<real>, flowerRate: Option<real>, mushroomRate: Option<real>)

  /** `opts.forbid || (() => false)` and the `??` defaults. */
  function ResolveOptions(o: VegetationOptions): (s: Settings)
    ensures o.forbid.None? ==> forall wx, wz :: !s.forbid(wx, wz)
    ensures o.forbid.Some? ==> s.forbid == o.forbid.value
    ensures s.grassRate == o.grassRate.GetOr(0.05)
    ensures s.flowerRate == o.flowerRate.GetOr(0.01)
    ensures s.mushroomRate == o.mushroomRate.GetOr(0.1)
  {
    Settings(
      if o.forbid.Some? then o.forbid.value else (wx: int, wz: int) => false,
      o.grassRate.GetOr(0.05), o.flowerRate.GetOr(0.01), o.mushroomRate.GetOr(0.1))
  }

  /** Everything a column decision depends on besides the chunk. */
  datatype Env = Env(wx0: int, wz0: int, draw: Draw, settings: Settings)

  /** A surface column qualifies: it has a top below Y_MAX made of
      GRASS_BLOCK with AIR above, a gentle slope, and is not forbidden. */
  predicate SurfaceEligible(c: Chunk, tops: Chunk, x: int, z: int, env: Env) {
    var t := FindTopY(tops, x, z);
    && t.Some? && t.value + 1 <= Y_MAX
    && GetBlock(c, x, t.value, z) == GRASS_BLOCK && GetBlock(c, x, t.value + 1, z) == AIR
    && IsGentleSlope(tops, x, z, t.value, 2)
    && !env.settings.forbid(env.wx0 + x, env.wz0 + z)
  }

  /** The plant roll for a qualifying surface cell (wx, y, wz): GRASS below
      the grass rate scaled by the cluster density, else a flower (ROSE or
      DANDELION by a second roll) below the scaled grass-plus-flower rate,
      else nothing. */
  function SurfacePlant(env: Env, wx: int, y: int, wz: int): (r: Option<Byte>)
    ensures var patch := ClusterFactor(wx, wz, env.draw);
      var roll := env.draw(PlantChoice, wx, y, wz);
      && (r.Some? <==> roll < env.settings.grassRate * patch || roll < (env.settings.grassRate + env.settings.flowerRate) * patch)
      && (r == Some(GRASS) <==> roll < env.settings.grassRate * patch)
    ensures r.Some? ==> r.value == GRASS || r.value == ROSE || r.value == DANDELION
  {
    var patch := ClusterFactor(wx, wz, env.draw);
    var roll := env.draw(PlantChoice, wx, y, wz);
    if roll < env.settings.grassRate * patch then Some(GRASS)
    else if roll < (env.settings.grassRate + env.settings.flowerRate) * patch then
      Some(if env.draw(FlowerKind, wx, y + 1, wz) < 0.5 then ROSE else DANDELION)
    else None
  }

  /** The surface pass for one column: the cell and plant it places, if any. */
  function SurfaceChoice(c: Chunk, tops: Chunk, x: int, z: int, env: Env): (r: Option<(int, Byte)>)
    ensures r.Some? ==> SurfaceEligible(c, tops, x, z, env) && r.value.0 == FindTopY(tops, x, z).value + 1
    ensures r.Some? ==> r.value.1 == GRASS || r.value.1 == ROSE || r.value.1 == DANDELION
    ensures SurfaceEligible(c, tops, x, z, env) ==>
      var plant := SurfacePlant(env, env.wx0 + x, FindTopY(tops, x, z).value + 1, env.wz0 + z);
      (r.Some? <==> plant.Some?) && (r.Some? ==> r.value.1 == plant.value)
  {
    // the tests run in the source's order and each refusal yields nothing
    if !SurfaceEligible(c, tops, x, z, env) then None
    else
      var y := FindTopY(tops, x, z).value + 1;
      var plant := SurfacePlant(env, env.wx0 + x, y, env.wz0 + z);
      if plant.Some? then Some((y, plant.value)) else None
  }

  /** Column (x, z) y + 2 .. cap is all AIR. */
  function AllAir(c: Chunk, x: int, yy: int, cap: int, z: int): (r: bool)
    ensures r <==> forall y :: yy <= y <= cap ==> GetBlock(c, x, y, z) == AIR
    decreases cap - yy
  {
    if yy > cap then true
    else if GetBlock(c, x, yy, z) != AIR then false
    else AllAir(c, x, yy + 1, cap, z)
  }

  /** The sky-occlusion test: the (up to) seven cells from y + 2 to y + 8
      are all AIR. */
  predicate SkyOpen(c: Chunk, x: int, y: int, z: int) {
    AllAir(c, x, y + 2, Min(Y_MAX, y + 8), z)
  }

  /** A dark pocket at y: AIR above a floor that is neither AIR nor liquid,
      and some block within the seven cells above the air. */
  predicate Pocket(c: Chunk, x: int, y: int, z: int) {
    var here := GetBlock(c, x, y, z);
    && GetBlock(c, x, y + 1, z) == AIR
    && !(here == AIR || here == WATER || here == LAVA)
    && !SkyOpen(c, x, y, z)
  }

  /** The downward scan from y to yStart: the first pocket met. */
  function ScanPocket(c: Chunk, x: int, z: int, y: int, yStart: int): (r: Option<int>)
    ensures r.Some? ==> yStart <= r.value <= y && Pocket(c, x, r.value, z)
    ensures r.Some? ==> forall y' :: r.value < y' <= y ==> !Pocket(c, x, y', z)
    ensures r.None? ==> forall y' :: yStart <= y' <= y ==> !Pocket(c, x, y', z)
    decreases y - yStart
  {
    if y < yStart then None
    else if Pocket(c, x, y, z) then Some(y)
    else ScanPocket(c, x, z, y - 1, yStart)
  }

  lemma {:induction false} ScanPocketColumnLocal(c: Chunk, c': Chunk, x: int, z: int, y: int, yStart: int)
    requires SameColumn(c, c', x, z)
    ensures ScanPocket(c, x, z, y, yStart) == ScanPocket(c', x, z, y, yStart)
    decreases y - yStart
  {
    if y >= yStart {
      assert Pocket(c, x, y, z) == Pocket(c', x, y, z) by {
        assert AllAir(c, x, y + 2, Min(Y_MAX, y + 8), z) == AllAir(c', x, y + 2, Min(Y_MAX, y + 8), z);
      }
      ScanPocketColumnLocal(c, c', x, z, y - 1, yStart);
    }
  }

  /** The band scanned below a surface at topY. */
  function ScanStart(topY: int): int { Max(Y_MIN + 2, topY - 14) }
  function ScanEnd(topY: int): int { Max(Y_MIN + 1, topY - 3) }

  /** The mushroom pass for one column: the cell and mushroom it places, if
      any. */
  function MushroomChoice(c: Chunk, tops: Chunk, x: int, z: int, env: Env): (r: Option<(int, Byte)>)
    ensures r.Some? ==>
      var t := FindTopY(tops, x, z);
      && t.Some?
      && env.draw(MushroomColumn, env.wx0 + x, t.value, env.wz0 + z) < env.settings.mushroomRate
      && ScanStart(t.value) <= r.value.0 - 1 <= ScanEnd(t.value)
      && Pocket(c, x, r.value.0 - 1, z)
      && (forall y :: r.value.0 - 1 < y <= ScanEnd(t.value) ==> !Pocket(c, x, y, z))
    ensures r.Some? ==> r.value.1 == RED_MUSHROOM || r.value.1 == BROWN_MUSHROOM
    ensures r.None? ==>
      var t := FindTopY(tops, x, z);
      || t.None?
      || env.draw(MushroomColumn, env.wx0 + x, t.value, env.wz0 + z) >= env.settings.mushroomRate
      || forall y :: ScanStart(t.value) <= y <= ScanEnd(t.value) ==> !Pocket(c, x, y, z)
  {
    var topY := FindTopY(tops, x, z);
    if topY.None? then None
    else
      var yStart := ScanStart(topY.value);
      var yEnd := ScanEnd(topY.value);
      var wx := env.wx0 + x;
      var wz := env.wz0 + z;
      if env.draw(MushroomColumn, wx, topY.value, wz) >= env.settings.mushroomRate then None
      else
        match ScanPocket(c, x, z, yEnd, yStart)
        case None => None
        case Some(y) =>
          Some((y + 1, if env.draw(MushroomKind, wx, y, wz) < 0.5 then RED_MUSHROOM else BROWN_MUSHROOM))
  }

  datatype Pass = Surface | Mushrooms

  function Choice(pass: Pass, c: Chunk, tops: Chunk, x: int, z: int, env: Env): (r: Option<(int, Byte)>)
    ensures r.Some? ==> InChunk(x, r.value.0, z) || !(0 <= x < CHUNK_SIZE && 0 <= z < CHUNK_SIZE)
    ensures r.Some? ==> GetBlock(c, x, r.value.0, z) == AIR && IsPlant(r.value.1)
  {
    match pass
    case Surface => SurfaceChoice(c, tops, x, z, env)
    case Mushrooms => MushroomChoice(c, tops, x, z, env)
  }

  /** A column decision reads only its own column of the chunk. */
  lemma ChoiceColumnLocal(pass: Pass, c: Chunk, c': Chunk, tops: Chunk, x: int, z: int, env: Env)
    requires SameColumn(c, c', x, z)
    ensures Choice(pass, c, tops, x, z, env) == Choice(pass, c', tops, x, z, env)
  {
    var t := FindTopY(tops, x, z);
    if pass.Mushrooms? && t.Some? {
      ScanPocketColumnLocal(c, c', x, z, ScanEnd(t.value), ScanStart(t.value));
    }
  }

  /** Columns in the source's order: z outer, x inner. */
  function ColumnIndex(x: int, z: int): int { z * CHUNK_SIZE + x }

  const COLUMNS: nat := CHUNK_SIZE * CHUNK_SIZE

  lemma ColumnIndexInverse(x: int, z: int)
    requires 0 <= x < CHUNK_SIZE && 0 <= z < CHUNK_SIZE
    ensures 0 <= ColumnIndex(x, z) < COLUMNS
    ensures ColumnIndex(x, z) % CHUNK_SIZE == x && ColumnIndex(x, z) / CHUNK_SIZE == z
  {
  }

  /** One placement: column, height and block. */
  datatype Planted = Planted(x: int, y: int, z: int, id: Byte)

  /** The placements a pass makes from column k on, each column decided on
      the chunk as it stands before the pass. */
  function Planned(pass: Pass, c: Chunk, tops: Chunk, k: nat, env: Env): (r: seq<Planted>)
    requires k <= COLUMNS
    ensures |r| <= COLUMNS - k
    decreases COLUMNS - k
  {
    if k == COLUMNS then []
    else
      var x, z := k % CHUNK_SIZE, k / CHUNK_SIZE;
      var ch := Choice(pass, c, tops, x, z, env);
      (if ch.Some? then [Planted(x, ch.value.0, z, ch.value.1)] else []) + Planned(pass, c, tops, k + 1, env)
  }

  lemma {:induction false} PlannedColumnLocal(pass: Pass, c: Chunk, c': Chunk, tops: Chunk, k: nat, env: Env)
    requires k <= COLUMNS
    requires forall x, z :: 0 <= x < CHUNK_SIZE && 0 <= z < CHUNK_SIZE && ColumnIndex(x, z) >= k ==> SameColumn(c, c', x, z)
    ensures Planned(pass, c, tops, k, env) == Planned(pass, c', tops, k, env)
    decreases COLUMNS - k
  {
    if k < COLUMNS {
      ChoiceColumnLocal(pass, c, c', tops, k % CHUNK_SIZE, k / CHUNK_SIZE, env);
      PlannedColumnLocal(pass, c, c', tops, k + 1, env);
    }
  }

  /** A placement is planned from column k on exactly when its column lies
      in the chunk at or after k and the pass decides that cell and block. */
  predicate PlansFrom(pass: Pass, c: Chunk, tops: Chunk, k: nat, env: Env, p: Planted) {
    && 0 <= p.x < CHUNK_SIZE && 0 <= p.z < CHUNK_SIZE && ColumnIndex(p.x, p.z) >= k
    && Choice(pass, c, tops, p.x, p.z, env) == Some((p.y, p.id))
  }

  lemma {:induction false} PlannedMeans(pass: Pass, c: Chunk, tops: Chunk, k: nat, env: Env, p: Planted)
    requires k <= COLUMNS
    ensures p in Planned(pass, c, tops, k, env) <==> PlansFrom(pass, c, tops, k, env, p)
    decreases COLUMNS - k
  {
    if k < COLUMNS {
      PlannedMeans(pass, c, tops, k + 1, env, p);
      PlannedHead(pass, c, tops, k, env, p);
    } else {
      // no column lies at or beyond COLUMNS
      assert Planned(pass, c, tops, k, env) == [];
      if 0 <= p.x < CHUNK_SIZE && 0 <= p.z < CHUNK_SIZE {
        ColumnIndexInverse(p.x, p.z);
      }
    }
  }

  /** Column k's own placement, if any, followed by the rest of the plan. */
  lemma PlannedHead(pass: Pass, c: Chunk, tops: Chunk, k: nat, env: Env, p: Planted)
    requires k < COLUMNS
    requires p in Planned(pass, c, tops, k + 1, env) <==> PlansFrom(pass, c, tops, k + 1, env, p)
    ensures p in Planned(pass, c, tops, k, env) <==> PlansFrom(pass, c, tops, k, env, p)
  {
    var x, z := k % CHUNK_SIZE, k / CHUNK_SIZE;
    var ch := Choice(pass, c, tops, x, z, env);
    var head := if ch.Some? then [Planted(x, ch.value.0, z, ch.value.1)] else [];
    assert Planned(pass, c, tops, k, env) == head + Planned(pass, c, tops, k + 1, env);
    if 0 <= p.x < CHUNK_SIZE && 0 <= p.z < CHUNK_SIZE && ColumnIndex(p.x, p.z) == k {
      ColumnIndexInverse(p.x, p.z);
      assert p in head <==> Choice(pass, c, tops, p.x, p.z, env) == Some((p.y, p.id));
    } else {
      assert p !in head;
    }
  }

  /** What column (x, z) holds at y once a pass has run from column k on. */
  function AfterPass(pass: Pass, c: Chunk, tops: Chunk, k: nat, env: Env, x: int, y: int, z: int): Byte {
    var ch := Choice(pass, c, tops, x, z, env);
    if ColumnIndex(x, z) >= k && ch.Some? && ch.value.0 == y then ch.value.1 else GetBlock(c, x, y, z)
  }

  /** Column k of a pass applied to c. */
  function ApplyColumn(pass: Pass, c: Chunk, tops: Chunk, k: nat, env: Env): (r: Chunk)
    requires k < COLUMNS
    ensures r.chunkX == c.chunkX && r.chunkZ == c.chunkZ && r.metadata == c.metadata
  {
    var x, z := k % CHUNK_SIZE, k / CHUNK_SIZE;
    var ch := Choice(pass, c, tops, x, z, env);
    if ch.Some? then SetBlock(c, x, ch.value.0, z, ch.value.1) else c
  }

  /** After column k is applied, running the pass from k + 1 on the new
      chunk ends where running it from k on the old chunk would. */
  lemma ApplyColumnStep(pass: Pass, c: Chunk, tops: Chunk, k: nat, env: Env)
    requires k < COLUMNS
    ensures var c' := ApplyColumn(pass, c, tops, k, env);
      && Planned(pass, c', tops, k + 1, env) == Planned(pass, c, tops, k + 1, env)
      && forall x, y, z :: InChunk(x, y, z) ==>
           AfterPass(pass, c', tops, k + 1, env, x, y, z) == AfterPass(pass, c, tops, k, env, x, y, z)
  {
    var c' := ApplyColumn(pass, c, tops, k, env);
    ApplyColumnKeepsPlan(pass, c, tops, k, env);
    forall x', y', z' | InChunk(x', y', z')
      ensures AfterPass(pass, c', tops, k + 1, env, x', y', z') == AfterPass(pass, c, tops, k, env, x', y', z')
    {
      AfterPassStep(pass, c, tops, k, env, x', y', z');
    }
  }

  /** Applying column k leaves the plan of the later columns as it was. */
  lemma ApplyColumnKeepsPlan(pass: Pass, c: Chunk, tops: Chunk, k: nat, env: Env)
    requires k < COLUMNS
    ensures Planned(pass, ApplyColumn(pass, c, tops, k, env), tops, k + 1, env) == Planned(pass, c, tops, k + 1, env)
  {
    var c' := ApplyColumn(pass, c, tops, k, env);
    var x, z := k % CHUNK_SIZE, k / CHUNK_SIZE;
    forall x', z' | 0 <= x' < CHUNK_SIZE && 0 <= z' < CHUNK_SIZE && ColumnIndex(x', z') > k
      ensures SameColumn(c, c', x', z')
    {
      assert (x', z') != (x, z);
    }
    PlannedColumnLocal(pass, c', c, tops, k + 1, env);
  }

  lemma AfterPassStep(pass: Pass, c: Chunk, tops: Chunk, k: nat, env: Env, x': int, y': int, z': int)
    requires k < COLUMNS && InChunk(x', y', z')
    ensures AfterPass(pass, ApplyColumn(pass, c, tops, k, env), tops, k + 1, env, x', y', z') == AfterPass(pass, c, tops, k, env, x', y', z')
  {
    var c' := ApplyColumn(pass, c, tops, k, env);
    var x, z := k % CHUNK_SIZE, k / CHUNK_SIZE;
    if ColumnIndex(x', z') == k {
      assert x' == x && z' == z;
    } else {
      assert (x', z') != (x, z);
      assert GetBlock(c', x', y', z') == GetBlock(c, x', y', z');
      if ColumnIndex(x', z') > k {
        assert SameColumn(c, c', x', z') by {
          forall y | true ensures GetBlock(c, x', y, z') == GetBlock(c', x', y, z') { }
        }
        ChoiceColumnLocal(pass, c, c', tops, x', z', env);
      }
    }
  }

  /** A pass over the columns from k on, deciding each column on the chunk
      as the earlier columns left it, as the source's nested loops do. */
  function ColumnPass(pass: Pass, c: Chunk, tops: Chunk, k: nat, env: Env): (r: (Chunk, seq<Planted>))
    requires k <= COLUMNS
    ensures r.0.chunkX == c.chunkX && r.0.chunkZ == c.chunkZ && r.0.metadata == c.metadata
    ensures forall x, y, z :: InChunk(x, y, z) ==> GetBlock(r.0, x, y, z) == AfterPass(pass, c, tops, k, env, x, y, z)
    ensures r.1 == Planned(pass, c, tops, k, env)
    decreases COLUMNS - k
  {
    if k == COLUMNS then (c, [])
    else
      var ch := Choice(pass, c, tops, k % CHUNK_SIZE, k / CHUNK_SIZE, env);
      ApplyColumnStep(pass, c, tops, k, env);
      var rest := ColumnPass(pass, ApplyColumn(pass, c, tops, k, env), tops, k + 1, env);
      (rest.0, (if ch.Some? then [Planted(k % CHUNK_SIZE, ch.value.0, k / CHUNK_SIZE, ch.value.1)] else []) + rest.1)
  }

  /** The pass only fills AIR cells, and only with plants. */
  lemma ColumnPassFillsAir(pass: Pass, c: Chunk, tops: Chunk, env: Env, x: int, y: int, z: int)
    requires InChunk(x, y, z)
    ensures var r := ColumnPass(pass, c, tops, 0, env).0;
      GetBlock(r, x, y, z) != GetBlock(c, x, y, z) ==> GetBlock(c, x, y, z) == AIR && IsPlant(GetBlock(r, x, y, z))
  {
  }

  /** The counts `placeVegetationForChunk` returns. */
  datatype Tally = Tally(grass: nat, flowers: nat, mushrooms: nat)

  function CountIds(ps: seq<Planted>, ids: set<Byte>): (n: nat)
    ensures n <= |ps|
  {
    if ps == [] then 0 else (if ps[0].id in ids then 1 else 0) + CountIds(ps[1..], ids)
  }

  /** `placeVegetationForChunk`: the surface pass, then the mushroom pass
      on the chunk the surface pass left; both read the column tops taken
      before either pass. */
  function PlaceVegetationForChunk(c: Chunk, env: Env): (r: (Chunk, Tally))
    // the world origin of the chunk, as the pass derives it
    requires env.wx0 == c.chunkX * CHUNK_SIZE && env.wz0 == c.chunkZ * CHUNK_SIZE
    ensures r.0.chunkX == c.chunkX && r.0.chunkZ == c.chunkZ && r.0.metadata == c.metadata
    ensures forall x, y, z :: InChunk(x, y, z) && GetBlock(r.0, x, y, z) != GetBlock(c, x, y, z) ==>
      GetBlock(c, x, y, z) == AIR && IsPlant(GetBlock(r.0, x, y, z))
    // every planned surface plant and every mushroom planned on the chunk
    // the surface pass left stands in the result
    ensures forall p :: p in Planned(Surface, c, c, 0, env) ==> GetBlock(r.0, p.x, p.y, p.z) == p.id
    ensures forall p :: p in Planned(Mushrooms, ColumnPass(Surface, c, c, 0, env).0, c, 0, env) ==>
      GetBlock(r.0, p.x, p.y, p.z) == p.id
    // and every changed cell is one of those placements
    ensures forall x, y, z :: InChunk(x, y, z) && GetBlock(r.0, x, y, z) != GetBlock(c, x, y, z) ==>
      || Planted(x, y, z, GetBlock(r.0, x, y, z)) in Planned(Surface, c, c, 0, env)
      || Planted(x, y, z, GetBlock(r.0, x, y, z)) in Planned(Mushrooms, ColumnPass(Surface, c, c, 0, env).0, c, 0, env)
    ensures r.1.grass + r.1.flowers <= COLUMNS && r.1.mushrooms <= COLUMNS
    ensures r.1.grass == CountIds(Planned(Surface, c, c, 0, env), {GRASS})
    ensures r.1.flowers == CountIds(Planned(Surface, c, c, 0, env), {ROSE, DANDELION})
    ensures r.1.mushrooms == |Planned(Mushrooms, ColumnPass(Surface, c, c, 0, env).0, c, 0, env)|
  {
    var s := ColumnPass(Surface, c, c, 0, env);
    var m := ColumnPass(Mushrooms, s.0, c, 0, env);
    CountSurfaceKinds(s.1);
    PlaceVegetationFillsAir(c, env);
    PlaceVegetationMatchesPlan(c, env);
    (m.0, Tally(CountIds(s.1, {GRASS}), CountIds(s.1, {ROSE, DANDELION}), |m.1|))
  }

  lemma PlaceVegetationFillsAir(c: Chunk, env: Env)
    ensures var s := ColumnPass(Surface, c, c, 0, env).0;
      var r := ColumnPass(Mushrooms, s, c, 0, env).0;
      forall x, y, z :: InChunk(x, y, z) && GetBlock(r, x, y, z) != GetBlock(c, x, y, z) ==>
        GetBlock(c, x, y, z) == AIR && IsPlant(GetBlock(r, x, y, z))
  {
    var s := ColumnPass(Surface, c, c, 0, env).0;
    var r := ColumnPass(Mushrooms, s, c, 0, env).0;
    forall x, y, z | InChunk(x, y, z) && GetBlock(r, x, y, z) != GetBlock(c, x, y, z)
      ensures GetBlock(c, x, y, z) == AIR && IsPlant(GetBlock(r, x, y, z))
    {
      ColumnPassFillsAir(Surface, c, c, env, x, y, z);
      ColumnPassFillsAir(Mushrooms, s, c, env, x, y, z);
    }
  }

  /** The two passes place exactly their plans: each planned cell holds its
      block, and each changed cell is planned by one of the passes. */
  lemma PlaceVegetationMatchesPlan(c: Chunk, env: Env)
    ensures var s := ColumnPass(Surface, c, c, 0, env).0;
      var r := ColumnPass(Mushrooms, s, c, 0, env).0;
      && (forall p :: p in Planned(Surface, c, c, 0, env) ==> GetBlock(r, p.x, p.y, p.z) == p.id)
      && (forall p :: p in Planned(Mushrooms, s, c, 0, env) ==> GetBlock(r, p.x, p.y, p.z) == p.id)
      && (forall x, y, z :: InChunk(x, y, z) && GetBlock(r, x, y, z) != GetBlock(c, x, y, z) ==>
            || Planted(x, y, z, GetBlock(r, x, y, z)) in Planned(Surface, c, c, 0, env)
            || Planted(x, y, z, GetBlock(r, x, y, z)) in Planned(Mushrooms, s, c, 0, env))
  {
    var s := ColumnPass(Surface, c, c, 0, env).0;
    var r := ColumnPass(Mushrooms, s, c, 0, env).0;
    forall p | p in Planned(Surface, c, c, 0, env)
      ensures GetBlock(r, p.x, p.y, p.z) == p.id
    {
      SurfacePlantStands(c, s, r, env, p);
    }
    forall p | p in Planned(Mushrooms, s, c, 0, env)
      ensures GetBlock(r, p.x, p.y, p.z) == p.id
    {
      PlannedMeans(Mushrooms, s, c, 0, env, p);
    }
    forall x, y, z | InChunk(x, y, z) && GetBlock(r, x, y, z) != GetBlock(c, x, y, z)
      ensures || Planted(x, y, z, GetBlock(r, x, y, z)) in Planned(Surface, c, c, 0, env)
              || Planted(x, y, z, GetBlock(r, x, y, z)) in Planned(Mushrooms, s, c, 0, env)
    {
      ChangedCellPlanned(c, s, r, env, x, y, z);
    }
  }

  /** A planned surface plant survives the mushroom pass, which only fills
      AIR. */
  lemma SurfacePlantStands(c: Chunk, s: Chunk, r: Chunk, env: Env, p: Planted)
    requires s == ColumnPass(Surface, c, c, 0, env).0 && r == ColumnPass(Mushrooms, s, c, 0, env).0
    requires p in Planned(Surface, c, c, 0, env)
    ensures GetBlock(r, p.x, p.y, p.z) == p.id
  {
    PlannedMeans(Surface, c, c, 0, env, p);
    assert GetBlock(s, p.x, p.y, p.z) == p.id;
    ColumnPassFillsAir(Mushrooms, s, c, env, p.x, p.y, p.z);
  }

  /** One changed cell: a surface plant the mushroom pass kept, or a
      mushroom placed on the surface pass's chunk. */
  lemma ChangedCellPlanned(c: Chunk, s: Chunk, r: Chunk, env: Env, x: int, y: int, z: int)
    requires s == ColumnPass(Surface, c, c, 0, env).0 && r == ColumnPass(Mushrooms, s, c, 0, env).0
    requires InChunk(x, y, z) && GetBlock(r, x, y, z) != GetBlock(c, x, y, z)
    ensures || Planted(x, y, z, GetBlock(r, x, y, z)) in Planned(Surface, c, c, 0, env)
            || Planted(x, y, z, GetBlock(r, x, y, z)) in Planned(Mushrooms, s, c, 0, env)
  {
    var id := GetBlock(r, x, y, z);
    ColumnPassFillsAir(Surface, c, c, env, x, y, z);
    ColumnPassFillsAir(Mushrooms, s, c, env, x, y, z);
    ColumnIndexInverse(x, z);
    if GetBlock(s, x, y, z) != GetBlock(c, x, y, z) {
      assert GetBlock(r, x, y, z) == GetBlock(s, x, y, z);
      assert GetBlock(s, x, y, z) == AfterPass(Surface, c, c, 0, env, x, y, z);
      PlannedMeans(Surface, c, c, 0, env, Planted(x, y, z, id));
      assert PlansFrom(Surface, c, c, 0, env, Planted(x, y, z, id));
    } else {
      assert GetBlock(r, x, y, z) == AfterPass(Mushrooms, s, c, 0, env, x, y, z);
      PlannedMeans(Mushrooms, s, c, 0, env, Planted(x, y, z, id));
      assert PlansFrom(Mushrooms, s, c, 0, env, Planted(x, y, z, id));
    }
  }

  lemma {:induction false} CountSurfaceKinds(ps: seq<Planted>)
    ensures CountIds(ps, {GRASS}) + CountIds(ps, {ROSE, DANDELION}) <= |ps|
  {
    if ps != [] {
      CountSurfaceKinds(ps[1..]);
    }
  }
}

=== FILE: world.dfy ===
/** The world index (voxel_engine.js VoxelWorld): the chunk map, world-space
    reads, the batch session, rebuild scheduling and the two write paths that
    carry no fluid hooks (`_setBlockRaw`, `setBlockWorldWithMeta`). A call of a
    render chunk's `rebuildGeometry` is modelled as appending its chunk
    position to the `rebuilds` log. */
module World {
  import opened Blocks
  import opened Options
  import opened Chunk
  import opened Coords
  import OrderedSet
  import opened FluidGraph

  /** A chunk-map key; replaces the string `${cx},${cz}`. */
  datatype ChunkPos = ChunkPos(cx: int, cz: int)

  datatype World = World(
    chunks: map<ChunkPos, Chunk>,
    renderChunks: set<ChunkPos>,        // chunks with a registered render chunk
    batch: Option<seq<ChunkPos>>,       // `_batchChunks`: None when no session is open
    rebuilds: seq<ChunkPos>,            // every rebuildGeometry call, in order
    fluid: FluidState)

  const EmptyWorld := World(map[], {}, None, [], EmptyFluidState)

  function GetChunk(w: World, cx: int, cz: int): (r: Option<Chunk>)
    ensures r.Some? <==> ChunkPos(cx, cz) in w.chunks
    ensures r.Some? ==> r.value == w.chunks[ChunkPos(cx, cz)]
  {
    if ChunkPos(cx, cz) in w.chunks then Some(w.chunks[ChunkPos(cx, cz)]) else None
  }

  /** Installs (or replaces) the chunk stored under (cx, cz). */
  function SetChunk(w: World, cx: int, cz: int, c: Chunk): (r: World)
    ensures GetChunk(r, cx, cz) == Some(c)
    ensures forall cx', cz' :: (cx', cz') != (cx, cz) ==> GetChunk(r, cx', cz') == GetChunk(w, cx', cz')
    ensures r.renderChunks == w.renderChunks && r.batch == w.batch && r.rebuilds == w.rebuilds && r.fluid == w.fluid
  {
    w.(chunks := w.chunks[ChunkPos(cx, cz) := c])
  }

  function RegisterRenderChunk(w: World, cx: int, cz: int): (r: World)
    ensures r.renderChunks == w.renderChunks + {ChunkPos(cx, cz)}
    ensures r.chunks == w.chunks && r.batch == w.batch && r.rebuilds == w.rebuilds && r.fluid == w.fluid
  {
    w.(renderChunks := w.renderChunks + {ChunkPos(cx, cz)})
  }

  /** The chunk holding world column (wx, wz). */
  function PosOf(wx: int, wz: int): ChunkPos {
    ChunkPos(ChunkCoord(wx), ChunkCoord(wz))
  }

  /** A world cell backed by storage: y in range and its chunk loaded. */
  predicate Loaded(w: World, wx: int, wy: int, wz: int) {
    Y_MIN <= wy <= Y_MAX && PosOf(wx, wz) in w.chunks
  }

  /** `getBlockWorld`: AIR outside [Y_MIN, Y_MAX] and in unloaded chunks. */
  function GetBlockWorld(w: World, wx: int, wy: int, wz: int): (id: Byte)
    ensures !Loaded(w, wx, wy, wz) ==> id == AIR
  {
    if wy < Y_MIN || wy > Y_MAX then AIR
    else if PosOf(wx, wz) !in w.chunks then AIR
    else GetBlock(w.chunks[PosOf(wx, wz)], LocalCoord(wx), wy, LocalCoord(wz))
  }

  /** Reads depend on the chunk storage alone: two worlds with the same
      chunks read the same block and level everywhere, whatever their fluid
      state or batch session. */
  lemma SameChunksSameReads(a: World, b: World)
    requires a.chunks == b.chunks
    ensures forall x, y, z :: GetBlockWorld(a, x, y, z) == GetBlockWorld(b, x, y, z)
    ensures forall x, y, z :: GetFluidLevel(a, x, y, z) == GetFluidLevel(b, x, y, z)
  {
  }

  /** World reads address chunk storage: cell (lx, y, lz) of chunk (cx, cz) is
      world cell (cx*16 + lx, y, cz*16 + lz). */
  lemma GetBlockWorldReadsChunk(w: World, cx: int, cz: int, lx: int, y: int, lz: int)
    requires ChunkPos(cx, cz) in w.chunks && InChunk(lx, y, lz)
    ensures Loaded(w, cx * CHUNK_SIZE + lx, y, cz * CHUNK_SIZE + lz)
    ensures GetBlockWorld(w, cx * CHUNK_SIZE + lx, y, cz * CHUNK_SIZE + lz) == GetBlock(w.chunks[ChunkPos(cx, cz)], lx, y, lz)
  {
    ChunkLocalRoundTrip(cx, lx);
    ChunkLocalRoundTrip(cz, lz);
  }

  /** `_getFluidLevel`: the metadata byte of a loaded cell, else `null`. */
  function GetFluidLevel(w: World, wx: int, wy: int, wz: int): (m: Option<Byte>)
    ensures m.Some? <==> Loaded(w, wx, wy, wz)
  {
    if PosOf(wx, wz) !in w.chunks then None
    else GetMeta(w.chunks[PosOf(wx, wz)], LocalCoord(wx), wy, LocalCoord(wz))
  }

  // ---------------------------------------------------------------------
  // Batch session and rebuild scheduling
  // ---------------------------------------------------------------------

  /** Opens a session with an empty dirty set, discarding any open one. */
  function BeginBatch(w: World): (r: World)
    ensures r.batch == Some([])
    ensures r.chunks == w.chunks && r.renderChunks == w.renderChunks && r.rebuilds == w.rebuilds && r.fluid == w.fluid
  {
    w.(batch := Some([]))
  }

  /** The keys that have a registered render chunk, in order. */
  function RegisteredOnly(keys: seq<ChunkPos>, render: set<ChunkPos>): (r: seq<ChunkPos>)
    ensures forall k :: k in r <==> k in keys && k in render
    ensures |r| <= |keys|
    ensures OrderedSet.NoDup(keys) ==> OrderedSet.NoDup(r)
  {
    if |keys| == 0 then []
    else
      var rest := RegisteredOnly(keys[1..], render);
      assert OrderedSet.NoDup(keys) ==> keys[0] !in rest by {
        if OrderedSet.NoDup(keys) {
          OrderedSet.HeadNotInTail(keys);
        }
      }
      assert OrderedSet.NoDup(keys) ==> OrderedSet.NoDup([keys[0]] + rest) by {
        if OrderedSet.NoDup(keys) {
          OrderedSet.NoDupCons(keys[0], rest);
        }
      }
      if keys[0] in render then [keys[0]] + rest else rest
  }

  /** `endBatch`: rebuilds every registered dirty chunk once, then closes the
      session; a no-op when no session is open. */
  function EndBatch(w: World): (r: World)
    ensures w.batch.None? ==> r == w
    ensures r.batch.None?
    ensures |w.rebuilds| <= |r.rebuilds| && r.rebuilds[..|w.rebuilds|] == w.rebuilds
    ensures w.batch.Some? ==> forall k :: k in r.rebuilds[|w.rebuilds|..] <==> k in w.batch.value && k in w.renderChunks
    ensures w.batch.Some? && OrderedSet.NoDup(w.batch.value) ==> OrderedSet.NoDup(r.rebuilds[|w.rebuilds|..])
    ensures r.chunks == w.chunks && r.renderChunks == w.renderChunks && r.fluid == w.fluid
  {
    match w.batch
    case None => w
    case Some(dirty) =>
      var r := w.(batch := None, rebuilds := w.rebuilds + RegisteredOnly(dirty, w.renderChunks));
      assert r.rebuilds[|w.rebuilds|..] == RegisteredOnly(dirty, w.renderChunks);
      r
  }

  /** The chunks whose mesh a write at column (wx, wz) affects: its own, and
      the neighbour across each seam the local cell touches. */
  function AffectedChunks(wx: int, wz: int): (r: seq<ChunkPos>)
    ensures |r| >= 1 && r[0] == PosOf(wx, wz)
    ensures |r| <= 3
    ensures OrderedSet.NoDup(r)
    ensures forall k :: k in r <==>
      || k == PosOf(wx, wz)
      || (LocalCoord(wx) == 0 && k == ChunkPos(ChunkCoord(wx) - 1, ChunkCoord(wz)))
      || (LocalCoord(wx) == CHUNK_SIZE - 1 && k == ChunkPos(ChunkCoord(wx) + 1, ChunkCoord(wz)))
      || (LocalCoord(wz) == 0 && k == ChunkPos(ChunkCoord(wx), ChunkCoord(wz) - 1))
      || (LocalCoord(wz) == CHUNK_SIZE - 1 && k == ChunkPos(ChunkCoord(wx), ChunkCoord(wz) + 1))
  {
    var cx := ChunkCoord(wx);
    var cz := ChunkCoord(wz);
    var lx := LocalCoord(wx);
    var lz := LocalCoord(wz);
    [ChunkPos(cx, cz)]
      + (if lx == 0 then [ChunkPos(cx - 1, cz)] else [])
      + (if lx == CHUNK_SIZE - 1 then [ChunkPos(cx + 1, cz)] else [])
      + (if lz == 0 then [ChunkPos(cx, cz - 1)] else [])
      + (if lz == CHUNK_SIZE - 1 then [ChunkPos(cx, cz + 1)] else [])
  }

  /** What scheduling `keys` does: with a session open they join the dirty
      set and nothing is rebuilt; otherwise each registered key is rebuilt
      at once, in order. */
  ghost predicate Scheduled(w: World, r: World, keys: seq<ChunkPos>) {
    && (w.batch.Some? ==>
          && r.batch.Some?
          && r.rebuilds == w.rebuilds
          && (forall k :: k in r.batch.value <==> k in w.batch.value || k in keys)
          && (OrderedSet.NoDup(w.batch.value) ==> OrderedSet.NoDup(r.batch.value)))
    && (w.batch.None? ==> r.batch.None? && r.rebuilds == w.rebuilds + RegisteredOnly(keys, w.renderChunks))
  }

  function ScheduleRebuilds(w: World, keys: seq<ChunkPos>): (r: World)
    ensures Scheduled(w, r, keys)
    ensures r.chunks == w.chunks && r.renderChunks == w.renderChunks && r.fluid == w.fluid
  {
    match w.batch
    case Some(dirty) => w.(batch := Some(OrderedSet.AddAll(dirty, keys)))
    case None => w.(rebuilds := w.rebuilds + RegisteredOnly(keys, w.renderChunks))
  }

  /** A change that leaves the session state as it was: a closed session stays
      closed, an open one stays open, logs no rebuild, loses no dirty key
      and keeps its dirty set duplicate-free. */
  ghost predicate BatchKept(w: World, r: World) {
    && (w.batch.None? ==> r.batch.None?)
    && (w.batch.Some? ==>
          && r.batch.Some?
          && r.rebuilds == w.rebuilds
          && (forall k :: k in w.batch.value ==> k in r.batch.value)
          && (OrderedSet.NoDup(w.batch.value) ==> OrderedSet.NoDup(r.batch.value)))
  }

  lemma BatchKeptTrans(a: World, b: World, c: World)
    requires BatchKept(a, b) && BatchKept(b, c)
    ensures BatchKept(a, c)
  {
  }

  /** The keys were scheduled by a write that later steps did not undo: with
      a session open they are all dirty; without one, the log continues
      with the registered keys' rebuilds (later steps may append more). */
  ghost predicate ScheduledKept(w: World, r: World, keys: seq<ChunkPos>) {
    && (w.batch.Some? ==> r.batch.Some? && forall k :: k in keys ==> k in r.batch.value)
    && (w.batch.None? ==> w.rebuilds + RegisteredOnly(keys, w.renderChunks) <= r.rebuilds)
  }

  lemma ScheduledIsKept(w: World, r: World, keys: seq<ChunkPos>)
    requires Scheduled(w, r, keys)
    ensures ScheduledKept(w, r, keys)
  {
  }

  /** A step that keeps the session and only extends a closed session's log
      keeps what was scheduled before it. */
  lemma ScheduledKeptThen(w: World, w1: World, r: World, keys: seq<ChunkPos>)
    requires ScheduledKept(w, w1, keys)
    requires w.batch.None? ==> w1.batch.None?
    requires BatchKept(w1, r)
    requires w1.batch.None? ==> w1.rebuilds <= r.rebuilds
    ensures ScheduledKept(w, r, keys)
  {
  }

  /** Every cell except p reads the same block. */
  ghost predicate BlocksKeptExcept(w: World, r: World, x: int, y: int, z: int) {
    forall x', y', z' :: (x', y', z') != (x, y, z) ==> GetBlockWorld(r, x', y', z') == GetBlockWorld(w, x', y', z')
  }

  /** Every cell except p reads the same metadata. */
  ghost predicate MetaKeptExcept(w: World, r: World, x: int, y: int, z: int) {
    forall x', y', z' :: (x', y', z') != (x, y, z) ==> GetFluidLevel(r, x', y', z') == GetFluidLevel(w, x', y', z')
  }

  /** Every cell reads the same metadata. */
  ghost predicate MetaKept(w: World, r: World) {
    forall x', y', z' :: GetFluidLevel(r, x', y', z') == GetFluidLevel(w, x', y', z')
  }

  /** Writes a block id into the loaded cell's chunk storage. */
  function StoreBlock(w: World, wx: int, wy: int, wz: int, id: Byte): (r: World)
    requires Loaded(w, wx, wy, wz)
    ensures GetBlockWorld(r, wx, wy, wz) == id
    ensures BlocksKeptExcept(w, r, wx, wy, wz)
    ensures MetaKept(w, r)
    ensures r.chunks.Keys == w.chunks.Keys
    ensures r.renderChunks == w.renderChunks && r.batch == w.batch && r.rebuilds == w.rebuilds && r.fluid == w.fluid
  {
    var pos := PosOf(wx, wz);
    var c := w.chunks[pos];
    var r := w.(chunks := w.chunks[pos := SetBlock(c, LocalCoord(wx), wy, LocalCoord(wz), id)]);
    assert forall x', y', z' :: PosOf(x', z') == pos && (x', y', z') != (wx, wy, wz) ==>
      (LocalCoord(x'), y', LocalCoord(z')) != (LocalCoord(wx), wy, LocalCoord(wz));
    r
  }

  /** Writes a metadata byte into the loaded cell's chunk storage. */
  function StoreMeta(w: World, wx: int, wy: int, wz: int, m: Byte): (r: World)
    requires Loaded(w, wx, wy, wz)
    ensures GetFluidLevel(r, wx, wy, wz) == Some(m)
    ensures MetaKeptExcept(w, r, wx, wy, wz)
    ensures forall x', y', z' :: GetBlockWorld(r, x', y', z') == GetBlockWorld(w, x', y', z')
    ensures r.chunks.Keys == w.chunks.Keys
    ensures r.renderChunks == w.renderChunks && r.batch == w.batch && r.rebuilds == w.rebuilds && r.fluid == w.fluid
  {
    var pos := PosOf(wx, wz);
    var c := w.chunks[pos];
    var r := w.(chunks := w.chunks[pos := SetMeta(c, LocalCoord(wx), wy, LocalCoord(wz), m)]);
    assert forall x', y', z' :: PosOf(x', z') == pos && (x', y', z') != (wx, wy, wz) ==>
      (LocalCoord(x'), y', LocalCoord(z')) != (LocalCoord(wx), wy, LocalCoord(wz));
    r
  }

  /** `_setBlockRaw`: the plain world write with rebuild scheduling and no
      fluid or sponge hooks. */
  function SetBlockRaw(w: World, wx: int, wy: int, wz: int, id: Byte): (r: World)
    ensures !Loaded(w, wx, wy, wz) || GetBlockWorld(w, wx, wy, wz) == id ==> r == w
    ensures Loaded(w, wx, wy, wz) ==> GetBlockWorld(r, wx, wy, wz) == id
    ensures BlocksKeptExcept(w, r, wx, wy, wz)
    ensures MetaKept(w, r)
    ensures Loaded(w, wx, wy, wz) && GetBlockWorld(w, wx, wy, wz) != id ==> Scheduled(w, r, AffectedChunks(wx, wz))
    ensures BatchKept(w, r)
    ensures r.chunks.Keys == w.chunks.Keys && r.renderChunks == w.renderChunks && r.fluid == w.fluid
  {
    if wy < Y_MIN || wy > Y_MAX then w
    else if PosOf(wx, wz) !in w.chunks then w
    else if GetBlockWorld(w, wx, wy, wz) == id then w
    else ScheduleRebuilds(StoreBlock(w, wx, wy, wz, id), AffectedChunks(wx, wz))
  }

  /** `setBlockWorldWithMeta`: writes id and metadata together; a no-op when
      both already hold; no fluid or sponge hooks. */
  function SetBlockWorldWithMeta(w: World, wx: int, wy: int, wz: int, id: Byte, meta: Byte): (r: World)
    ensures !Loaded(w, wx, wy, wz) ==> r == w
    ensures GetBlockWorld(w, wx, wy, wz) == id && GetFluidLevel(w, wx, wy, wz) == Some(meta) ==> r == w
    ensures Loaded(w, wx, wy, wz) ==> GetBlockWorld(r, wx, wy, wz) == id && GetFluidLevel(r, wx, wy, wz) == Some(meta)
    ensures BlocksKeptExcept(w, r, wx, wy, wz)
    ensures MetaKeptExcept(w, r, wx, wy, wz)
    ensures Loaded(w, wx, wy, wz) && (GetBlockWorld(w, wx, wy, wz) != id || GetFluidLevel(w, wx, wy, wz) != Some(meta))
      ==> Scheduled(w, r, AffectedChunks(wx, wz))
    ensures BatchKept(w, r)
    ensures r.chunks.Keys == w.chunks.Keys && r.renderChunks == w.renderChunks && r.fluid == w.fluid
  {
    if wy < Y_MIN || wy > Y_MAX then w
    else if PosOf(wx, wz) !in w.chunks then w
    else if GetBlockWorld(w, wx, wy, wz) == id && GetFluidLevel(w, wx, wy, wz) == Some(meta) then w
    else
      var w1 := StoreBlock(w, wx, wy, wz, id);
      var w2 := StoreMeta(w1, wx, wy, wz, meta);
      ScheduleRebuilds(w2, AffectedChunks(wx, wz))
  }
}
